=== FILE: README.md ===
# callpy_nemo call-plan engine, modelled in Dafny

callpy_nemo drives telephone calls on an Asterisk PBX from a declarative
call plan. A plan is a tree: a room holds bridges, a bridge holds chans
(outbound, inbound, snoop or external-media channels), and a chan holds
clips (audio playbacks). Every node carries triggers that watch a
`(tag, status)` pair. Every status the room learns, from a PBX event, from a
node or from the HTTP API, is written to the room's status ledger
(`tags_statuses`). Each write re-evaluates the triggers level by level:
room, then bridges, then chans, then clips. A matched trigger that is still
active is switched off and then starts a node, terminates one, or runs a
function.

This project models that engine as pure functions over immutable data and
proves what it promises:

- `Dialplan`: the permissive parser of the plan tree.
- `Ledger`: the status ledger, with its first-record / rewrite discipline.
- `Live` and `Cascade`: the live tree of bridges, chans and clips, and the
  recursive trigger cascade of `add_tag_status`. The cascade terminates
  because every firing removes one live trigger. After any write, no room
  terminate trigger and no bridge start trigger is left waiting to fire.
- `ChanStart` and `Clips`: the `start_chan` decision procedures of the four
  chan classes, and `start_clip`, `stop_clip` and `check_fully_playback`.
- `Rooms`: the room constructor, the scheduled coroutines, the trigger-event
  handler and the termination handlers.
- `TriggerEvents`: the event correlator, which turns raw PBX events into
  trigger events, and its FIFO queue.
- `GoodFunc`, `Calls` and `Leads`: the timestamp normaliser, the call
  record with its dial options, and the lead record with its validator.
- `Dialers` and `Routes`: one pass of the dialer's two loops, and the
  admission and dispatch logic of the `originate`, `hangup`, `restart` and
  `extapi` routes.
- `Findings`: four places where the code does not do what it evidently
  means.

## How the model is built

- **asyncio.** An `await` is a nested call. `asyncio.create_task` appends a
  `Task` to the step's task list, and `Rooms.RunTask` runs one such task.
  A chan's `add_status_chan` is itself a `create_task`, so a chan's status
  write is scheduled twice removed (`Schedule`, then `Record`).
- **Trigger state.** The parsed plan never changes inside a room.
  `trigger.active = False` is modelled by adding the trigger's plan position
  (`Ref`) to the room's `fired` set. A trigger is live when it was parsed
  active and has not fired.
- **Termination.** The measure of the cascade is the number of live
  triggers in the plan.
- **Effects and the PBX.** Remote calls to the PBX are collected as a
  sequence of `Effect`s. The PBX's answer to each call is a parameter
  (`Pbx = Effect -> Response`), so "no remote call is made" can be stated.
- **Node lookup.** Children are visited in plan order. The live node of a
  plan position is the one registered under the plan's tag, and it is
  looked up again after every nested write.
- **Identifiers.** The room's `lead_id`, `call_id` and `druid` are uninterpreted
  fields. The source reads all three, but the room only ever sets the first.

## Behaviour of the code worth knowing

- **Missing plan tag.** A plan node without a `tag` gets the tag 'unknown';
  nothing is raised (src/custom_dataclasses/dialplan.py:33).
- **Delimiter and unowned events.** Resource ids are split on `-call_id-`.
  An event whose resource id lacks it gets tag and call id 'UNKNOWN' and is
  still queued, like every event the deny-list lets through, provided
  `config.asterisk_ari_log` is set: without it the listener neither
  correlates nor queues anything (src/ws_clients/asterisk_web_socket.py:65).
- **Function triggers.** A clip trigger of any action runs
  `check_fully_playback` when its watched pair is recorded and its `func`
  names that function; the action 'func' matters only in that such a
  trigger without a `func` is skipped (src/clip.py:81-93).
- **Route errors.** Only a closed application is answered with status code
  503. A duplicate lead and an unknown call id get an ordinary reply whose
  body says 'ERROR'.
- **Message pump order.** The dialer's message pump pops from the end of
  its queue, so delivery is last-in first-out (`Dialers.PumpIsLifo`).
- **Fully played back.** `check_fully_playback` looks only at the first
  recorded 'PlaybackFinished' value, not at later rewrites. The PBX never
  records that status on a clip's tag: a clip plays with the playback id
  `<tag>-druid-<druid>` (src/clip.py:32, 106-108), which holds no
  `-call_id-`, so its playback events land on the tag 'UNKNOWN'
  (`Findings.PlaybackOfClipLandsOnUnknown`). Only an ExternalEvent naming
  the clip's tag can record it there. Bridge ids `<tag>-id-<lead id>`
  (src/bridge.py:28) have the same effect on bridge events
  (`Findings.BridgeEventLandsOnUnknown`).
- **Event times.** `calc_delay` parses the normalised event timestamp and
  the local clock reading with the format `%Y-%m-%dT%H:%M:%S.%f`. When
  either does not parse, ValueError is raised before the trigger event is
  built, and it ends the listening session that received the event
  (src/ws_clients/asterisk_web_socket.py:69, 76-77). This happens for an
  event without a timestamp, for a space-separated timestamp with an offset
  (see Findings), and for a clock reading taken at a whole second, which
  `isoformat()` writes without a fraction.

## Model

| member | source | states |
|---|---|---|
| Dialplan.ParseTrigger | src/custom_dataclasses/dialplan.py:12-16 | a missing trigger key defaults: watched tag, watched status and action to 'unknown', active to true, func to absent; present keys are kept |
| Dialplan.ParseTriggers | src/custom_dataclasses/dialplan.py:38-42 | the parsed triggers have the same length and order as the raw list, each parsed on its own |
| Dialplan.ParsePlan | src/custom_dataclasses/dialplan.py:29-48 | parsing is total; missing name, tag and type become 'unknown', a missing status 'init', missing params empty; an absent or empty trigger list gives none; there is one parsed child per raw child, and every child carries the same app |
| Dialplan.ParsePlanChildren | src/custom_dataclasses/dialplan.py:44-48 | the i-th parsed child is the parse of the i-th raw child, so content order is kept |
| Dialplan.ParsePlanPropagatesApp | src/custom_dataclasses/dialplan.py:30-47 | every node of the parsed tree, at any depth, carries the app given at the root |
| Dialplan.ParseUnparse | src/custom_dataclasses/dialplan.py:29-48 | round trip: a plan tree whose nodes carry one app, written out with every key present and parsed again, is the same tree |
| GoodFunc.FixIsoTimestamp | src/good_func/good_func.py:4-18 | the four branches: with '+', the first 23 characters then "000"; 26 characters without 'T', spaces become 'T'; 26 characters with 'T', unchanged; anything else, ''; without '+' the result is '' or exactly 26 long |
| GoodFunc.FixIsoTimestampCorrected | src/good_func/good_func.py:7-9 | the offset branch as its comment intends: cut to milliseconds, padded to microseconds, the space turned into 'T', no space left; every other input is treated as written |
| GoodFunc.FixIsoTimestampCorrectedIdempotent | src/good_func/good_func.py:4-18 | normalising a normalised timestamp changes nothing (offset inputs of at least 23 characters) |
| TriggerEvents.ScopedId | src/trigger_event_manager.py:62-83 | a resource id is read exactly for the listed channel, Dial, bridge and playback event types |
| TriggerEvents.Correlate | src/trigger_event_manager.py:16-55 | an event is produced exactly when the normalised timestamp and the clock reading both have the form `calc_delay` parses, and otherwise the ValueError is the result (always so without a timestamp); a produced event has non-empty application, asterisk id and type ('UNKNOWN' stands in), the normalised timestamp as external time and the clock reading as trigger time, and an ExternalEvent takes tag, call id, status and value from its own fields |
| TriggerEvents.CorrelateCorrected | src/good_func/good_func.py:7-11 | the correlator with the corrected normaliser: it fails exactly when the corrected timestamp or the clock reading does not parse, agrees with the correlator as written on every timestamp without an offset, and where both produce an event the two differ at most in the external time |
| TriggerEvents.CorrelateStatusAndValue | src/trigger_event_manager.py:118-181 | in every produced event, every non-external status begins with the event type; composite statuses are type '#' detail (state, variable, digit, channel id, non-empty dialstatus), and every other type's status is the type itself; the value-carrying types (state change, varset, DTMF, Dial, hangup request, destroyed, playback started and finished) read their value from their own field, playback media URI and state falling back to '', and every other type gets '' |
| TriggerEvents.SplitComposite | src/trigger_event_manager.py:71-72 | splitting `tag-call_id-rest` on the delimiter gives back `tag`, and the call id is `rest` cut at any second delimiter |
| TriggerEvents.CorrelateSplitsScopedId | src/trigger_event_manager.py:57-116 | for every listed type whose resource id is `tag-call_id-rest`, a produced event has that tag and that call id |
| TriggerEvents.CorrelateUnknownOwner | src/trigger_event_manager.py:57-116 | in a produced event, an unlisted type or a resource id without the delimiter gives 'UNKNOWN' for both tag and call id |
| TriggerEvents.ParsesAsIsoTime | src/trigger_event_manager.py:52-55 | `strptime` with `%Y-%m-%dT%H:%M:%S.%f` accepts the string: 26 characters with every field at full width (the day also as a space and a digit), 'T' in either case, and a date and time that exist |
| TriggerEvents.Strptime | src/trigger_event_manager.py:52-55 | a date and time is read exactly when the string is accepted, and it is always one the `datetime` constructor allows |
| TriggerEvents.IsoformatParses | src/trigger_event_manager.py:20-23 | the clock reading `isoformat()` writes is accepted exactly when its microseconds are not 0, and then it reads back as the same date and time |
| TriggerEvents.StrptimeIsoformat | src/trigger_event_manager.py:52-55 | the other direction: a string in the exact form `isoformat()` writes is what `isoformat()` writes for the date and time read from it |
| TriggerEvents.Forwarded | src/ws_clients/asterisk_web_socket.py:69-74 | with `config.asterisk_ari_log` set (line 65), a correlated event is queued unless its type is ChannelDialplan or its status is ChannelVarset#SIPCALLID |
| TriggerEvents.ForwardedPbxEvents | src/ws_clients/asterisk_web_socket.py:12-18 | among correlated PBX events, every ChannelDialplan event is dropped, and a ChannelVarset event exactly when the variable it sets is SIPCALLID |
| TriggerEvents.Append | src/trigger_event_manager.py:45-46 | appending adds the event at the end and keeps everything before it |
| TriggerEvents.PopFirst | src/trigger_event_manager.py:48-49 | popping fails exactly on an empty queue; otherwise the popped event followed by the rest is the old queue |
| TriggerEvents.PopAll | src/trigger_event_manager.py:48-49 | popping until empty yields the queue's events in queue order |
| TriggerEvents.QueueIsFifo | src/trigger_event_manager.py:45-49 | append then drain: the old contents come out first and the new event last |
| Text.MatchesNonDigits | src/lead.py:31 | `^[^0-9]+$` matches exactly the non-empty strings without a decimal digit |
| Leads.Field | src/lead.py:10-20 | an absent key reads as '' and a present one as its value |
| Leads.LeadIdOf | src/lead.py:23-28 | a non-empty supplied lead id is kept; a missing or empty one is replaced by the generated one |
| Leads.NewLead | src/lead.py:8-20 | the lead id follows `get_lead_id`, and every other field is its parameter or '' |
| Leads.AbsentFieldsDefaultEmpty | src/lead.py:9-28 | for every parameter map, each of the eleven fields whose key is absent is '', and a missing lead id is replaced by the generated one |
| Leads.NewLeadRoundTrip | src/lead.py:8-28 | round trip: a lead rebuilt from its own parameters, every field under its key, is the same lead whenever its id is not empty |
| Leads.ParamsOfNewLead | src/lead.py:8-28 | the other direction: the parameters of a built lead give back every key the constructor read (a non-empty lead id included), and '' for every other field key |
| Leads.CheckParams | src/lead.py:30-41 | the lead passes exactly when the client phone has a digit and the prefix, caller id and external caller id are each empty or have a digit; otherwise the first failing check names its field |
| Calls.CallIdOf | src/call.py:20 | a call id is 'X' followed by at least one character |
| Calls.NewCall | src/call.py:9-22 | a new call has call id 'X' plus the lead id, its plan name and no dial options |
| Calls.AddDialOption | src/call.py:25-57 | the option is stored under its name with gate 'asterisk_extapi-1', timeout 50, empty prefix and the phone; a 7-character phone keeps the caller id, any other uses '12345'; other options and fields are unchanged |
| Calls.CallIdDeterminesLead | src/call.py:20 | two calls share a call id exactly when they share the lead id |
| Ledger.Lookup | src/room.py:82-88 | a status is found exactly when its tag is present and the status is recorded under it |
| Ledger.Add | src/room.py:57-75 | a first write creates a record with the given times and value and no rewrites; a repeat appends exactly one rewrite and keeps the record; no other pair changes |
| Ledger.AddCountsOnce | src/room.py:57-75 | each write adds exactly one occurrence of its pair and none of any other pair |
| Ledger.AddExtends | src/room.py:57-75 | the ledger is append-only: no recorded pair is lost, no first record is altered, and rewrites only grow at the end |
| Live.ChanIdRoundTrip | src/chan.py:35 | a chan id splits back into the chan's tag and the room's call id, so the correlator routes the chan's events to the chan's tag |
| Live.KindOf | src/bridge.py:57-88 | chan_snoop, chan_emedia and chan_inbound select their class, and every other type selects the outbound class |
| Live.Matched | src/room.py:108 | a trigger matches when the status it watches is recorded under the tag it watches |
| Live.MatchedAfterAdd | src/room.py:57-75 | after a write a trigger matches exactly when it matched before or watches the pair written, so a write never unmatches a trigger |
| Live.Fire | src/room.py:109 | firing switches the trigger off for good and changes nothing else of the room |
| Live.FireShrinks | src/room.py:109-110 | switching a live trigger off strictly lowers the number of live triggers (the cascade's termination measure) |
| ChanStart.Start | src/bridge.py:57-88 | the chan's class, chosen by `Live.KindOf` from the plan type, decides which start runs: outbound, inbound, snoop or external media |
| ChanStart.StartOutbound | src/chan_outbound.py:10-38 | an unknown dial option gives 'api_error' then 'stop' and no remote call; otherwise create with endpoint 'SIP/' gate '/' prefix phone, then on 200 or 204 subscribe, join the bridge and dial, and on any other code 'api_error' with the message then 'stop' |
| ChanStart.InboundCreate | src/chan_inbound.py:17-24 | tag 'oper' dials extension 321 with caller id '321', and every other tag dials 123 with '123' |
| ChanStart.StartInbound | src/chan_inbound.py:10-36 | exactly one create call, with the chan's own id; on success subscribe, join the bridge and dial, recording nothing; on failure 'api_error' then 'stop' and no further call |
| ChanStart.StartSnoop | src/chan_snoop.py:12-39 | a target tag absent from the ledger gives 'dialplan_error' then 'stop' and no call; otherwise a snoop on target tag '-call_id-' call id, 'api_create_chan' first, then subscription, joining and 'api_chan2bridge' on success, or 'error_create_chan' then 'stop' on failure |
| ChanStart.StartEmedia | src/chan_emedia.py:8-27 | a missing or empty host does nothing; otherwise exactly one external-media create, then subscribe and join on 200 or 204, or 'api_error' then 'stop' |
| ChanStart.StartJoinsOrStops | src/chan_outbound.py:27-38 | in all four classes a started chan joins its bridge or asks for 'stop', never both; doing neither happens only for an external-media chan without a host; every status is on the chan's tag |
| ChanStart.BridgedIffCreated | src/chan_emedia.py:19-27 | a chan joins its bridge exactly when the PBX accepted its creation: code 200 or 204 for outbound and external media, `success` for inbound and snoop |
| Clips.FullyPlayedBack | src/clip.py:57-74 | the test passes exactly when PlaybackFinished is recorded, its first value is not 'failed', and 'api_stop_playback' is absent |
| Clips.FullyPlayedBackStable | src/clip.py:65-71 | as the ledger grows, a passing verdict stays until a stop is recorded, and once a stop is recorded it fails for good |
| Clips.FuncRunsAsWritten | src/clip.py:81-89 | as written the guard never reads `active`: a trigger runs its func when its pair is recorded and its func is check_fully_playback, and only a 'func' trigger without a func is skipped before the match |
| Clips.FuncRuns | src/clip.py:81-89 | the corrected guard: the same, and the trigger must also be active, whatever its action |
| Clips.FuncRunsOnlyFullyPlayback | src/clip.py:81-93 | with the corrected guard a trigger runs its func exactly when it is live, matched and names check_fully_playback; an absent or unknown func never runs, corrected or as written |
| Clips.StartClip | src/clip.py:95-112 | a non-empty audio name gives one playback of 'sound:' plus the name and records 'api_start_playback' with its http code; a missing or empty one records 'error_in_audio_name' and makes no call |
| Clips.StopClip | src/clip.py:114-123 | one stop call, then 'api_stop_playback' recorded with its http code |
| Clips.StopClipPreventsFullyPlayback | src/clip.py:114-123 | once a clip's stop is recorded, its playback no longer counts as fully played back |
| Cascade.PutChan | src/bridge.py:89 | a chan is registered under its tag in its bridge, replacing any chan with that tag; every other bridge and chan is untouched |
| Cascade.PutClip | src/chan.py:90 | a clip is registered under its tag in its chan; every other node is untouched |
| Cascade.BridgeTriggerStep | src/room.py:115-132 | with the bridge present, a live matched terminate trigger fires and destroys it, leaving the map; with it absent, a live matched start trigger fires and registers one bridge under the plan tag, scheduling its upper-cased initial status and `start_bridge`; otherwise nothing changes |
| Cascade.BridgeTriggers | src/room.py:117-132 | after one bridge plan's trigger loop, none of its start triggers is left waiting to fire, and the ledger is unchanged |
| Cascade.BridgePass | src/room.py:114-132 | after the pass over all bridge plans, no bridge start trigger is left waiting to fire |
| Cascade.ChanStartStep | src/bridge.py:53-90 | a live matched start trigger fires and registers a chan of the plan's class under the plan tag, replacing any old one, with chan id tag '-call_id-' call id; its initial status and `start_chan` are scheduled; otherwise nothing changes |
| Cascade.ChanStartFiresOnce | src/bridge.py:54-56 | a chan start trigger fires at most once: checking it again right afterwards changes nothing |
| Cascade.ChanStarts | src/bridge.py:53-90 | starting chans never writes the ledger, keeps every bridge and keeps the current bridge |
| Cascade.ClipStartStep | src/chan.py:81-91 | a live matched start trigger fires and registers a new clip under the plan tag, with clip id tag '-druid-' druid; its initial status and `start_clip` are scheduled; otherwise nothing changes |
| Cascade.ClipStartFiresOnce | src/chan.py:82-84 | a clip start trigger fires at most once |
| Cascade.ClipStarts | src/chan.py:82-91 | starting clips never writes the ledger and keeps the current chan |
| Cascade.AddTagStatus | src/room.py:39-80 | however deep the nested writes go, the cascade terminates; the written status is recorded, with the given value if it is new, and as the first rewrite after the earlier ones if it was recorded; the ledger only grows; and no room terminate trigger or bridge start trigger is left waiting to fire |
| Cascade.CheckRoom | src/room.py:106-110 | after the room's trigger loop no room terminate trigger is waiting; a pending one fires and 'stop' is recorded on the room |
| Cascade.RoomTriggerStep | src/room.py:107-110 | a live matched room terminate trigger fires and records 'stop' on the room tag; any other trigger changes nothing |
| Cascade.RoomTriggerFiresOnce | src/room.py:107-110 | a room terminate trigger fires at most once: checking it again right after changes nothing, however deep its nested write went, and once it fired no later state that only grew from there fires it again |
| Cascade.VisitBridges | src/room.py:134-135 | visiting the bridges only grows the state and keeps it settled |
| Cascade.CheckChans | src/bridge.py:51-96 | a bridge's check only grows the state and keeps it settled |
| Cascade.VisitChans | src/bridge.py:95-96 | visiting the chans only grows the state and keeps it settled |
| Cascade.CheckClips | src/chan.py:65-95 | a chan's check only grows the state and keeps it settled |
| Cascade.ClipTerminates | src/chan.py:75-79 | a clip plan's terminate loop only grows the state and keeps it settled |
| Cascade.ClipTerminateStep | src/chan.py:75-79 | a live matched terminate trigger fires, its liveness read when it is checked; any other trigger changes nothing |
| Cascade.ClipTerminateFiresOnce | src/chan.py:75-79 | a clip terminate trigger fires at most once: checking it again right after changes nothing, and once it fired no later state that only grew from there fires it again, so its clip is stopped once |
| Cascade.ClipTerminateStopsClip | src/chan.py:77-79 | a terminate trigger that fires on a started clip records that clip's 'api_stop_playback' |
| Cascade.StopClipAt | src/clip.py:114-123 | stopping the clip registered under the plan tag records its 'api_stop_playback' and leaves the room settled; without such a clip nothing happens |
| Cascade.VisitClips | src/chan.py:94-95 | visiting the clips only grows the state and keeps it settled |
| Cascade.ClipFuncs | src/clip.py:81-93 | a clip's func loop only grows the state and keeps it settled |
| Cascade.ClipFuncStep | src/clip.py:81-93 | a trigger the corrected guard lets through fires; 'fully_playback' is recorded when the playback finished unstopped and not failed, and otherwise only the firing happens; any other trigger changes nothing |
| Rooms.NewRoom | src/room.py:17-34 | a new room has the plan parsed for it, an empty ledger, no bridges and no fired triggers, and schedules only the plan status on the room tag with room id tag '-lead_id-' lead id |
| Rooms.BridgeWrite | src/bridge.py:35-37 | a bridge's status reaches the ledger with its ASCII letters upper-cased: same length, already upper-case, other characters kept |
| Rooms.ReadyWrite | src/room.py:102-104 | `start_room` records 'ready' on the room's own tag, with the defaults of `add_tag_status` (src/room.py:39-44): no value and empty external and trigger times |
| Rooms.RecordAll | src/chan.py:50-51 | each status a chan writes becomes its own scheduled write, in order |
| Rooms.RunStartBridge | src/bridge.py:98-101 | the bridge is created first, and 'API_START' is recorded whatever the answer |
| Rooms.RunStartChan | src/chan.py:50-51 | a chan's start makes its class's remote calls and schedules each of its writes, without touching the ledger |
| Rooms.RunStartClip | src/clip.py:95-112 | the clip's playback call is made and its status is recorded at once |
| Rooms.RunTask | src/room.py:39-80 | running any scheduled coroutine only grows the state; a write is recorded and settles the room's and bridges' start and terminate triggers |
| Rooms.TriggerEventHandler | src/room.py:137-142 | a trigger event's status is recorded on its tag: a new pair with the event's times and value, a recorded pair gains a rewrite with them right after its earlier ones; the cascade settles |
| Rooms.ClipTermination | src/chan.py:53-63 | when alive every clip is removed, otherwise nothing changes; nothing else of the chan changes |
| Rooms.ChanTermination | src/bridge.py:39-49 | when alive every chan is removed, otherwise nothing changes; nothing else of the bridge changes |
| Rooms.BridgeTermination | src/room.py:90-100 | when alive every bridge is removed, otherwise nothing changes; nothing else of the room changes |
| Rooms.TerminationIdempotent | src/room.py:90-100 | terminating twice is terminating once; ledger, plan and fired triggers stay; once terminated while alive, no plan position has a live node |
| Dialers.StartRoom | src/dialer.py:31-35 | a lead becomes a room with the named plan, an empty inbox, and 'ready' scheduled after the room's own initial write |
| Dialers.StartDialerStep | src/dialer.py:24-35 | an empty lead queue changes nothing; a missing plan is an error; otherwise the last lead is popped and exactly one room, for that lead, is appended |
| Dialers.StartDialerConservesLeads | src/dialer.py:31-35 | no lead is lost or duplicated: queued leads plus rooms stay constant, and the popped lead is the new room's |
| Dialers.Deliver | src/dialer.py:45-47 | a message reaches every room of its lead and no other room |
| Dialers.PumpStep | src/dialer.py:37-47 | an empty message queue changes nothing; otherwise the last message is popped and delivered |
| Dialers.PumpDropsUnowned | src/dialer.py:44-47 | a message for a lead without a room is dropped |
| Dialers.PumpIsLifo | src/dialer.py:44 | of two queued messages for one room, the later one reaches its inbox first |
| Routes.OriginateCall | src/api/routes.py:138-141 | the queued call has call id 'X' plus the lead id, plan 'oper_client', and exactly the options 'extphone' (caller id the internal phone) and 'intphone' |
| Routes.Originate | src/api/routes.py:133-157 | a closed application gets 503 and an already running lead an error, both with nothing queued; otherwise exactly one call is queued and its call id returned |
| Routes.OriginateTwiceQueuesTwice | src/api/routes.py:143-147 | the duplicate check looks only at running rooms, so two originates for a new lead queue two calls with one call id |
| Routes.OriginatedIdentifiesLead | src/api/routes.py:156 | the call id returned names the requested lead and no other |
| Routes.FindCall | src/api/routes.py:188-189 | the first running room with the call id, or none when no room has it |
| Routes.HangupEvent | src/api/routes.py:190-200 | the hangup event is an API_EVENT with an empty asterisk id, carrying 'stop' with value 'api_hangup' for the room's tag and call id, stamped with the clock reading |
| Routes.Hangup | src/api/routes.py:187-210 | a known call id queues exactly one event, 'stop' with value 'api_hangup' on the room's tag; an unknown one gets an error and queues nothing |
| Routes.HangupStopsRoom | src/api/routes.py:190-201 | the hangup event, handled by its room, records 'stop' on the room tag |
| Routes.Restart | src/api/routes.py:97-107 | the application is marked to shut down, and nothing else changes |
| Routes.ExtApi | src/api/routes.py:212-262 | a wrong token is refused with no side effect; then 'restart', 'originate' (missing phones refused) and 'hangup' are dispatched, and any other command echoes |
| Routes.ExtApiFrame | src/api/routes.py:212-262 | whatever is asked, rooms and aliveness are untouched, the queues only grow, at most one call or event is queued, and only a valid 'restart' changes the shutdown flag |
| Findings.FixIsoTimestampKeepsSpace | src/good_func/good_func.py:7-9 | as written, the documented space-separated example with an offset comes out 26 long but still with the space |
| Findings.FixIsoTimestampCorrectedAddsT | src/good_func/good_func.py:7-9 | the corrected normaliser turns every space-separated timestamp with an offset into a 'T'-separated one with no space |
| Findings.FixIsoTimestampExample | src/good_func/good_func.py:7-11 | the documented example comes out of the corrected normaliser with 'T' and no space |
| Findings.OffsetEventRefusedAsWritten | src/trigger_event_manager.py:21-23 | as written, an event stamped like the documented example makes `calc_delay` raise, so no trigger event is produced for it |
| Findings.CorrectedExampleIsFixed | src/good_func/good_func.py:7-11 | the corrected normaliser turns the documented example into exactly the result its comment shows |
| Findings.FixedExampleParses | src/trigger_event_manager.py:52-55 | that result is accepted by the format of `calc_delay` |
| Findings.OffsetEventAcceptedCorrected | src/trigger_event_manager.py:16-43 | with the corrected normaliser, the same event is correlated with the fixed external time whenever the clock reading parses |
| Findings.FuncGuardIgnoresActive | src/clip.py:82 | as written a trigger that already fired still passes the guard; the corrected guard refuses it |
| Findings.FullyPlaybackRefiresAsWritten | src/clip.py:81-93 | as written, the 'fully_playback' write leaves both the guard and the check passing, so the func re-runs with no bound |
| Findings.Snapshot | src/room.py:107 | every position the snapshot lists is a terminate trigger of the node that is active and has not fired (the same comprehension is at src/chan.py:75) |
| Findings.SnapshotListsAll | src/room.py:107 | the other direction: every active, unfired terminate trigger from the start position on is listed, in increasing order, so each once |
| Findings.TerminateFiresTwiceAsWritten | src/room.py:106-110 | as written, a node with two terminate triggers on the room's 'ready' writes its stop status three times: the nested write fires the second trigger, and the outer snapshot fires it again |
| Findings.RoomTerminateFiresTwiceAsWritten | src/room.py:106-110 | as written, two terminate triggers on the room's 'ready' record 'stop' three times: one trigger fires twice |
| Findings.ClipTerminateFiresTwiceAsWritten | src/chan.py:75-79 | as written, a started clip with two terminate triggers on the room's 'ready' records 'api_stop_playback' three times: one trigger fires twice |
| Findings.NoDelimiterIn | src/trigger_event_manager.py:81-83 | an id made of a tag without '-', a middle and a rest without '_' never contains '-call_id-' |
| Findings.PlaybackOfClipLandsOnUnknown | src/clip.py:32 | a 'PlaybackFinished' event about a clip whose tag has no '-' and whose druid has no '_' is correlated to the tag 'UNKNOWN', never to the clip's tag (the id is the one sent at src/clip.py:106-108, split at src/trigger_event_manager.py:81-83) |
| Findings.BridgeEventLandsOnUnknown | src/bridge.py:28 | likewise every bridge event about a bridge whose tag has no '-' and whose lead id has no '_' lands on 'UNKNOWN' (split at src/trigger_event_manager.py:77-79) |

## Left out

- Transport: the HTTP and WebSocket clients, reconnect loops and sleeps. PBX answers are parameters of the model.
- The deny-list filter of the WebSocket client appears only as the predicate `TriggerEvents.Forwarded`; the client that applies it is transport.
- TriggerEvents.Forwarded: assumes `config.asterisk_ari_log` is set; when it is not, src/ws_clients/asterisk_web_socket.py:65 skips correlation and queueing for every event, and the model has no such switch.
- Clocks and floats: the number `calc_delay` computes, `add_status_time`, `get_stats` and the generated lead-id timestamp. The clock reading and generated id are parameters; whether `calc_delay` raises is modelled.
- TriggerEvents.Correlate: only the ASCII digits 0 to 9 count as digits of a time, while Python's `strptime` also accepts the other Unicode decimal digits. The raw event's nested channel, peer, bridge and playback objects and their ids are taken as present strings: the source raises AttributeError when the object for the event's type is missing, and TypeError when its id is (src/trigger_event_manager.py:71, 74, 78, 82 and the same tests at 101, 105, 109, 113). An ExternalEvent without 'tag' or 'call_id' gets None there (lines 61 and 91), which the model's strings cannot hold.
- Routes.HangupEvent: src/api/routes.py:193-194 reads the clock twice, for the external and the trigger time; the model takes one reading for both.
- Rooms.BridgeWrite: upper-cases only the ASCII letters a to z, while Python's `str.upper` at src/bridge.py:36 also maps other letters ('é' to 'É') and can change the length ('ß' to 'SS'); plan statuses are taken to be ASCII.
- Rooms.NewRoom: src/room.py:9 imports the older parser of src/dataclasses/dialplan.py, and src/room.py:25 calls it with a `raw_dialplan=` keyword its `__init__(self, params, app)` does not take, so as written the constructor raises TypeError. Even called correctly, that parser gives triggers no `active` or `func` and defaults a missing status to 'INIT' (src/dataclasses/dialplan.py:18). The rest of the engine reads `active` and `func` on triggers (src/room.py:107, src/clip.py:82), which only the parser of src/custom_dataclasses/dialplan.py provides; the other modules import the older class too (src/bridge.py:12, src/chan.py:8, src/clip.py:7, src/dialer.py:7), but only name it in type annotations. The model parses the plan with `Dialplan.ParsePlan`, the parser of src/custom_dataclasses/dialplan.py, whose default status is 'init'.
- The listening session that a ValueError of the correlator ends is reconnected by the WebSocket client; that loop is transport.
- asyncio interleaving: tasks run one at a time through `Rooms.RunTask`, and `sleep(0)` is ignored, so no interleaving of two coroutines is modelled.
- Order of iteration: the model visits children in plan order, not in the insertion order of Python's dicts.
- Chans replaced under the same tag: the old Python object stays referenced by its running coroutine; the model keeps only the new chan.
- A dict that changes size during iteration raises in Python; the model has no such error.
- A clip terminate trigger whose clip was never started raises KeyError at src/chan.py:79; the model skips the stop.
- src/chan.py:95 passes an argument `check_trigger_clip_funcs` does not accept (TypeError); the model calls it without one.
- chan_inbound and chan_snoop call `self.asterisk_client`, which `Chan` never defines; the model treats it as the PBX interface.
- The base `start_chan` and `check_trigger_chan_funcs` of src/chan.py are never reached, because unknown types fall back to the outbound class; the snoop override is a no-op.
- The class-level `Bridge.chans` dict shared by all bridges is not copied; each bridge has its own chans map.
- The substring tests at src/trigger_event_manager.py:159, 168 and 171 are read as equality over the known event types.
- The dialer builds `Room` with arguments the constructor does not take, and calls `run_room_message_pump` and `append_queue_msg_room`, which do not exist; the model gives each room an inbox.
- `call_id` and `druid` are never set on a room; they are parameters of `Rooms.NewRoom`.
- Chan dial options are read from the room; the lead record has none, so `NewRoom` takes them as a parameter.
- Queued trigger events carry no lead id; `Dialers.Message` pairs each event with one.
- The routes read rooms and a call queue the dialer does not keep in that form; `Routes.Server` is a separate view.
- The read-only routes (`get_root`, `get_diag`, `get_rooms`, `get_bridges`, `get_chans`), `analise` and the fields replies only echo are not modelled.
- Parse errors of the request bodies other than missing phones are not modelled.
- Cascade.CheckClips: that terminate triggers are checked before start triggers within a clip plan is fixed by its body; the contract does not restate it.
- Cascade.VisitBridges, Cascade.CheckChans, Cascade.VisitChans, Cascade.ClipTerminates, Cascade.VisitClips, Cascade.ClipFuncs: their contracts state only growth and settledness; what each fired trigger does is stated by the step members they call.
- Rooms.RunStartClip: states the effects and the recorded status, not the exact ledger row.
- Cascade.ClipTerminates: reads each trigger's `active` flag when it is checked, where src/chan.py:75 loops over a list taken when the loop starts; the model keeps the evidently intended behaviour, and the loop as written is `Findings.ClipTerminateFiresTwiceAsWritten` (see Findings).
- Cascade.CheckRoom: likewise for the room's terminate loop at src/room.py:107; the loop as written is `Findings.RoomTerminateFiresTwiceAsWritten`.

## Findings

| source | as written | input that shows it | evidently intended | confidence | as-written member | corrected member |
|---|---|---|---|---|---|---|
| src/good_func/good_func.py:7-9 | a timestamp with an offset is cut to 23 characters and padded, but its date/time space is kept, so `calc_delay` then raises ValueError and no trigger event is produced (`Findings.OffsetEventRefusedAsWritten`) | "2023-05-16 00:33:52.951+0300" (the example of line 11) gives "2023-05-16 00:33:52.951000" | "2023-05-16T00:33:52.951000", as the comment of line 11 says | not executed | Findings.FixIsoTimestampKeepsSpace | Findings.FixIsoTimestampCorrectedAddsT |
| src/clip.py:82 | the guard tests `action is False`, which a string never is, so an inactive func trigger still runs | a clip with trigger (clip, PlaybackFinished, func, check_fully_playback) and a finished, unstopped playback: each 'fully_playback' write re-runs the func, without end. This needs the call at src/chan.py:95 without its extra argument, as the model makes it; as written that call raises TypeError before the func loop is reached. It also needs 'PlaybackFinished' recorded on the clip's tag by an ExternalEvent, since the PBX's playback events land on 'UNKNOWN' (`Findings.PlaybackOfClipLandsOnUnknown`) | skip triggers that are no longer active. Reading `trigger.active is False` on line 82 would skip only inactive 'func' triggers; the corrected guard `Clips.FuncRuns` asks for an active trigger whatever its action, since an inactive trigger of another action naming check_fully_playback would re-run without end just the same | not executed | Findings.FullyPlaybackRefiresAsWritten | Clips.FuncRunsOnlyFullyPlayback |
| src/room.py:106-110 | the loop runs over a snapshot of the active terminate triggers and never re-reads `active` | two terminate triggers on (room, ready), then 'ready' recorded: 'stop' is recorded three times | each trigger fires at most once, so 'stop' is recorded twice | not executed | Findings.RoomTerminateFiresTwiceAsWritten | Cascade.RoomTriggerFiresOnce |
| src/chan.py:75-79 | the clip terminate loop runs over a list of the active terminate triggers taken when it starts and never re-reads `active`, while the stop it makes re-enters the same loop through `add_tag_status` | a started clip whose plan has two terminate triggers on (room, ready), then 'ready' recorded: three stop calls and three 'api_stop_playback' records. This needs the call at src/chan.py:95 without its extra argument, as the model makes it; as written the innermost nested check raises TypeError there after the second stop | each trigger fires at most once, so the clip is stopped twice | not executed | Findings.ClipTerminateFiresTwiceAsWritten | Cascade.ClipTerminateFiresOnce |

=== FILE: call.dfy ===
/** The call record of src/call.py: a call id derived from the lead and named dial options. */
module Calls {
  import opened Text

  /** src/dataclasses/dial_option.py. */
  datatype DialOption = DialOption(
    gate: string,
    dialTimeout: int,
    phonePrefix: string,
    phoneString: string,
    callerid: string,
    operatorId: int,
    idRequest: int)

  datatype Call = Call(leadId: int, callId: string, dialplanName: string, dialOptions: map<string, DialOption>)

  const Gate := "asterisk_extapi-1"
  const DialTimeout := 50
  const FallbackCallerId := "12345"

  /** The call id of a lead: 'X' followed by the decimal lead id. */
  function CallIdOf(leadId: int): (id: string)
    ensures |id| >= 2 && id[0] == 'X'
  {
    "X" + IntToString(leadId)
  }

  /** `Call.__init__`. */
  function NewCall(leadId: int, dialplanName: string): (c: Call)
    ensures c.leadId == leadId && c.callId == CallIdOf(leadId)
    ensures c.dialplanName == dialplanName && c.dialOptions == map[]
  {
    Call(leadId, CallIdOf(leadId), dialplanName, map[])
  }

  /** `add_dial_option_for_phone`: a 7-character phone keeps the caller id, any other uses a fixed one. */
  function AddDialOption(c: Call, name: string, phone: string, callerid: string): (c': Call)
    ensures name in c'.dialOptions
    ensures c'.dialOptions[name].gate == Gate && c'.dialOptions[name].dialTimeout == DialTimeout
    ensures c'.dialOptions[name].phonePrefix == "" && c'.dialOptions[name].phoneString == phone
    ensures c'.dialOptions[name].callerid == (if |phone| == 7 then callerid else FallbackCallerId)
    ensures c'.dialOptions[name].operatorId == 1 && c'.dialOptions[name].idRequest == 0
    ensures c'.dialOptions.Keys == c.dialOptions.Keys + {name}
    ensures forall n :: n in c.dialOptions && n != name ==> c'.dialOptions[n] == c.dialOptions[n]
    ensures c'.leadId == c.leadId && c'.callId == c.callId && c'.dialplanName == c.dialplanName
  {
    var cid := if |phone| == 7 then callerid else FallbackCallerId;
    c.(dialOptions := c.dialOptions[name := DialOption(Gate, DialTimeout, "", phone, cid, 1, 0)])
  }

  lemma DigitCharInjective(a: nat, b: nat)
    requires a < 10 && b < 10 && DigitChar(a) == DigitChar(b)
    ensures a == b
  {
  }

  /** A number is written with a single digit exactly when it is below ten. */
  lemma NatToStringSingleDigit(n: nat)
    ensures |NatToString(n)| == 1 <==> n < 10
  {
    if n >= 10 {
      assert |NatToString(n)| == |NatToString(n / 10)| + 1;
    }
  }

  /** Distinct numbers are written differently. */
  lemma {:induction false} NatToStringInjective(a: nat, b: nat)
    requires NatToString(a) == NatToString(b)
    ensures a == b
    decreases a
  {
    NatToStringSingleDigit(a);
    NatToStringSingleDigit(b);
    if a < 10 {
      DigitCharInjective(a, b);
    } else {
      var s := NatToString(a);
      var pa, pb := NatToString(a / 10), NatToString(b / 10);
      assert s == pa + [DigitChar(a % 10)] && s == pb + [DigitChar(b % 10)];
      assert pa == s[..|s| - 1] == pb;
      DigitCharInjective(a % 10, b % 10);
      NatToStringInjective(a / 10, b / 10);
    }
  }

  /** The written form starts with '-' exactly for negative numbers. */
  lemma IntToStringSign(i: int)
    ensures IntToString(i)[0] == '-' <==> i < 0
  {
    if i >= 0 {
      assert IsDigit(NatToString(i)[0]);
    }
  }

  lemma IntToStringInjective(a: int, b: int)
    requires IntToString(a) == IntToString(b)
    ensures a == b
  {
    IntToStringSign(a);
    IntToStringSign(b);
    if a >= 0 {
      NatToStringInjective(a, b);
    } else {
      assert NatToString(-a) == IntToString(a)[1..] == NatToString(-b);
      NatToStringInjective(-a, -b);
    }
  }

  /** The call id identifies its lead: two calls share a call id only when they share the lead id. */
  lemma CallIdDeterminesLead(a: int, b: int)
    ensures CallIdOf(a) == CallIdOf(b) <==> a == b
  {
    if CallIdOf(a) == CallIdOf(b) {
      assert IntToString(a) == CallIdOf(a)[1..] == CallIdOf(b)[1..] == IntToString(b);
      IntToStringInjective(a, b);
    }
  }
}

=== FILE: cascade.dfy ===
/**
 * The trigger cascade: `add_tag_status` (src/room.py) records a status and
 * re-evaluates the triggers level by level, room -> bridges -> chans ->
 * clips. A trigger whose watched status is recorded and which is still
 * active is set inactive before its side effect; the side effects that
 * record a status (the room's 'stop', a clip's stop and its fully-played-back
 * check) do so by a nested `add_tag_status`, which is where the recursion is.
 *
 * Siblings are visited in plan order; the node of a plan is the one
 * registered under the plan's tag, looked up afresh at each step.
 */
module Cascade {
  import opened Wrappers
  import opened Text
  import opened Dialplan
  import Ledger
  import Clips
  import opened Live

  // Lookups of the live node built from a given plan position

  function BridgeOf(room: Room, b: nat): (r: Option<Bridge>)
    requires ValidBridge(room.plan, b)
    ensures r.Some? ==> room.plan.content[b].tag in room.bridges && r.value == room.bridges[room.plan.content[b].tag]
  {
    var tag := room.plan.content[b].tag;
    if tag in room.bridges && room.bridges[tag].planIndex == b then Some(room.bridges[tag]) else None
  }

  function ChanOf(room: Room, b: nat, c: nat): (r: Option<Chan>)
    requires ValidChan(room.plan, b, c)
    ensures r.Some? ==> BridgeOf(room, b).Some? && room.plan.content[b].content[c].tag in BridgeOf(room, b).value.chans
  {
    match BridgeOf(room, b)
    case None => None
    case Some(bridge) =>
      var tag := room.plan.content[b].content[c].tag;
      if tag in bridge.chans && bridge.chans[tag].planIndex == c then Some(bridge.chans[tag]) else None
  }

  function ClipOf(room: Room, b: nat, c: nat, k: nat): (r: Option<Clip>)
    requires ValidClip(room.plan, b, c, k)
    ensures r.Some? ==> ChanOf(room, b, c).Some?
  {
    match ChanOf(room, b, c)
    case None => None
    case Some(chan) =>
      var tag := room.plan.content[b].content[c].content[k].tag;
      if tag in chan.clips && chan.clips[tag].planIndex == k then Some(chan.clips[tag]) else None
  }

  /** Register `chan` under `chanTag` in the chans map of the bridge under `bridgeTag`. */
  function PutChan(room: Room, bridgeTag: string, chanTag: string, chan: Chan): (room': Room)
    requires bridgeTag in room.bridges
    ensures room'.bridges.Keys == room.bridges.Keys
    ensures room'.bridges[bridgeTag].chans == room.bridges[bridgeTag].chans[chanTag := chan]
    ensures room'.bridges[bridgeTag].(chans := room.bridges[bridgeTag].chans) == room.bridges[bridgeTag]
    ensures forall t :: t in room.bridges && t != bridgeTag ==> room'.bridges[t] == room.bridges[t]
    ensures room' == room.(bridges := room'.bridges)
  {
    var bridge := room.bridges[bridgeTag];
    room.(bridges := room.bridges[bridgeTag := bridge.(chans := bridge.chans[chanTag := chan])])
  }

  /** Register `clip` under `clipTag` in the clips map of the chan under `chanTag` of the bridge under `bridgeTag`. */
  function PutClip(room: Room, bridgeTag: string, chanTag: string, clipTag: string, clip: Clip): (room': Room)
    requires bridgeTag in room.bridges && chanTag in room.bridges[bridgeTag].chans
    ensures room'.bridges.Keys == room.bridges.Keys
    ensures room'.bridges[bridgeTag].chans.Keys == room.bridges[bridgeTag].chans.Keys
    ensures room'.bridges[bridgeTag].chans[chanTag].clips == room.bridges[bridgeTag].chans[chanTag].clips[clipTag := clip]
    ensures room'.bridges[bridgeTag].chans[chanTag].(clips := room.bridges[bridgeTag].chans[chanTag].clips)
              == room.bridges[bridgeTag].chans[chanTag]
    ensures room' == room.(bridges := room'.bridges)
  {
    var chan := room.bridges[bridgeTag].chans[chanTag];
    PutChan(room, bridgeTag, chanTag, chan.(clips := chan.clips[clipTag := clip]))
  }

  // Settledness of bridge start triggers

  /** A start trigger of bridge plan `b` could fire: no bridge has the plan's tag, and the trigger is active and matched. */
  predicate BridgeStartPending(room: Room, b: int, t: int) {
    && ValidBridge(room.plan, b)
    && 0 <= t < |room.plan.content[b].triggers|
    && room.plan.content[b].tag !in room.bridges
    && room.plan.content[b].triggers[t].action == "start"
    && IsActive(room, BridgeRef(b, t))
    && Matched(room.ledger, room.plan.content[b].triggers[t])
  }

  /** No bridge plan without a bridge has a start trigger waiting to fire. */
  ghost predicate BridgesSettled(room: Room) {
    forall b, t :: !BridgeStartPending(room, b, t)
  }

  /** Firing triggers and adding nodes, without writing the ledger, grows the state and creates nothing pending. */
  lemma PendingKept(s: Step, s': Step)
    requires Frame(s, s') && s'.room.ledger == s.room.ledger
    ensures Grows(s, s')
    ensures forall b, t :: !BridgeStartPending(s.room, b, t) ==> !BridgeStartPending(s'.room, b, t)
    ensures RoomSettled(s.room) ==> RoomSettled(s'.room)
    ensures BridgesSettled(s.room) ==> BridgesSettled(s'.room)
  {
    SameLedgerGrows(s, s');
    SettledKept(s, s');
  }

  // Bridge triggers (src/room.py:112-132): no nested write happens here

  /**
   * One trigger of bridge plan `b`: when the bridge exists, an active matched
   * terminate trigger destroys it (the map is unchanged); when it does not, an
   * active matched start trigger registers a new bridge under the plan tag,
   * whose initial status is recorded, upper-cased, by a task, and whose
   * `start_bridge` is another task.
   */
  function BridgeTriggerStep(s: Step, b: nat, t: nat, present: bool): (s': Step)
    requires ValidBridge(s.room.plan, b) && t < |s.room.plan.content[b].triggers|
    requires present ==> s.room.plan.content[b].tag in s.room.bridges
    ensures var bp := s.room.plan.content[b];
      var trig := bp.triggers[t];
      var fires := trig.action == (if present then "terminate" else "start")
                   && IsActive(s.room, BridgeRef(b, t)) && Matched(s.room.ledger, trig);
      && (!fires ==> s' == s)
      && (fires ==> s'.room.fired == s.room.fired + {BridgeRef(b, t)})
      && (fires && present ==>
            && s'.room == s.room.(fired := s'.room.fired)
            && s'.tasks == s.tasks
            && s'.effects == s.effects + [DestroyBridge(s.room.bridges[bp.tag].bridgeId)])
      && (fires && !present ==>
            var id := BridgeId(bp.tag, s.room.leadId);
            && s'.room == s.room.(fired := s'.room.fired, bridges := s.room.bridges[bp.tag := Bridge(bp.tag, id, b, map[])])
            && s'.tasks == s.tasks + [Record(Status(bp.tag, Upper(bp.status), id)), StartBridge(bp.tag, id)]
            && s'.effects == s.effects)
    ensures Frame(s, s') && s'.room.ledger == s.room.ledger
    ensures !BridgeStartPending(s'.room, b, t)
  {
    var bp := s.room.plan.content[b];
    var trig := bp.triggers[t];
    var r := BridgeRef(b, t);
    if trig.action == (if present then "terminate" else "start") && IsActive(s.room, r) && Matched(s.room.ledger, trig) then
      var f := Fire(s, r);
      if present then
        f.(effects := f.effects + [DestroyBridge(s.room.bridges[bp.tag].bridgeId)])
      else
        var id := BridgeId(bp.tag, s.room.leadId);
        f.(room := f.room.(bridges := f.room.bridges[bp.tag := Bridge(bp.tag, id, b, map[])]),
           tasks := f.tasks + [Record(Status(bp.tag, Upper(bp.status), id)), StartBridge(bp.tag, id)])
    else s
  }

  /** The trigger loop of one bridge plan, from trigger `t` on. */
  function BridgeTriggers(s: Step, b: nat, t: nat, present: bool): (s': Step)
    requires ValidBridge(s.room.plan, b) && t <= |s.room.plan.content[b].triggers|
    requires present ==> s.room.plan.content[b].tag in s.room.bridges
    ensures Frame(s, s') && s'.room.ledger == s.room.ledger
    ensures forall u :: t <= u < |s.room.plan.content[b].triggers| ==> !BridgeStartPending(s'.room, b, u)
    decreases |s.room.plan.content[b].triggers| - t
  {
    if t == |s.room.plan.content[b].triggers| then s
    else
      var s1 := BridgeTriggerStep(s, b, t, present);
      var s2 := BridgeTriggers(s1, b, t + 1, present);
      FrameTransitive(s, s1, s2);
      PendingKept(s1, s2);
      s2
  }

  /** `check_trigger_bridges`' first loop, from bridge plan `b` on. */
  function BridgePass(s: Step, b: nat): (s': Step)
    requires b <= |s.room.plan.content|
    ensures Frame(s, s') && s'.room.ledger == s.room.ledger
    ensures (forall b', t :: b' < b ==> !BridgeStartPending(s.room, b', t)) ==> BridgesSettled(s'.room)
    decreases |s.room.plan.content| - b
  {
    if b == |s.room.plan.content| then s
    else
      var s1 := BridgeTriggers(s, b, 0, s.room.plan.content[b].tag in s.room.bridges);
      var s2 := BridgePass(s1, b + 1);
      FrameTransitive(s, s1, s2);
      PendingKept(s, s1);
      s2
  }

  // Chan start triggers (src/bridge.py:51-90): no nested write happens here

  /**
   * One start trigger of chan plan `c` under the bridge of plan `b`: when it
   * is active and matched it fires, and a chan of the plan's class is
   * registered under the plan tag, replacing any chan with that tag; its
   * initial status and its `start_chan` become tasks.
   */
  function ChanStartStep(s: Step, b: nat, c: nat, t: nat): (s': Step)
    requires ValidChan(s.room.plan, b, c) && BridgeOf(s.room, b).Some?
    requires t < |s.room.plan.content[b].content[c].triggers|
    ensures var bp := s.room.plan.content[b];
      var cp := bp.content[c];
      var trig := cp.triggers[t];
      var fires := trig.action == "start" && IsActive(s.room, ChanRef(b, c, t)) && Matched(s.room.ledger, trig);
      var bridge := BridgeOf(s.room, b).value;
      var id := ChanId(cp.tag, s.room.callId);
      && (!fires ==> s' == s)
      && (fires ==>
            && s'.room == PutChan(s.room, bp.tag, cp.tag, Chan(KindOf(cp.kind), cp.tag, id, bridge.bridgeId, c, map[]))
                            .(fired := s.room.fired + {ChanRef(b, c, t)})
            && s'.tasks == s.tasks + [Schedule(Status(cp.tag, cp.status, id)),
                                      StartChan(KindOf(cp.kind), cp.tag, id, bridge.bridgeId, cp.params)]
            && s'.effects == s.effects)
    ensures Frame(s, s') && s'.room.ledger == s.room.ledger && s'.room.bridges.Keys == s.room.bridges.Keys
    ensures BridgeOf(s'.room, b).Some?
  {
    var bp := s.room.plan.content[b];
    var cp := bp.content[c];
    var trig := cp.triggers[t];
    var r := ChanRef(b, c, t);
    if trig.action == "start" && IsActive(s.room, r) && Matched(s.room.ledger, trig) then
      var bridge := BridgeOf(s.room, b).value;
      var id := ChanId(cp.tag, s.room.callId);
      var kind := KindOf(cp.kind);
      var f := Fire(s, r);
      f.(room := PutChan(f.room, bp.tag, cp.tag, Chan(kind, cp.tag, id, bridge.bridgeId, c, map[])),
         tasks := f.tasks + [Schedule(Status(cp.tag, cp.status, id)), StartChan(kind, cp.tag, id, bridge.bridgeId, cp.params)])
    else s
  }

  /** A chan start trigger fires at most once: checking it again right after changes nothing. */
  lemma ChanStartFiresOnce(s: Step, b: nat, c: nat, t: nat)
    requires ValidChan(s.room.plan, b, c) && BridgeOf(s.room, b).Some?
    requires t < |s.room.plan.content[b].content[c].triggers|
    ensures var s' := ChanStartStep(s, b, c, t);
      ChanStartStep(s', b, c, t) == s'
  {
    var s' := ChanStartStep(s, b, c, t);
    assert !IsActive(s'.room, ChanRef(b, c, t)) || s' == s;
  }

  /** `check_trigger_chans`' first loop, from chan plan `c`, trigger `t` on. */
  function ChanStarts(s: Step, b: nat, c: nat, t: nat): (s': Step)
    requires ValidBridge(s.room.plan, b) && BridgeOf(s.room, b).Some?
    requires c <= |s.room.plan.content[b].content|
    requires c < |s.room.plan.content[b].content| ==> t <= |s.room.plan.content[b].content[c].triggers|
    ensures Frame(s, s') && s'.room.ledger == s.room.ledger && s'.room.bridges.Keys == s.room.bridges.Keys
    ensures BridgeOf(s'.room, b).Some?
    decreases |s.room.plan.content[b].content| - c,
              if c < |s.room.plan.content[b].content| then |s.room.plan.content[b].content[c].triggers| - t else 0
  {
    var cps := s.room.plan.content[b].content;
    if c == |cps| then s
    else if t == |cps[c].triggers| then ChanStarts(s, b, c + 1, 0)
    else
      var s1 := ChanStartStep(s, b, c, t);
      var s2 := ChanStarts(s1, b, c, t + 1);
      FrameTransitive(s, s1, s2);
      s2
  }

  // Clip start triggers (src/chan.py:81-91): no nested write happens here

  /**
   * One start trigger of clip plan `k` under chan plan `c` of bridge plan `b`:
   * when it is active and matched it fires, and a new clip is registered in
   * the chan under the plan tag; its initial status and `start_clip` become tasks.
   */
  function ClipStartStep(s: Step, b: nat, c: nat, k: nat, t: nat): (s': Step)
    requires ValidClip(s.room.plan, b, c, k) && ChanOf(s.room, b, c).Some?
    requires t < |s.room.plan.content[b].content[c].content[k].triggers|
    ensures var bp := s.room.plan.content[b];
      var cp := bp.content[c];
      var kp := cp.content[k];
      var trig := kp.triggers[t];
      var fires := trig.action == "start" && IsActive(s.room, ClipRef(b, c, k, t)) && Matched(s.room.ledger, trig);
      var chan := ChanOf(s.room, b, c).value;
      var id := ClipId(kp.tag, s.room.druid);
      && (!fires ==> s' == s)
      && (fires ==>
            && s'.room == PutClip(s.room, bp.tag, cp.tag, kp.tag, Clip(kp.tag, id, chan.chanId, k))
                            .(fired := s.room.fired + {ClipRef(b, c, k, t)})
            && s'.tasks == s.tasks + [Record(Status(kp.tag, kp.status, id)), StartClip(kp.tag, id, chan.chanId, kp.params)]
            && s'.effects == s.effects)
    ensures Frame(s, s') && s'.room.ledger == s.room.ledger
    ensures ChanOf(s'.room, b, c).Some?
  {
    var bp := s.room.plan.content[b];
    var cp := bp.content[c];
    var kp := cp.content[k];
    var trig := kp.triggers[t];
    var r := ClipRef(b, c, k, t);
    if trig.action == "start" && IsActive(s.room, r) && Matched(s.room.ledger, trig) then
      var chan := ChanOf(s.room, b, c).value;
      var id := ClipId(kp.tag, s.room.druid);
      var f := Fire(s, r);
      f.(room := PutClip(f.room, bp.tag, cp.tag, kp.tag, Clip(kp.tag, id, chan.chanId, k)),
         tasks := f.tasks + [Record(Status(kp.tag, kp.status, id)), StartClip(kp.tag, id, chan.chanId, kp.params)])
    else s
  }

  /** A clip start trigger fires at most once: checking it again right after changes nothing. */
  lemma ClipStartFiresOnce(s: Step, b: nat, c: nat, k: nat, t: nat)
    requires ValidClip(s.room.plan, b, c, k) && ChanOf(s.room, b, c).Some?
    requires t < |s.room.plan.content[b].content[c].content[k].triggers|
    ensures var s' := ClipStartStep(s, b, c, k, t);
      ClipStartStep(s', b, c, k, t) == s'
  {
    var s' := ClipStartStep(s, b, c, k, t);
    assert !IsActive(s'.room, ClipRef(b, c, k, t)) || s' == s;
  }

  /** The start-trigger loop of one clip plan, from trigger `t` on. */
  function ClipStarts(s: Step, b: nat, c: nat, k: nat, t: nat): (s': Step)
    requires ValidClip(s.room.plan, b, c, k) && ChanOf(s.room, b, c).Some?
    requires t <= |s.room.plan.content[b].content[c].content[k].triggers|
    ensures Frame(s, s') && s'.room.ledger == s.room.ledger
    decreases |s.room.plan.content[b].content[c].content[k].triggers| - t
  {
    if t == |s.room.plan.content[b].content[c].content[k].triggers| then s
    else
      var s1 := ClipStartStep(s, b, c, k, t);
      var s2 := ClipStarts(s1, b, c, k, t + 1);
      FrameTransitive(s, s1, s2);
      s2
  }

  // The recursive part: every function below may reach a nested `add_tag_status`

  /**
   * `add_tag_status`: record the status, then check the room's triggers and
   * the bridges' (which check their chans', which check their clips').
   * However deep the nested writes go, the result has the written status,
   * the ledger only grew, and no room terminate trigger and no bridge start
   * trigger is left waiting to fire.
   */
  function AddTagStatus(s: Step, w: Write, pbx: Pbx): (s': Step)
    ensures Grows(s, s')
    ensures Ledger.Has(s'.room.ledger, w.tag, w.status)
    ensures !Ledger.Has(s.room.ledger, w.tag, w.status) ==> s'.room.ledger[w.tag][w.status].value == w.value
    ensures Ledger.Has(s.room.ledger, w.tag, w.status) ==>
              var n := |s.room.ledger[w.tag][w.status].rewrite|;
              n < |s'.room.ledger[w.tag][w.status].rewrite|
              && s'.room.ledger[w.tag][w.status].rewrite[n] == Ledger.Rewrite(w.externalTime, w.triggerTime, w.value)
    ensures RoomSettled(s'.room) && BridgesSettled(s'.room)
    decreases Measure(s), 20, 0
  {
    var l := Ledger.Add(s.room.ledger, w.tag, w.status, w.externalTime, w.triggerTime, w.value);
    Ledger.AddExtends(s.room.ledger, w.tag, w.status, w.externalTime, w.triggerTime, w.value);
    var s1 := s.(room := s.room.(ledger := l));
    var s2 := CheckRoom(s1, 0, pbx);
    var s3 := BridgePass(s2, 0);
    PendingKept(s2, s3);
    GrowsTransitive(s1, s2, s3);
    FrameMeasure(s1, s3);
    var s4 := VisitBridges(s3, 0, pbx);
    GrowsTransitive(s1, s3, s4);
    GrowsTransitive(s, s1, s4);
    Ledger.AddThenExtends(s.room.ledger, w.tag, w.status, w.externalTime, w.triggerTime, w.value, s4.room.ledger);
    s4
  }

  /** `check_trigger_room`, from trigger `i` on. */
  function CheckRoom(s: Step, i: nat, pbx: Pbx): (s': Step)
    requires i <= |s.room.plan.triggers|
    ensures Grows(s, s')
    ensures (forall j :: 0 <= j < i ==> !RoomPending(s.room, j)) ==> RoomSettled(s'.room)
    ensures BridgesSettled(s.room) ==> BridgesSettled(s'.room)
    ensures i < |s.room.plan.triggers| && RoomPending(s.room, i) ==>
              RoomRef(i) in s'.room.fired && Ledger.Has(s'.room.ledger, s.room.plan.tag, "stop")
    decreases Measure(s), 18, |s.room.plan.triggers| - i
  {
    if i == |s.room.plan.triggers| then GrowsReflexive(s); s
    else
      var s1 := RoomTriggerStep(s, i, pbx);
      FrameMeasure(s, s1);
      var s2 := CheckRoom(s1, i + 1, pbx);
      GrowsTransitive(s, s1, s2);
      s2
  }

  /** A pending room terminate trigger fires and records 'stop' on the room. */
  function RoomTriggerStep(s: Step, i: nat, pbx: Pbx): (s': Step)
    requires i < |s.room.plan.triggers|
    ensures Grows(s, s')
    ensures !RoomPending(s.room, i) ==> s' == s
    ensures (forall j :: 0 <= j < i ==> !RoomPending(s.room, j)) ==> forall j :: 0 <= j <= i ==> !RoomPending(s'.room, j)
    ensures RoomPending(s.room, i) ==>
              && RoomRef(i) in s'.room.fired && Ledger.Has(s'.room.ledger, s.room.plan.tag, "stop")
              && RoomSettled(s'.room) && BridgesSettled(s'.room)
    decreases Measure(s), 17, 0
  {
    if RoomPending(s.room, i) then
      var f := Fire(s, RoomRef(i));
      FireShrinks(s, RoomRef(i));
      var n := AddTagStatus(f, Status(s.room.plan.tag, "stop", ""), pbx);
      PendingKept(s, f);
      GrowsTransitive(s, f, n);
      n
    else GrowsReflexive(s); s
  }

  /**
   * A room terminate trigger fires at most once: checking it again right
   * after it was checked changes nothing, however deep its nested write went,
   * and once it fired no later state that only grew from there fires it again.
   */
  lemma RoomTriggerFiresOnce(s: Step, i: nat, pbx: Pbx, later: Step)
    requires i < |s.room.plan.triggers|
    requires Frame(RoomTriggerStep(s, i, pbx), later)
    ensures var s' := RoomTriggerStep(s, i, pbx);
      RoomTriggerStep(s', i, pbx) == s'
    ensures RoomPending(s.room, i) ==> RoomTriggerStep(later, i, pbx) == later
  {
    var s' := RoomTriggerStep(s, i, pbx);
    assert !RoomPending(s'.room, i);
    assert RoomPending(s.room, i) ==> !RoomPending(later.room, i);
  }

  /** `check_trigger_bridges`' second loop: each live bridge checks its chans. */
  function VisitBridges(s: Step, b: nat, pbx: Pbx): (s': Step)
    requires b <= |s.room.plan.content|
    ensures Grows(s, s')
    ensures RoomSettled(s.room) ==> RoomSettled(s'.room)
    ensures BridgesSettled(s.room) ==> BridgesSettled(s'.room)
    decreases Measure(s), 16, |s.room.plan.content| - b
  {
    if b == |s.room.plan.content| then GrowsReflexive(s); s
    else
      var s1 := CheckChans(s, b, pbx);
      FrameMeasure(s, s1);
      var s2 := VisitBridges(s1, b + 1, pbx);
      GrowsTransitive(s, s1, s2);
      s2
  }

  /** `check_trigger_chans` of the bridge of plan `b`, when there is one. */
  function CheckChans(s: Step, b: nat, pbx: Pbx): (s': Step)
    requires ValidBridge(s.room.plan, b)
    ensures Grows(s, s')
    ensures RoomSettled(s.room) ==> RoomSettled(s'.room)
    ensures BridgesSettled(s.room) ==> BridgesSettled(s'.room)
    decreases Measure(s), 15, 0
  {
    if BridgeOf(s.room, b).Some? then
      var a := ChanStarts(s, b, 0, 0);
      PendingKept(s, a);
      FrameMeasure(s, a);
      var v := VisitChans(a, b, 0, pbx);
      GrowsTransitive(s, a, v);
      v
    else GrowsReflexive(s); s
  }

  /** `check_trigger_chans`' second loop: each live chan of bridge plan `b` checks its clips. */
  function VisitChans(s: Step, b: nat, c: nat, pbx: Pbx): (s': Step)
    requires ValidBridge(s.room.plan, b) && c <= |s.room.plan.content[b].content|
    ensures Grows(s, s')
    ensures RoomSettled(s.room) ==> RoomSettled(s'.room)
    ensures BridgesSettled(s.room) ==> BridgesSettled(s'.room)
    decreases Measure(s), 14, |s.room.plan.content[b].content| - c
  {
    if c == |s.room.plan.content[b].content| then GrowsReflexive(s); s
    else
      var s1 := if ChanOf(s.room, b, c).Some? then CheckClips(s, b, c, 0, pbx) else (GrowsReflexive(s); s);
      FrameMeasure(s, s1);
      var s2 := VisitChans(s1, b, c + 1, pbx);
      GrowsTransitive(s, s1, s2);
      s2
  }

  /**
   * `check_trigger_clips`, from clip plan `k` on: per clip plan, terminate
   * triggers first, then start triggers; then every live clip checks its funcs.
   */
  function CheckClips(s: Step, b: nat, c: nat, k: nat, pbx: Pbx): (s': Step)
    requires ValidChan(s.room.plan, b, c) && k <= |s.room.plan.content[b].content[c].content|
    ensures Grows(s, s')
    ensures RoomSettled(s.room) ==> RoomSettled(s'.room)
    ensures BridgesSettled(s.room) ==> BridgesSettled(s'.room)
    decreases Measure(s), 12, |s.room.plan.content[b].content[c].content| - k
  {
    if k == |s.room.plan.content[b].content[c].content| then VisitClips(s, b, c, 0, pbx)
    else
      var s1 := ClipTerminates(s, b, c, k, 0, pbx);
      var s2 := if ChanOf(s1.room, b, c).Some? then ClipStarts(s1, b, c, k, 0) else s1;
      PendingKept(s1, s2);
      GrowsTransitive(s, s1, s2);
      FrameMeasure(s, s2);
      var s3 := CheckClips(s2, b, c, k + 1, pbx);
      GrowsTransitive(s, s2, s3);
      s3
  }

  /** The terminate-trigger loop of clip plan `k`, from trigger `t` on. */
  function ClipTerminates(s: Step, b: nat, c: nat, k: nat, t: nat, pbx: Pbx): (s': Step)
    requires ValidClip(s.room.plan, b, c, k) && t <= |s.room.plan.content[b].content[c].content[k].triggers|
    ensures Grows(s, s')
    ensures RoomSettled(s.room) ==> RoomSettled(s'.room)
    ensures BridgesSettled(s.room) ==> BridgesSettled(s'.room)
    decreases Measure(s), 10, |s.room.plan.content[b].content[c].content[k].triggers| - t
  {
    if t == |s.room.plan.content[b].content[c].content[k].triggers| then GrowsReflexive(s); s
    else
      var s1 := ClipTerminateStep(s, b, c, k, t, pbx);
      FrameMeasure(s, s1);
      var s2 := ClipTerminates(s1, b, c, k, t + 1, pbx);
      GrowsTransitive(s, s1, s2);
      s2
  }

  /**
   * One terminate trigger of clip plan `k`: when it is active and matched it
   * fires and stops the clip registered under the plan tag, whose
   * 'api_stop_playback' is written at once.
   */
  function ClipTerminateStep(s: Step, b: nat, c: nat, k: nat, t: nat, pbx: Pbx): (s': Step)
    requires ValidClip(s.room.plan, b, c, k) && t < |s.room.plan.content[b].content[c].content[k].triggers|
    ensures var kp := s.room.plan.content[b].content[c].content[k];
      var trig := kp.triggers[t];
      var fires := trig.action == "terminate" && IsActive(s.room, ClipRef(b, c, k, t)) && Matched(s.room.ledger, trig);
      && (!fires ==> s' == s)
      && (fires ==> ClipRef(b, c, k, t) in s'.room.fired)
    ensures Grows(s, s')
    ensures RoomSettled(s.room) ==> RoomSettled(s'.room)
    ensures BridgesSettled(s.room) ==> BridgesSettled(s'.room)
    decreases Measure(s), 9, 0
  {
    var kp := s.room.plan.content[b].content[c].content[k];
    var trig := kp.triggers[t];
    var r := ClipRef(b, c, k, t);
    if trig.action == "terminate" && IsActive(s.room, r) && Matched(s.room.ledger, trig) then
      var f := Fire(s, r);
      FireShrinks(s, r);
      PendingKept(s, f);
      var n := StopClipAt(f, b, c, k, pbx);
      GrowsTransitive(s, f, n);
      n
    else GrowsReflexive(s); s
  }

  /**
   * A clip terminate trigger fires at most once: once it fired, no later
   * state that only grew from there (as every nested `add_tag_status` and
   * every later step of the loop leaves it) fires it again, so its clip is
   * stopped once.
   */
  lemma ClipTerminateFiresOnce(s: Step, b: nat, c: nat, k: nat, t: nat, pbx: Pbx, later: Step)
    requires ValidClip(s.room.plan, b, c, k) && t < |s.room.plan.content[b].content[c].content[k].triggers|
    requires Frame(ClipTerminateStep(s, b, c, k, t, pbx), later)
    ensures var s' := ClipTerminateStep(s, b, c, k, t, pbx);
      ClipTerminateStep(s', b, c, k, t, pbx) == s'
    ensures var trig := s.room.plan.content[b].content[c].content[k].triggers[t];
      trig.action == "terminate" && IsActive(s.room, ClipRef(b, c, k, t)) && Matched(s.room.ledger, trig) ==>
        ClipTerminateStep(later, b, c, k, t, pbx) == later
  {
    var s' := ClipTerminateStep(s, b, c, k, t, pbx);
    assert !IsActive(later.room, ClipRef(b, c, k, t)) || s' == s;
  }

  /** A terminate trigger that fires on a started clip records that clip's 'api_stop_playback'. */
  lemma ClipTerminateStopsClip(s: Step, b: nat, c: nat, k: nat, t: nat, pbx: Pbx)
    requires ValidClip(s.room.plan, b, c, k) && t < |s.room.plan.content[b].content[c].content[k].triggers|
    requires var trig := s.room.plan.content[b].content[c].content[k].triggers[t];
      trig.action == "terminate" && IsActive(s.room, ClipRef(b, c, k, t)) && Matched(s.room.ledger, trig)
    requires var kp := s.room.plan.content[b].content[c].content[k];
      ChanOf(s.room, b, c).Some? && kp.tag in ChanOf(s.room, b, c).value.clips
    ensures var kp := s.room.plan.content[b].content[c].content[k];
      Ledger.Has(ClipTerminateStep(s, b, c, k, t, pbx).room.ledger, ChanOf(s.room, b, c).value.clips[kp.tag].tag,
                 "api_stop_playback")
  {
    var f := Fire(s, ClipRef(b, c, k, t));
    assert ChanOf(f.room, b, c) == ChanOf(s.room, b, c);
  }

  /**
   * `stop_clip` of the clip registered under the tag of clip plan `k`: its
   * stop call is made and 'api_stop_playback' written at once. Without such
   * a clip nothing happens.
   */
  function StopClipAt(s: Step, b: nat, c: nat, k: nat, pbx: Pbx): (s': Step)
    requires ValidClip(s.room.plan, b, c, k)
    ensures var kp := s.room.plan.content[b].content[c].content[k];
      var chan := ChanOf(s.room, b, c);
      && (chan.Some? && kp.tag in chan.value.clips ==>
            Ledger.Has(s'.room.ledger, chan.value.clips[kp.tag].tag, "api_stop_playback")
            && RoomSettled(s'.room) && BridgesSettled(s'.room))
      && (chan.None? || kp.tag !in chan.value.clips ==> s' == s)
    ensures Grows(s, s')
    decreases Measure(s), 21, 0
  {
    var kp := s.room.plan.content[b].content[c].content[k];
    match ChanOf(s.room, b, c)
    case Some(chan) =>
      if kp.tag in chan.clips then
        var clip := chan.clips[kp.tag];
        var o := Clips.StopClip(clip.tag, clip.clipId, pbx);
        var e := s.(effects := s.effects + o.effects);
        PendingKept(s, e);
        var n := AddTagStatus(e, o.write, pbx);
        GrowsTransitive(s, e, n);
        n
      else GrowsReflexive(s); s
    case None => GrowsReflexive(s); s
  }

  /** `check_trigger_clips`' last loop: each live clip checks its func triggers. */
  function VisitClips(s: Step, b: nat, c: nat, k: nat, pbx: Pbx): (s': Step)
    requires ValidChan(s.room.plan, b, c) && k <= |s.room.plan.content[b].content[c].content|
    ensures Grows(s, s')
    ensures RoomSettled(s.room) ==> RoomSettled(s'.room)
    ensures BridgesSettled(s.room) ==> BridgesSettled(s'.room)
    decreases Measure(s), 8, |s.room.plan.content[b].content[c].content| - k
  {
    if k == |s.room.plan.content[b].content[c].content| then GrowsReflexive(s); s
    else
      var s1 := if ClipOf(s.room, b, c, k).Some? then ClipFuncs(s, b, c, k, 0, pbx) else (GrowsReflexive(s); s);
      FrameMeasure(s, s1);
      var s2 := VisitClips(s1, b, c, k + 1, pbx);
      GrowsTransitive(s, s1, s2);
      s2
  }

  /** `check_trigger_clip_funcs`, from trigger `t` on. */
  function ClipFuncs(s: Step, b: nat, c: nat, k: nat, t: nat, pbx: Pbx): (s': Step)
    requires ValidClip(s.room.plan, b, c, k) && t <= |s.room.plan.content[b].content[c].content[k].triggers|
    ensures Grows(s, s')
    ensures RoomSettled(s.room) ==> RoomSettled(s'.room)
    ensures BridgesSettled(s.room) ==> BridgesSettled(s'.room)
    decreases Measure(s), 6, |s.room.plan.content[b].content[c].content[k].triggers| - t
  {
    if t == |s.room.plan.content[b].content[c].content[k].triggers| then GrowsReflexive(s); s
    else
      var s1 := ClipFuncStep(s, b, c, k, t, pbx);
      FrameMeasure(s, s1);
      var s2 := ClipFuncs(s1, b, c, k, t + 1, pbx);
      GrowsTransitive(s, s1, s2);
      s2
  }

  /**
   * One func trigger of clip plan `k`, with the corrected guard: an active
   * matched trigger naming check_fully_playback fires, and 'fully_playback'
   * is written when the clip's playback finished unstopped and not failed.
   */
  function ClipFuncStep(s: Step, b: nat, c: nat, k: nat, t: nat, pbx: Pbx): (s': Step)
    requires ValidClip(s.room.plan, b, c, k) && t < |s.room.plan.content[b].content[c].content[k].triggers|
    ensures var kp := s.room.plan.content[b].content[c].content[k];
      var trig := kp.triggers[t];
      var runs := Clips.FuncRuns(trig, IsActive(s.room, ClipRef(b, c, k, t)), Matched(s.room.ledger, trig));
      && (!runs ==> s' == s)
      && (runs ==> ClipRef(b, c, k, t) in s'.room.fired)
      && (runs && Clips.FullyPlayedBack(s.room.ledger, kp.tag) ==> Ledger.Has(s'.room.ledger, kp.tag, "fully_playback"))
      && (runs && !Clips.FullyPlayedBack(s.room.ledger, kp.tag) ==>
            s' == s.(room := s.room.(fired := s.room.fired + {ClipRef(b, c, k, t)})))
    ensures Grows(s, s')
    ensures RoomSettled(s.room) ==> RoomSettled(s'.room)
    ensures BridgesSettled(s.room) ==> BridgesSettled(s'.room)
    decreases Measure(s), 5, 0
  {
    var kp := s.room.plan.content[b].content[c].content[k];
    var trig := kp.triggers[t];
    var r := ClipRef(b, c, k, t);
    if Clips.FuncRuns(trig, IsActive(s.room, r), Matched(s.room.ledger, trig)) then
      var f := Fire(s, r);
      FireShrinks(s, r);
      PendingKept(s, f);
      if Clips.FullyPlayedBack(f.room.ledger, kp.tag) then
        var n := AddTagStatus(f, Clips.FullyPlaybackWrite(kp.tag), pbx);
        GrowsTransitive(s, f, n);
        n
      else f
    else GrowsReflexive(s); s
  }
}

=== FILE: chan_start.dfy ===
/**
 * The `start_chan` coroutines of src/chan_outbound.py, src/chan_inbound.py,
 * src/chan_snoop.py and src/chan_emedia.py: each is a small decision
 * procedure over the PBX's responses that yields the remote calls it makes
 * and the statuses it records (each recorded status is its own task, since
 * `add_status_chan` goes through `asyncio.create_task`).
 */
module ChanStart {
  import opened Wrappers
  import opened Text
  import Ledger
  import Calls
  import opened Live

  datatype Outcome = Outcome(effects: seq<Effect>, writes: seq<Write>)

  /** http.client.OK and http.client.NO_CONTENT. */
  predicate CreatedCode(code: int) {
    code == 200 || code == 204
  }

  function ChannelSource(chanId: string): string { "channel:" + chanId }

  /** Python's f-string rendering of an optional string. */
  function Show(x: Option<string>): string {
    if x.None? then "None" else x.value
  }

  function Lookup(params: map<string, string>, key: string): (v: Option<string>)
    ensures v.Some? <==> key in params
    ensures v.Some? ==> v.value == params[key]
  {
    if key in params then Some(params[key]) else None
  }

  function OutboundEndpoint(o: Calls.DialOption): string {
    "SIP/" + o.gate + "/" + o.phonePrefix + o.phoneString
  }

  /** `ChanOutbound.start_chan`. */
  function StartOutbound(tag: string, chanId: string, bridgeId: string, params: map<string, string>,
                         dialOptions: map<string, Calls.DialOption>, pbx: Pbx): (o: Outcome)
    ensures var name := Lookup(params, "dial_option_name");
      name.None? || name.value !in dialOptions ==>
        o == Outcome([], [Status(tag, "api_error", "No found dial_option_name=" + Show(name) + " in lead.dial_options"),
                          Status(tag, "stop", "")])
    ensures var name := Lookup(params, "dial_option_name");
      name.Some? && name.value in dialOptions ==>
        var opt := dialOptions[name.value];
        var create := CreateChan(chanId, OutboundEndpoint(opt), opt.callerid);
        && |o.effects| >= 1 && o.effects[0] == create
        && (CreatedCode(pbx(create).httpCode) ==>
              o == Outcome([create, Subscribe(ChannelSource(chanId)), AddChannelToBridge(bridgeId, chanId), DialChan(chanId)], []))
        && (!CreatedCode(pbx(create).httpCode) ==>
              o == Outcome([create], [Status(tag, "api_error", pbx(create).message), Status(tag, "stop", "")]))
  {
    var name := Lookup(params, "dial_option_name");
    if name.None? || name.value !in dialOptions then
      Outcome([], [Status(tag, "api_error", "No found dial_option_name=" + Show(name) + " in lead.dial_options"),
                   Status(tag, "stop", "")])
    else
      var opt := dialOptions[name.value];
      var create := CreateChan(chanId, OutboundEndpoint(opt), opt.callerid);
      var r := pbx(create);
      if CreatedCode(r.httpCode) then
        Outcome([create, Subscribe(ChannelSource(chanId)), AddChannelToBridge(bridgeId, chanId), DialChan(chanId)], [])
      else
        Outcome([create], [Status(tag, "api_error", r.message), Status(tag, "stop", "")])
  }

  /** The fixed endpoint and caller id of an inbound chan: 'oper' gets extension 321, every other tag 123. */
  function InboundCreate(tag: string, chanId: string): (e: Effect)
    ensures tag == "oper" ==> e == CreateChan(chanId, "SIP/asterisk_extapi-1/321", "321")
    ensures tag != "oper" ==> e == CreateChan(chanId, "SIP/asterisk_extapi-1/123", "123")
  {
    if tag == "oper" then CreateChan(chanId, "SIP/asterisk_extapi-1/321", "321")
    else CreateChan(chanId, "SIP/asterisk_extapi-1/123", "123")
  }

  /** `ChanInbound.start_chan`. */
  function StartInbound(tag: string, chanId: string, bridgeId: string, pbx: Pbx): (o: Outcome)
    ensures |o.effects| >= 1 && o.effects[0] == InboundCreate(tag, chanId)
    ensures forall i :: 1 <= i < |o.effects| ==> !o.effects[i].CreateChan?
    ensures pbx(InboundCreate(tag, chanId)).success ==>
              o.effects[1..] == [Subscribe(ChannelSource(chanId)), AddChannelToBridge(bridgeId, chanId), DialChan(chanId)]
              && o.writes == []
    ensures !pbx(InboundCreate(tag, chanId)).success ==>
              o.effects == [InboundCreate(tag, chanId)] && o.writes == [Status(tag, "api_error", ""), Status(tag, "stop", "")]
  {
    var create := InboundCreate(tag, chanId);
    if pbx(create).success then
      Outcome([create, Subscribe(ChannelSource(chanId)), AddChannelToBridge(bridgeId, chanId), DialChan(chanId)], [])
    else
      Outcome([create], [Status(tag, "api_error", ""), Status(tag, "stop", "")])
  }

  /** `ChanSnoop.start_chan`: spy on the chan of `target_chan_tag` in the same call. */
  function StartSnoop(tag: string, chanId: string, bridgeId: string, callId: string, params: map<string, string>,
                      ledger: Ledger.Ledger, pbx: Pbx): (o: Outcome)
    ensures var target := Lookup(params, "target_chan_tag");
      target.None? || target.value !in ledger ==>
        o == Outcome([], [Status(tag, "dialplan_error", "For target_chan_tag=" + Show(target) + " not found tag in tags_statuses"),
                          Status(tag, "stop", "")])
    ensures var target := Lookup(params, "target_chan_tag");
      target.Some? && target.value in ledger ==>
        var create := CreateSnoopChan(ChanId(target.value, callId), chanId);
        && |o.effects| >= 1 && o.effects[0] == create
        && |o.writes| >= 2 && o.writes[0] == Status(tag, "api_create_chan", IntToString(pbx(create).httpCode))
        && (pbx(create).success ==>
              o.effects == [create, Subscribe(ChannelSource(chanId)), AddChannelToBridge(bridgeId, chanId)]
              && o.writes[1..] == [Status(tag, "api_chan2bridge", IntToString(pbx(AddChannelToBridge(bridgeId, chanId)).httpCode))])
        && (!pbx(create).success ==>
              o.effects == [create] && o.writes[1..] == [Status(tag, "error_create_chan", pbx(create).message), Status(tag, "stop", "")])
  {
    var target := Lookup(params, "target_chan_tag");
    if target.None? || target.value !in ledger then
      Outcome([], [Status(tag, "dialplan_error", "For target_chan_tag=" + Show(target) + " not found tag in tags_statuses"),
                   Status(tag, "stop", "")])
    else
      var create := CreateSnoopChan(ChanId(target.value, callId), chanId);
      var r := pbx(create);
      var first := Status(tag, "api_create_chan", IntToString(r.httpCode));
      if r.success then
        var add := AddChannelToBridge(bridgeId, chanId);
        Outcome([create, Subscribe(ChannelSource(chanId)), add],
                [first, Status(tag, "api_chan2bridge", IntToString(pbx(add).httpCode))])
      else
        Outcome([create], [first, Status(tag, "error_create_chan", r.message), Status(tag, "stop", "")])
  }

  /** `ChanEmedia.start_chan`: external media towards `external_host`. */
  function StartEmedia(tag: string, chanId: string, bridgeId: string, params: map<string, string>, pbx: Pbx): (o: Outcome)
    ensures var host := Lookup(params, "external_host");
      host.None? || host.value == "" ==> o == Outcome([], [])
    ensures var host := Lookup(params, "external_host");
      host.Some? && host.value != "" ==>
        var create := CreateEmediaChan(chanId, host.value);
        && |o.effects| >= 1 && o.effects[0] == create
        && (forall i :: 1 <= i < |o.effects| ==> !o.effects[i].CreateEmediaChan?)
        && (CreatedCode(pbx(create).httpCode) ==>
              o == Outcome([create, Subscribe(ChannelSource(chanId)), AddChannelToBridge(bridgeId, chanId)], []))
        && (!CreatedCode(pbx(create).httpCode) ==>
              o == Outcome([create], [Status(tag, "api_error", ""), Status(tag, "stop", "")]))
  {
    var host := Lookup(params, "external_host");
    if host.None? || host.value == "" then Outcome([], [])
    else
      var create := CreateEmediaChan(chanId, host.value);
      if CreatedCode(pbx(create).httpCode) then
        Outcome([create, Subscribe(ChannelSource(chanId)), AddChannelToBridge(bridgeId, chanId)], [])
      else
        Outcome([create], [Status(tag, "api_error", ""), Status(tag, "stop", "")])
  }

  /** The `start_chan` of the chan's class. */
  function Start(kind: ChanKind, tag: string, chanId: string, bridgeId: string, params: map<string, string>,
                 callId: string, ledger: Ledger.Ledger, dialOptions: map<string, Calls.DialOption>, pbx: Pbx): (o: Outcome)
    ensures kind == Outbound ==> o == StartOutbound(tag, chanId, bridgeId, params, dialOptions, pbx)
    ensures kind == Inbound ==> o == StartInbound(tag, chanId, bridgeId, pbx)
    ensures kind == Snoop ==> o == StartSnoop(tag, chanId, bridgeId, callId, params, ledger, pbx)
    ensures kind == Emedia ==> o == StartEmedia(tag, chanId, bridgeId, params, pbx)
  {
    match kind
    case Outbound => StartOutbound(tag, chanId, bridgeId, params, dialOptions, pbx)
    case Inbound => StartInbound(tag, chanId, bridgeId, pbx)
    case Snoop => StartSnoop(tag, chanId, bridgeId, callId, params, ledger, pbx)
    case Emedia => StartEmedia(tag, chanId, bridgeId, params, pbx)
  }

  /** The chan joined its bridge. */
  predicate Bridged(o: Outcome, bridgeId: string, chanId: string) {
    AddChannelToBridge(bridgeId, chanId) in o.effects
  }

  /** The chan asked its room to stop. */
  predicate Stopped(o: Outcome, tag: string) {
    Status(tag, "stop", "") in o.writes
  }

  /**
   * Across all four classes, a started chan either joins its bridge or asks
   * for 'stop', never both; the only way to do neither is an external-media
   * chan without a host, which makes no remote call at all. Every status
   * recorded is on the chan's own tag.
   */
  lemma StartJoinsOrStops(kind: ChanKind, tag: string, chanId: string, bridgeId: string, params: map<string, string>,
                          callId: string, ledger: Ledger.Ledger, dialOptions: map<string, Calls.DialOption>, pbx: Pbx)
    ensures var o := Start(kind, tag, chanId, bridgeId, params, callId, ledger, dialOptions, pbx);
      && !(Bridged(o, bridgeId, chanId) && Stopped(o, tag))
      && (Bridged(o, bridgeId, chanId) || Stopped(o, tag) || o == Outcome([], []))
      && (o == Outcome([], []) ==> kind == Emedia)
      && (forall i :: 0 <= i < |o.writes| ==> o.writes[i].tag == tag)
  {
    var o := Start(kind, tag, chanId, bridgeId, params, callId, ledger, dialOptions, pbx);
    if kind == Snoop && o.writes != [] && o.writes[|o.writes| - 1].status != "stop" {
      assert Status(tag, "stop", "") !in o.writes;
    }
  }

  /**
   * A chan joins its bridge exactly when the PBX accepted its creation: code
   * 200 or 204 for outbound and external-media chans, `success` for inbound
   * and snoop chans.
   */
  lemma BridgedIffCreated(kind: ChanKind, tag: string, chanId: string, bridgeId: string, params: map<string, string>,
                          callId: string, ledger: Ledger.Ledger, dialOptions: map<string, Calls.DialOption>, pbx: Pbx)
    ensures var o := Start(kind, tag, chanId, bridgeId, params, callId, ledger, dialOptions, pbx);
      Bridged(o, bridgeId, chanId) <==>
        (|o.effects| > 0 &&
         match kind
         case Outbound => CreatedCode(pbx(o.effects[0]).httpCode)
         case Emedia => CreatedCode(pbx(o.effects[0]).httpCode)
         case Inbound => pbx(o.effects[0]).success
         case Snoop => pbx(o.effects[0]).success)
  {
  }
}

=== FILE: clip.dfy ===
/**
 * The decisions of a clip (src/clip.py): starting and stopping playback,
 * the `check_fully_playback` test and which func triggers run it.
 */
module Clips {
  import opened Wrappers
  import opened Text
  import opened Dialplan
  import Ledger
  import opened Live

  const FullyPlaybackFunc := "check_fully_playback"

  /**
   * `check_fully_playback`'s test, in the order the source asks: the
   * playback finished, not as 'failed', and was never stopped through the API.
   */
  function FullyPlayedBack(l: Ledger.Ledger, tag: string): (r: bool)
    ensures r <==>
              && Ledger.Has(l, tag, "PlaybackFinished")
              && l[tag]["PlaybackFinished"].value != "failed"
              && !Ledger.Has(l, tag, "api_stop_playback")
  {
    match Ledger.Lookup(l, tag, "PlaybackFinished")
    case None => false
    case Some(rec) => rec.value != "failed" && Ledger.Lookup(l, tag, "api_stop_playback").None?
  }

  /**
   * The verdict only depends on the first recording of PlaybackFinished, so
   * once it is true it stays true until 'api_stop_playback' is recorded; and
   * once the playback was stopped it is false for good.
   */
  lemma FullyPlayedBackStable(l: Ledger.Ledger, l': Ledger.Ledger, tag: string)
    requires Ledger.Extends(l, l')
    ensures FullyPlayedBack(l, tag) && !Ledger.Has(l', tag, "api_stop_playback") ==> FullyPlayedBack(l', tag)
    ensures Ledger.Has(l, tag, "api_stop_playback") ==> !FullyPlayedBack(l', tag)
  {
    if Ledger.Has(l, tag, "PlaybackFinished") {
      assert Ledger.Has(l', tag, "PlaybackFinished");
    }
    if Ledger.Has(l, tag, "api_stop_playback") {
      assert Ledger.Has(l', tag, "api_stop_playback");
    }
  }

  /** The write `check_fully_playback` makes when its test passes. */
  function FullyPlaybackWrite(tag: string): Write {
    Status(tag, "fully_playback", "True")
  }

  /**
   * Whether `check_trigger_clip_funcs` runs `check_fully_playback` for a
   * trigger, as written: the guard reads `action is False`, which a string
   * never is, so whether the trigger is still active plays no part.
   */
  predicate FuncRunsAsWritten(trig: Trigger, matched: bool) {
    if trig.action == "func" && (trig.func.None? || false) then false
    else matched && trig.func == Some(FullyPlaybackFunc)
  }

  /**
   * The guard as evidently intended: only an active trigger runs its func.
   * This asks for an active trigger whatever its action, which is more than
   * reading `trigger.active is False` on line 82 would give: that one-token
   * fix still lets an inactive trigger with another action run its func,
   * again with no bound, since the pair it watches is still recorded when
   * the write the func makes re-enters this loop.
   */
  predicate FuncRuns(trig: Trigger, live: bool, matched: bool) {
    if trig.action == "func" && (trig.func.None? || !live) then false
    else live && matched && trig.func == Some(FullyPlaybackFunc)
  }

  /**
   * A trigger whose func is absent or names anything but
   * check_fully_playback never runs, and the corrected guard lets a trigger
   * through only while it is active and its status is recorded.
   */
  lemma FuncRunsOnlyFullyPlayback(trig: Trigger, live: bool, matched: bool)
    ensures FuncRuns(trig, live, matched) <==> live && matched && trig.func == Some(FullyPlaybackFunc)
    ensures trig.func != Some(FullyPlaybackFunc) ==> !FuncRuns(trig, live, matched) && !FuncRunsAsWritten(trig, matched)
  {
  }

  /** `start_clip`: the remote call (if any) and the status recorded afterwards. */
  datatype ClipOutcome = ClipOutcome(effects: seq<Effect>, write: Write)

  function StartClip(tag: string, clipId: string, chanId: string, params: map<string, string>, pbx: Pbx): (o: ClipOutcome)
    ensures var audio := if "audio_name" in params then params["audio_name"] else "";
      && (audio != "" ==>
            o.effects == [StartPlayback(chanId, clipId, "sound:" + audio)]
            && o.write == Status(tag, "api_start_playback", IntToString(pbx(o.effects[0]).httpCode)))
      && (audio == "" ==> o.effects == [] && o.write == Status(tag, "error_in_audio_name", ""))
    ensures o.write.tag == tag
  {
    if "audio_name" in params && |params["audio_name"]| > 0 then
      var play := StartPlayback(chanId, clipId, "sound:" + params["audio_name"]);
      ClipOutcome([play], Status(tag, "api_start_playback", IntToString(pbx(play).httpCode)))
    else
      ClipOutcome([], Status(tag, "error_in_audio_name", ""))
  }

  /** `stop_clip`: one stop call, then its http code recorded as 'api_stop_playback'. */
  function StopClip(tag: string, clipId: string, pbx: Pbx): (o: ClipOutcome)
    ensures o.effects == [StopPlayback(clipId)]
    ensures o.write == Status(tag, "api_stop_playback", IntToString(pbx(StopPlayback(clipId)).httpCode))
  {
    var stop := StopPlayback(clipId);
    ClipOutcome([stop], Status(tag, "api_stop_playback", IntToString(pbx(stop).httpCode)))
  }

  /**
   * Stopping a clip records exactly the status that makes its playback count
   * as not fully played back from then on.
   */
  lemma StopClipPreventsFullyPlayback(tag: string, clipId: string, pbx: Pbx, l: Ledger.Ledger)
    ensures var w := StopClip(tag, clipId, pbx).write;
      !FullyPlayedBack(Ledger.Add(l, w.tag, w.status, w.externalTime, w.triggerTime, w.value), tag)
  {
  }
}

=== FILE: dialer.dfy ===
/**
 * The dialer of src/dialer.py: one pass of each of its two loops. Leads are
 * taken from the end of the lead queue and each becomes a room; messages are
 * taken from the end of the message queue and delivered to every room of
 * their lead.
 */
module Dialers {
  import opened Wrappers
  import opened Dialplan
  import Calls
  import Leads
  import TriggerEvents
  import opened Live
  import Rooms

  /** The plan every dialled lead gets. */
  const DialPlanName := "redir1_end8"

  /** A queued event together with the lead it is addressed to. */
  datatype Message = Message(leadId: string, event: TriggerEvents.TriggerEvent)

  /** A room started by the dialer, with the events delivered to it and not yet handled. */
  datatype Hosted = Hosted(step: Step, inbox: seq<TriggerEvents.TriggerEvent>)

  datatype Dialer = Dialer(
    queueLead: seq<Leads.Lead>,
    queueMsg: seq<Message>,
    dialPlans: map<string, RawPlan>,
    rooms: seq<Hosted>)

  /**
   * The room a lead becomes: built from the named plan, with `start_room`'s
   * 'ready' scheduled after the room's own initial write.
   */
  function StartRoom(lead: Leads.Lead, raw: RawPlan, app: string, callId: string, druid: string,
                     dialOptions: map<string, Calls.DialOption>): (h: Hosted)
    ensures h.inbox == [] && h.step.room.leadId == lead.leadId
    ensures h.step.room.plan == ParsePlan(raw, app) && h.step.room.ledger == map[] && h.step.room.bridges == map[]
    ensures |h.step.tasks| == 2 && h.step.tasks[1] == Record(Rooms.ReadyWrite(h.step.room))
    ensures h.step.tasks[0].Record? && h.step.tasks[0].w.tag == h.step.room.plan.tag
  {
    var s := Rooms.NewRoom(lead.leadId, callId, druid, raw, app, dialOptions);
    Hosted(s.(tasks := s.tasks + [Record(Rooms.ReadyWrite(s.room))]), [])
  }

  /**
   * One pass of `start_dialer`: nothing happens on an empty lead queue;
   * otherwise the last lead is popped and exactly one room is appended. A
   * missing plan name is the KeyError of `get_dial_plan`.
   */
  function StartDialerStep(d: Dialer, app: string, callId: string, druid: string,
                           dialOptions: map<string, Calls.DialOption>): (r: Result<Dialer>)
    ensures |d.queueLead| == 0 ==> r == Ok(d)
    ensures |d.queueLead| > 0 && DialPlanName !in d.dialPlans ==> r.Err?
    ensures |d.queueLead| > 0 && DialPlanName in d.dialPlans ==>
              && r.Ok?
              && r.value.queueLead == d.queueLead[..|d.queueLead| - 1]
              && |r.value.rooms| == |d.rooms| + 1 && r.value.rooms[..|d.rooms|] == d.rooms
              && r.value.rooms[|d.rooms|].step.room.leadId == d.queueLead[|d.queueLead| - 1].leadId
              && r.value.rooms[|d.rooms|].step.room.plan == ParsePlan(d.dialPlans[DialPlanName], app)
              && r.value.queueMsg == d.queueMsg && r.value.dialPlans == d.dialPlans
  {
    if |d.queueLead| == 0 then Ok(d)
    else if DialPlanName !in d.dialPlans then Err("KeyError: " + DialPlanName)
    else
      var lead := d.queueLead[|d.queueLead| - 1];
      var h := StartRoom(lead, d.dialPlans[DialPlanName], app, callId, druid, dialOptions);
      Ok(d.(queueLead := d.queueLead[..|d.queueLead| - 1], rooms := d.rooms + [h]))
  }

  /** No lead is lost or duplicated: a pass moves at most one lead from the queue to a room. */
  lemma StartDialerConservesLeads(d: Dialer, app: string, callId: string, druid: string,
                                  dialOptions: map<string, Calls.DialOption>)
    ensures var r := StartDialerStep(d, app, callId, druid, dialOptions);
      r.Ok? ==>
        && |r.value.queueLead| + |r.value.rooms| == |d.queueLead| + |d.rooms|
        && d.queueLead == r.value.queueLead + d.queueLead[|r.value.queueLead|..]
        && (forall i :: |r.value.queueLead| <= i < |d.queueLead| ==>
              r.value.rooms[|d.rooms| + i - |r.value.queueLead|].step.room.leadId == d.queueLead[i].leadId)
  {
  }

  /** Every room of `rooms` gets `m`'s event exactly when it belongs to `m`'s lead. */
  function Deliver(rooms: seq<Hosted>, m: Message): (rooms': seq<Hosted>)
    ensures |rooms'| == |rooms|
    ensures forall i :: 0 <= i < |rooms| ==>
              && rooms'[i].step == rooms[i].step
              && (rooms[i].step.room.leadId == m.leadId ==> rooms'[i].inbox == rooms[i].inbox + [m.event])
              && (rooms[i].step.room.leadId != m.leadId ==> rooms'[i] == rooms[i])
  {
    seq(|rooms|, i requires 0 <= i < |rooms| =>
      if rooms[i].step.room.leadId == m.leadId then rooms[i].(inbox := rooms[i].inbox + [m.event]) else rooms[i])
  }

  /** One pass of `run_message_pump_for_rooms`: the last queued message goes to the rooms of its lead. */
  function PumpStep(d: Dialer): (d': Dialer)
    ensures |d.queueMsg| == 0 ==> d' == d
    ensures |d.queueMsg| > 0 ==>
              && d'.queueMsg == d.queueMsg[..|d.queueMsg| - 1]
              && d'.rooms == Deliver(d.rooms, d.queueMsg[|d.queueMsg| - 1])
              && d'.queueLead == d.queueLead && d'.dialPlans == d.dialPlans
  {
    if |d.queueMsg| == 0 then d
    else d.(queueMsg := d.queueMsg[..|d.queueMsg| - 1], rooms := Deliver(d.rooms, d.queueMsg[|d.queueMsg| - 1]))
  }

  /** A message for a lead without a room is dropped. */
  lemma PumpDropsUnowned(d: Dialer)
    requires |d.queueMsg| > 0
    requires forall i :: 0 <= i < |d.rooms| ==> d.rooms[i].step.room.leadId != d.queueMsg[|d.queueMsg| - 1].leadId
    ensures PumpStep(d).rooms == d.rooms
  {
    var rooms' := PumpStep(d).rooms;
    assert forall i :: 0 <= i < |d.rooms| ==> rooms'[i] == d.rooms[i];
  }

  /**
   * The pump is last-in first-out: of two queued messages for the same room,
   * the later one reaches the room's inbox first.
   */
  lemma PumpIsLifo(d: Dialer, i: nat)
    requires |d.queueMsg| >= 2 && i < |d.rooms|
    requires d.queueMsg[|d.queueMsg| - 1].leadId == d.rooms[i].step.room.leadId
    requires d.queueMsg[|d.queueMsg| - 2].leadId == d.rooms[i].step.room.leadId
    ensures PumpStep(PumpStep(d)).rooms[i].inbox
              == d.rooms[i].inbox + [d.queueMsg[|d.queueMsg| - 1].event, d.queueMsg[|d.queueMsg| - 2].event]
  {
    var d1 := PumpStep(d);
    assert d1.queueMsg[|d1.queueMsg| - 1] == d.queueMsg[|d.queueMsg| - 2];
  }
}

=== FILE: dialplan.dfy ===
/**
 * The call plan of src/custom_dataclasses/dialplan.py: a raw call-flow
 * definition (a JSON tree) parsed into `Trigger`s and recursive `PlanNode`s,
 * with a permissive default for every missing key.
 */
module Dialplan {
  import opened Wrappers

  /** A raw trigger object; `None` is an absent key. */
  datatype RawTrigger = RawTrigger(
    triggerTag: Option<string>,
    triggerStatus: Option<string>,
    action: Option<string>,
    active: Option<bool>,
    func: Option<string>)

  /** The `content` key of a raw plan object: absent (or null), or a list of children. */
  datatype RawContent = NoContent | Content(items: seq<RawPlan>)

  /** A raw plan object: `type` is named `kind` here, `content` holds the children. */
  datatype RawPlan = RawPlan(
    name: Option<string>,
    tag: Option<string>,
    kind: Option<string>,
    status: Option<string>,
    params: Option<map<string, string>>,
    triggers: Option<seq<RawTrigger>>,
    content: RawContent)

  /**
   * A condition on the status ledger: when `status` has been recorded for
   * `tag`, perform `action` ("start", "terminate" or "func" with `func`).
   */
  datatype Trigger = Trigger(
    tag: string,
    status: string,
    action: string,
    active: bool,
    func: Option<string>)

  /** A parsed plan node; `app` is copied into every node of the tree. */
  datatype PlanNode = PlanNode(
    app: string,
    name: string,
    tag: string,
    kind: string,
    status: string,
    params: map<string, string>,
    triggers: seq<Trigger>,
    content: seq<PlanNode>)

  const Unknown := "unknown"
  const InitStatus := "init"

  /** `Trigger.__init__`. */
  function ParseTrigger(raw: RawTrigger): (t: Trigger)
    ensures t.tag == raw.triggerTag.GetOr(Unknown)
    ensures t.status == raw.triggerStatus.GetOr(Unknown)
    ensures t.action == raw.action.GetOr(Unknown)
    ensures t.active == raw.active.GetOr(true)
    ensures t.func == raw.func
  {
    Trigger(raw.triggerTag.GetOr(Unknown), raw.triggerStatus.GetOr(Unknown),
            raw.action.GetOr(Unknown), raw.active.GetOr(true), raw.func)
  }

  /** Python truthiness of `raw.get(key, None)` for a list: absent and empty both give []. */
  function ListOrEmpty<T>(l: Option<seq<T>>): (r: seq<T>)
    ensures l.None? ==> r == []
    ensures l.Some? ==> r == l.value
  {
    match l
    case None => []
    case Some(s) => s
  }

  function ParseTriggers(raws: seq<RawTrigger>): (ts: seq<Trigger>)
    ensures |ts| == |raws|
    ensures forall i :: 0 <= i < |raws| ==> ts[i] == ParseTrigger(raws[i])
  {
    seq(|raws|, i requires 0 <= i < |raws| => ParseTrigger(raws[i]))
  }

  /** The children listed under `content`: absent and empty both give []. */
  function Children(raw: RawPlan): (cs: seq<RawPlan>)
    ensures raw.content.NoContent? ==> cs == []
    ensures raw.content.Content? ==> cs == raw.content.items
  {
    match raw.content
    case NoContent => []
    case Content(items) => items
  }

  /** `Dialplan.__init__`: total, with the defaults of the source for every absent key. */
  function ParsePlan(raw: RawPlan, app: string): (p: PlanNode)
    ensures p.app == app
    ensures p.name == raw.name.GetOr(Unknown)
    ensures p.tag == raw.tag.GetOr(Unknown)
    ensures p.kind == raw.kind.GetOr(Unknown)
    ensures p.status == raw.status.GetOr(InitStatus)
    ensures p.params == raw.params.GetOr(map[])
    ensures p.triggers == ParseTriggers(ListOrEmpty(raw.triggers))
    ensures |p.content| == |Children(raw)|
    ensures forall i :: 0 <= i < |p.content| ==> p.content[i].app == app
    decreases raw
  {
    var content :=
      match raw.content
      case NoContent => []
      case Content(cs) => seq(|cs|, i requires 0 <= i < |cs| => ParsePlan(cs[i], app));
    PlanNode(app, raw.name.GetOr(Unknown), raw.tag.GetOr(Unknown), raw.kind.GetOr(Unknown),
             raw.status.GetOr(InitStatus), raw.params.GetOr(map[]),
             ParseTriggers(ListOrEmpty(raw.triggers)), content)
  }

  /** Each child is parsed in place, so the order of `content` is kept. */
  lemma ParsePlanChildren(raw: RawPlan, app: string, i: int)
    requires 0 <= i < |Children(raw)|
    ensures ParsePlan(raw, app).content[i] == ParsePlan(Children(raw)[i], app)
  {
  }

  /** Every node of the tree carries `app`. */
  ghost predicate AllApp(p: PlanNode, app: string)
    decreases p
  {
    p.app == app && forall i :: 0 <= i < |p.content| ==> AllApp(p.content[i], app)
  }

  /** The parser copies the same `app` into every node it builds. */
  lemma {:induction false} ParsePlanPropagatesApp(raw: RawPlan, app: string)
    ensures AllApp(ParsePlan(raw, app), app)
    decreases raw
  {
    var p := ParsePlan(raw, app);
    match raw.content
    case NoContent =>
    case Content(cs) =>
      forall i | 0 <= i < |p.content|
        ensures AllApp(p.content[i], app)
      {
        ParsePlanPropagatesApp(cs[i], app);
      }
  }

  /** The raw form of a trigger with every key present. */
  function UnparseTrigger(t: Trigger): RawTrigger {
    RawTrigger(Some(t.tag), Some(t.status), Some(t.action), Some(t.active), t.func)
  }

  /** The raw form of a plan with every key present. */
  function UnparsePlan(p: PlanNode): (raw: RawPlan)
    decreases p
  {
    RawPlan(Some(p.name), Some(p.tag), Some(p.kind), Some(p.status), Some(p.params),
            Some(seq(|p.triggers|, i requires 0 <= i < |p.triggers| => UnparseTrigger(p.triggers[i]))),
            Content(seq(|p.content|, i requires 0 <= i < |p.content| => UnparsePlan(p.content[i]))))
  }

  /**
   * Round trip: a plan tree whose nodes all carry `app`, written out with every
   * key present and parsed again, is the same tree.
   */
  lemma {:induction false} ParseUnparse(p: PlanNode, app: string)
    requires AllApp(p, app)
    ensures ParsePlan(UnparsePlan(p), app) == p
    decreases p
  {
    var q := ParsePlan(UnparsePlan(p), app);
    assert q.triggers == p.triggers;
    forall i | 0 <= i < |p.content|
      ensures q.content[i] == p.content[i]
    {
      ParseUnparse(p.content[i], app);
    }
  }
}

=== FILE: findings.dfy ===
/**
 * Four places where the source does not do what it evidently means, each
 * with the behaviour as written and an input that shows the difference. The
 * rest of the model uses the corrected definitions, except that the
 * correlator keeps the timestamp normaliser as written (a corrected
 * correlator sits beside it). A last section shows where the PBX's events
 * about clips and bridges land, with the code as written.
 */
module Findings {
  import opened Wrappers
  import opened Text
  import opened Dialplan
  import Ledger
  import GoodFunc
  import Clips
  import opened Live
  import TriggerEvents

  // 1. fix_iso_timestamp keeps the space of a timestamp with an offset

  /** The example the source's own comments give. */
  const OffsetExample := "2023-05-16 00:33:52.951+0300"

  /**
   * As written, the space-separated example with an offset comes out cut to
   * 26 characters but still with the space between date and time.
   */
  lemma FixIsoTimestampKeepsSpace()
    ensures var r := GoodFunc.FixIsoTimestamp(Some(OffsetExample));
      |r| == GoodFunc.IsoLength && r[10] == ' ' && r[..23] == OffsetExample[..23]
  {
    assert OffsetExample[23] == '+';
  }

  /**
   * The corrected normaliser turns any space-separated timestamp with an
   * offset, the example among them, into a 'T'-separated one with no space.
   */
  lemma FixIsoTimestampCorrectedAddsT(s: string)
    requires |s| > 23 && s[10] == ' ' && '+' in s
    ensures var r := GoodFunc.FixIsoTimestampCorrected(Some(s));
      |r| == GoodFunc.IsoLength && r[10] == 'T' && ' ' !in r
  {
    var h := Take(s, 23);
    assert h[10] == ' ';
    var c := ReplaceChar(h, ' ', 'T');
    assert c[10] == 'T';
  }

  /** The corrected normaliser gives the example a 'T' and drops its space. */
  lemma FixIsoTimestampExample()
    ensures var r := GoodFunc.FixIsoTimestampCorrected(Some(OffsetExample));
      |r| == GoodFunc.IsoLength && r[10] == 'T' && ' ' !in r
  {
    assert OffsetExample[23] == '+';
    FixIsoTimestampCorrectedAddsT(OffsetExample);
  }

  /** The example as the comment of the first branch says it should come out. */
  const OffsetExampleFixed := "2023-05-16T00:33:52.951000"

  /**
   * As written, an event stamped like the example makes `calc_delay` raise:
   * its 'T' format does not match the space that was kept.
   */
  lemma OffsetEventRefusedAsWritten(e: TriggerEvents.RawEvent, now: string)
    requires e.timestamp == Some(OffsetExample)
    ensures TriggerEvents.Correlate(e, now).Err?
  {
    FixIsoTimestampKeepsSpace();
  }

  /** The corrected normaliser turns the example into exactly what the comment shows. */
  lemma CorrectedExampleIsFixed()
    ensures GoodFunc.FixIsoTimestampCorrected(Some(OffsetExample)) == OffsetExampleFixed
  {
    assert OffsetExample[23] == '+';
    var h := ReplaceChar(Take(OffsetExample, 23), ' ', 'T');
    assert h == OffsetExampleFixed[..23] by {
      assert forall i :: 0 <= i < 23 ==> h[i] == OffsetExampleFixed[i];
    }
    assert OffsetExampleFixed == OffsetExampleFixed[..23] + "000";
  }

  /** The fixed example is accepted by the format of `calc_delay`. */
  lemma FixedExampleParses()
    ensures TriggerEvents.ParsesAsIsoTime(OffsetExampleFixed)
  {
    FixedExampleDate();
    FixedExampleTime();
  }

  lemma FixedExampleDate()
    ensures var s := OffsetExampleFixed;
      && TriggerEvents.DigitsAt(s, 0, 4) && s[4] == '-' && TriggerEvents.DigitsAt(s, 5, 2) && s[7] == '-'
      && IsDigit(s[8]) && IsDigit(s[9]) && s[10] == 'T'
      && TriggerEvents.NumAt(s, 0, 4) == 2023 && TriggerEvents.NumAt(s, 5, 2) == 5 && TriggerEvents.NumAt(s, 8, 2) == 16
  {
  }

  lemma FixedExampleTime()
    ensures var s := OffsetExampleFixed;
      && TriggerEvents.DigitsAt(s, 11, 2) && s[13] == ':' && TriggerEvents.DigitsAt(s, 14, 2) && s[16] == ':'
      && TriggerEvents.DigitsAt(s, 17, 2) && s[19] == '.' && TriggerEvents.DigitsAt(s, 20, 6)
      && TriggerEvents.NumAt(s, 11, 2) == 0 && TriggerEvents.NumAt(s, 14, 2) == 33 && TriggerEvents.NumAt(s, 17, 2) == 52
  {
  }

  /** With the corrected normaliser the same event is correlated whenever the clock reading parses. */
  lemma OffsetEventAcceptedCorrected(e: TriggerEvents.RawEvent, now: string)
    requires e.timestamp == Some(OffsetExample) && TriggerEvents.ParsesAsIsoTime(now)
    ensures TriggerEvents.CorrelateCorrected(e, now).Ok?
    ensures TriggerEvents.CorrelateCorrected(e, now).value.externalTime == OffsetExampleFixed
  {
    CorrectedExampleIsFixed();
    FixedExampleParses();
  }

  // 2. The func guard of check_trigger_clip_funcs ignores the active flag

  /**
   * As written, a trigger that already fired still runs its func whenever its
   * status is recorded; the corrected guard refuses it.
   */
  lemma FuncGuardIgnoresActive()
    ensures var trig := Trigger("clip", "PlaybackFinished", "func", true, Some(Clips.FullyPlaybackFunc));
      Clips.FuncRunsAsWritten(trig, true) && !Clips.FuncRuns(trig, false, true)
  {
  }

  /**
   * The consequence: as written, the 'fully_playback' write re-enters the
   * cascade with the guard and the check both still passing, so the same
   * trigger runs again, and again — there is no bound on the nesting.
   */
  lemma FullyPlaybackRefiresAsWritten(trig: Trigger, l: Ledger.Ledger, tag: string)
    requires Clips.FuncRunsAsWritten(trig, Matched(l, trig)) && Clips.FullyPlayedBack(l, tag)
    ensures var w := Clips.FullyPlaybackWrite(tag);
      var l' := Ledger.Add(l, w.tag, w.status, w.externalTime, w.triggerTime, w.value);
      Clips.FuncRunsAsWritten(trig, Matched(l', trig)) && Clips.FullyPlayedBack(l', tag)
  {
    var w := Clips.FullyPlaybackWrite(tag);
    var l' := Ledger.Add(l, w.tag, w.status, w.externalTime, w.triggerTime, w.value);
    assert Ledger.Lookup(l', tag, "PlaybackFinished") == Ledger.Lookup(l, tag, "PlaybackFinished");
    assert Ledger.Lookup(l', tag, "api_stop_playback") == Ledger.Lookup(l, tag, "api_stop_playback");
    assert Ledger.Has(l', trig.tag, trig.status);
  }

  // 3. The terminate loops iterate over a snapshot of the active triggers

  /**
   * The part of the state that the terminate loops of `check_trigger_room`
   * and `check_trigger_clips` work on, in a plan whose only triggers are the
   * terminate triggers of one node: the ledger, and which of those triggers
   * fired.
   */
  datatype LoopState = LoopState(ledger: Ledger.Ledger, fired: set<nat>)

  /** `[trg for trg in plan.triggers if trg.action == 'terminate' and trg.active]`, from index `i` on. */
  function Snapshot(p: PlanNode, st: LoopState, i: nat): (snap: seq<nat>)
    requires i <= |p.triggers|
    ensures forall k :: 0 <= k < |snap| ==> i <= snap[k] < |p.triggers|
    ensures forall k :: 0 <= k < |snap| ==>
              p.triggers[snap[k]].action == "terminate" && p.triggers[snap[k]].active && snap[k] !in st.fired
    decreases |p.triggers| - i
  {
    if i == |p.triggers| then []
    else
      var rest := Snapshot(p, st, i + 1);
      var t := p.triggers[i];
      if t.action == "terminate" && t.active && i !in st.fired then [i] + rest else rest
  }

  /** Trigger `j` of `p` is an active terminate trigger that has not fired. */
  predicate Pending(p: PlanNode, st: LoopState, j: nat) {
    j < |p.triggers| && p.triggers[j].action == "terminate" && p.triggers[j].active && j !in st.fired
  }

  /**
   * The other direction of `Snapshot`, as the comprehension gives it: every
   * pending trigger from `i` on is listed, and in increasing order, so each
   * at most once.
   */
  lemma {:induction false} SnapshotListsAll(p: PlanNode, st: LoopState, i: nat)
    requires i <= |p.triggers|
    ensures forall j :: i <= j && Pending(p, st, j) ==> j in Snapshot(p, st, i)
    ensures forall k, m :: 0 <= k < m < |Snapshot(p, st, i)| ==> Snapshot(p, st, i)[k] < Snapshot(p, st, i)[m]
    decreases |p.triggers| - i
  {
    if i < |p.triggers| {
      SnapshotListsAll(p, st, i + 1);
    }
  }

  /**
   * `add_tag_status` of such a plan, as written: record `w`, then loop over
   * the snapshot testing only the watched status. A trigger that fires makes
   * node `p` write `stop` through a nested `add_tag_status`: 'stop' on the
   * room's tag for the room, 'api_stop_playback' on the clip's tag for a
   * clip. `fuel` bounds the nesting.
   */
  function AddAsWritten(p: PlanNode, st: LoopState, w: Write, stop: Write, fuel: nat): LoopState
    decreases fuel, 0, 0
  {
    if fuel == 0 then st
    else
      var st1 := st.(ledger := AddWrite(st.ledger, w));
      LoopAsWritten(p, st1, Snapshot(p, st1, 0), stop, fuel - 1)
  }

  function LoopAsWritten(p: PlanNode, st: LoopState, snap: seq<nat>, stop: Write, fuel: nat): LoopState
    requires forall k :: 0 <= k < |snap| ==> snap[k] < |p.triggers|
    decreases fuel, 1, |snap|
  {
    if snap == [] then st
    else
      var j := snap[0];
      if Matched(st.ledger, p.triggers[j]) then
        var st1 := st.(fired := st.fired + {j});
        var st2 := AddAsWritten(p, st1, stop, stop, fuel);
        LoopAsWritten(p, st2, snap[1..], stop, fuel)
      else LoopAsWritten(p, st, snap[1..], stop, fuel)
  }

  function AddWrite(l: Ledger.Ledger, w: Write): Ledger.Ledger {
    Ledger.Add(l, w.tag, w.status, w.externalTime, w.triggerTime, w.value)
  }

  /** The write both triggers of the example watch. */
  const Ready := Status("room", "ready", "")

  /** A node `tag` with two terminate triggers, both watching the room's own 'ready'. */
  function TwoTerminates(tag: string, kind: string): PlanNode {
    var t := Trigger("room", "ready", "terminate", true, None);
    PlanNode("app", "n", tag, kind, "init", map[], [t, t], [])
  }

  lemma SnapshotOfTwo(tag: string, kind: string, st: LoopState)
    ensures Snapshot(TwoTerminates(tag, kind), st, 0) == (if 0 in st.fired then [] else [0]) + (if 1 in st.fired then [] else [1])
  {
    var p := TwoTerminates(tag, kind);
    assert Snapshot(p, st, 2) == [];
  }

  /** With both triggers fired, a write only records. */
  lemma WriteWhenBothFired(tag: string, kind: string, l: Ledger.Ledger, stop: Write, fuel: nat)
    requires fuel >= 1
    ensures AddAsWritten(TwoTerminates(tag, kind), LoopState(l, {0, 1}), stop, stop, fuel) == LoopState(AddWrite(l, stop), {0, 1})
  {
    SnapshotOfTwo(tag, kind, LoopState(AddWrite(l, stop), {0, 1}));
  }

  /** With only the first fired and 'ready' recorded, `stop` fires the second trigger, which writes `stop` again. */
  lemma WriteWhenFirstFired(tag: string, kind: string, l: Ledger.Ledger, stop: Write, fuel: nat)
    requires fuel >= 3 && Ledger.Has(l, "room", "ready")
    ensures AddAsWritten(TwoTerminates(tag, kind), LoopState(l, {0}), stop, stop, fuel)
              == LoopState(AddWrite(AddWrite(l, stop), stop), {0, 1})
  {
    var p := TwoTerminates(tag, kind);
    var st1 := LoopState(AddWrite(l, stop), {0});
    SnapshotOfTwo(tag, kind, st1);
    assert Matched(st1.ledger, p.triggers[1]);
    assert {0} + {1} == {0, 1};
    WriteWhenBothFired(tag, kind, AddWrite(l, stop), stop, fuel - 1);
    var st2 := LoopState(AddWrite(AddWrite(l, stop), stop), {0, 1});
    assert AddAsWritten(p, LoopState(AddWrite(l, stop), {0, 1}), stop, stop, fuel - 1) == st2;
    assert LoopAsWritten(p, st1, [1], stop, fuel - 1) == LoopAsWritten(p, st2, [], stop, fuel - 1);
  }

  /**
   * As written, recording 'ready' fires the second trigger twice: once from
   * the nested `add_tag_status` of the first, whose fresh snapshot still has
   * it, and once more from the outer snapshot, which never re-reads
   * `active`. So `stop` is written three times for two triggers.
   */
  lemma TerminateFiresTwiceAsWritten(tag: string, kind: string, stop: Write)
    requires (stop.tag, stop.status) != ("room", "ready")
    ensures var st := AddAsWritten(TwoTerminates(tag, kind), LoopState(map[], {}), Ready, stop, 5);
      Ledger.Occurrences(st.ledger, stop.tag, stop.status) == 3
  {
    var p := TwoTerminates(tag, kind);
    var l1 := AddWrite(map[], Ready);
    var st1 := LoopState(l1, {});
    SnapshotOfTwo(tag, kind, st1);
    assert Matched(l1, p.triggers[0]);
    WriteWhenFirstFired(tag, kind, l1, stop, 4);
    var sd := LoopState(AddWrite(AddWrite(l1, stop), stop), {0, 1});
    assert Matched(sd.ledger, p.triggers[1]);
    assert {0, 1} + {1} == {0, 1};
    WriteWhenBothFired(tag, kind, sd.ledger, stop, 4);
    var se := LoopState(AddWrite(sd.ledger, stop), {0, 1});
    assert LoopAsWritten(p, sd, [1], stop, 4) == se;
    assert {} + {0} == {0};
    assert LoopAsWritten(p, st1, [0, 1], stop, 4) == se;
    Ledger.AddCountsOnce(l1, stop.tag, stop.status, stop.externalTime, stop.triggerTime, stop.value);
    Ledger.AddCountsOnce(AddWrite(l1, stop), stop.tag, stop.status, stop.externalTime, stop.triggerTime, stop.value);
    Ledger.AddCountsOnce(sd.ledger, stop.tag, stop.status, stop.externalTime, stop.triggerTime, stop.value);
  }

  /**
   * `check_trigger_room` as written: two terminate triggers on the room, both
   * watching 'ready', record 'stop' three times.
   */
  lemma RoomTerminateFiresTwiceAsWritten()
    ensures var st := AddAsWritten(TwoTerminates("room", "room"), LoopState(map[], {}), Ready, Status("room", "stop", ""), 5);
      Ledger.Occurrences(st.ledger, "room", "stop") == 3
  {
    TerminateFiresTwiceAsWritten("room", "room", Status("room", "stop", ""));
  }

  /**
   * `check_trigger_clips` as written: a started clip whose plan has two
   * terminate triggers watching 'ready' is stopped three times, each stop
   * recording 'api_stop_playback' with the http code `code` of the answer.
   */
  lemma ClipTerminateFiresTwiceAsWritten(code: string)
    ensures var stop := Status("clip", "api_stop_playback", code);
      var st := AddAsWritten(TwoTerminates("clip", "clip"), LoopState(map[], {}), Ready, stop, 5);
      Ledger.Occurrences(st.ledger, "clip", "api_stop_playback") == 3
  {
    TerminateFiresTwiceAsWritten("clip", "clip", Status("clip", "api_stop_playback", code));
  }

  // 4. Playback and bridge events of the PBX never reach their clip or bridge

  /**
   * An id made of a tag without '-', a fixed middle and a rest without '_'
   * (the middle holding no '_' either) never contains '-call_id-': every
   * occurrence would need a '-' in the tag or a '_' after it.
   */
  lemma NoDelimiterIn(tag: string, middle: string, rest: string)
    requires '-' !in tag && '_' !in middle && '_' !in rest
    ensures !Contains(tag + middle + rest, TriggerEvents.Delimiter)
  {
    var id := tag + middle + rest;
    var d := TriggerEvents.Delimiter;
    forall i | 0 <= i <= |id|
      ensures !OccursAt(id, d, i)
    {
      if i + |d| <= |id| {
        assert id[i..i + |d|][0] == id[i];
        assert id[i..i + |d|][5] == id[i + 5];
        if i < |tag| {
          assert id[i] == tag[i];
        } else if i + 5 < |tag| + |middle| {
          assert id[i + 5] == middle[i + 5 - |tag|];
        } else {
          assert id[i + 5] == rest[i + 5 - |tag| - |middle|];
        }
      }
    }
  }

  /**
   * A clip's id is `<tag>-druid-<druid>`, with no '-call_id-' in it, so a
   * 'PlaybackFinished' event about the clip lands on the tag 'UNKNOWN' and
   * never on the clip's own tag: as written, only an ExternalEvent can record
   * 'PlaybackFinished' there.
   */
  lemma PlaybackOfClipLandsOnUnknown(e: TriggerEvents.RawEvent, now: string, tag: string, druid: string)
    requires e.eventType == Some("PlaybackFinished") && e.playbackId == ClipId(tag, druid)
    requires '-' !in tag && '_' !in druid
    ensures TriggerEvents.Correlate(e, now).Ok? ==>
              && TriggerEvents.Correlate(e, now).value.tag == TriggerEvents.Unknown
              && TriggerEvents.Correlate(e, now).value.status == "PlaybackFinished"
  {
    NoDelimiterIn(tag, "-druid-", druid);
    assert ClipId(tag, druid) == tag + "-druid-" + druid;
    TriggerEvents.CorrelateUnknownOwner(e, now);
    if TriggerEvents.Correlate(e, now).Ok? {
      assert TriggerEvents.Correlate(e, now).value
          == TriggerEvents.EventOf(e, GoodFunc.FixIsoTimestamp(e.timestamp), now);
    }
  }

  /**
   * A bridge's id is `<tag>-id-<lead id>`, so the PBX's events about a bridge
   * land on the tag 'UNKNOWN' too.
   */
  lemma BridgeEventLandsOnUnknown(e: TriggerEvents.RawEvent, now: string, tag: string, leadId: string)
    requires e.eventType.Some? && TriggerEvents.BridgeScoped(e.eventType.value)
    requires e.bridgeId == BridgeId(tag, leadId)
    requires '-' !in tag && '_' !in leadId
    ensures TriggerEvents.Correlate(e, now).Ok? ==> TriggerEvents.Correlate(e, now).value.tag == TriggerEvents.Unknown
  {
    NoDelimiterIn(tag, "-id-", leadId);
    assert BridgeId(tag, leadId) == tag + "-id-" + leadId;
    TriggerEvents.CorrelateUnknownOwner(e, now);
  }
}

=== FILE: good_func.dfy ===
/** The timestamp normaliser of src/good_func/good_func.py. */
module GoodFunc {
  import opened Wrappers
  import opened Text

  /** Length of a well-formed `YYYY-MM-DDTHH:MM:SS.ffffff` timestamp. */
  const IsoLength := 26

  /**
   * `fix_iso_timestamp`: `None` stands for both a missing value and a value
   * that is not a string.
   */
  function FixIsoTimestamp(t: Option<string>): (r: string)
    ensures t.Some? && '+' in t.value ==> r == Take(t.value, 23) + "000"
    ensures t.Some? && '+' !in t.value && |t.value| == IsoLength && 'T' !in t.value ==>
              r == ReplaceChar(t.value, ' ', 'T')
    ensures t.Some? && '+' !in t.value && |t.value| == IsoLength && 'T' in t.value ==> r == t.value
    ensures t.None? || ('+' !in t.value && |t.value| != IsoLength) ==> r == ""
    ensures t.None? || '+' !in t.value ==> r == "" || |r| == IsoLength
  {
    match t
    case None => ""
    case Some(s) =>
      if '+' in s then Take(s, 23) + "000"
      else if |s| == IsoLength && 'T' !in s then ReplaceChar(s, ' ', 'T')
      else if |s| == IsoLength then s
      else ""
  }

  /**
   * What the comment of the first branch asks for: a timestamp with a UTC
   * offset is cut to milliseconds, padded to microseconds and, like the
   * second branch, given a 'T' between date and time.
   */
  function FixIsoTimestampCorrected(t: Option<string>): (r: string)
    ensures t.Some? && '+' in t.value ==> r == ReplaceChar(Take(t.value, 23), ' ', 'T') + "000"
    ensures t.Some? && '+' in t.value ==> ' ' !in r
    ensures t.None? || '+' !in t.value ==> r == FixIsoTimestamp(t)
  {
    match t
    case Some(s) =>
      if '+' in s then ReplaceChar(Take(s, 23), ' ', 'T') + "000"
      else FixIsoTimestamp(t)
    case None => ""
  }

  /**
   * The corrected normaliser is idempotent on every input it cuts to full
   * length: normalising a normalised timestamp changes nothing.
   */
  lemma FixIsoTimestampCorrectedIdempotent(t: Option<string>)
    requires t.Some? && '+' in t.value ==> |t.value| >= 23
    ensures FixIsoTimestampCorrected(Some(FixIsoTimestampCorrected(t))) == FixIsoTimestampCorrected(t)
  {
    var r := FixIsoTimestampCorrected(t);
    if t.Some? && '+' in t.value {
      var head := ReplaceChar(Take(t.value, 23), ' ', 'T');
      assert r[..23] == head;
      assert ' ' !in r;
      if '+' in r {
        assert ReplaceChar(Take(r, 23), ' ', 'T') == head;
      } else if 'T' !in r {
        assert ReplaceChar(r, ' ', 'T') == r;
      }
    } else if t.Some? && |t.value| == IsoLength && 'T' !in t.value {
      assert |r| == IsoLength && ' ' !in r;
      if 'T' !in r {
        assert ReplaceChar(r, ' ', 'T') == r;
      }
    }
  }
}

=== FILE: lead.dfy ===
/** The lead record of src/lead.py: fields read from a parameter map, and their validator. */
module Leads {
  import opened Wrappers
  import opened Text

  /** The request parameters, each value already converted with `str`. */
  type Params = map<string, string>

  datatype Lead = Lead(
    leadId: string,
    phoneSpecialist: string,
    phoneClient: string,
    phonePrefix: string,
    callerid: string,
    calleridExt: string,
    team: string,
    mobile: string,
    provider: string,
    defCode: string,
    operatorId: string,
    idRequest: string)

  /** `str(params.get(key, ''))`. */
  function Field(params: Params, key: string): (v: string)
    ensures key !in params ==> v == ""
    ensures key in params ==> v == params[key]
  {
    if key in params then params[key] else ""
  }

  /** `get_lead_id`: `generated` stands for the clock-derived timestamp. */
  function LeadIdOf(params: Params, generated: string): (id: string)
    ensures Field(params, "lead_id") != "" ==> id == params["lead_id"]
    ensures Field(params, "lead_id") == "" ==> id == generated
  {
    var id := Field(params, "lead_id");
    if id == "" then generated else id
  }

  /** `Lead.__init__`. */
  function NewLead(params: Params, generated: string): (l: Lead)
    ensures l.leadId == LeadIdOf(params, generated)
    ensures l.phoneClient == Field(params, "phone_client") && l.phonePrefix == Field(params, "phone_prefix")
    ensures l.callerid == Field(params, "callerid") && l.calleridExt == Field(params, "callerid_ext")
    ensures l.phoneSpecialist == Field(params, "phone_specialist") && l.team == Field(params, "team")
    ensures l.mobile == Field(params, "mobile") && l.provider == Field(params, "provider")
    ensures l.defCode == Field(params, "def_code") && l.operatorId == Field(params, "operator_id")
    ensures l.idRequest == Field(params, "id_request")
  {
    Lead(LeadIdOf(params, generated), Field(params, "phone_specialist"), Field(params, "phone_client"),
         Field(params, "phone_prefix"), Field(params, "callerid"), Field(params, "callerid_ext"),
         Field(params, "team"), Field(params, "mobile"), Field(params, "provider"),
         Field(params, "def_code"), Field(params, "operator_id"), Field(params, "id_request"))
  }

  /**
   * For every parameter map: each field whose key is absent is '', and a
   * missing lead id is replaced by the generated one.
   */
  lemma AbsentFieldsDefaultEmpty(params: Params, generated: string)
    ensures var l := NewLead(params, generated);
      && ("lead_id" !in params ==> l.leadId == generated)
      && ("phone_specialist" !in params ==> l.phoneSpecialist == "")
      && ("phone_client" !in params ==> l.phoneClient == "")
      && ("phone_prefix" !in params ==> l.phonePrefix == "")
      && ("callerid" !in params ==> l.callerid == "")
      && ("callerid_ext" !in params ==> l.calleridExt == "")
      && ("team" !in params ==> l.team == "")
      && ("mobile" !in params ==> l.mobile == "")
      && ("provider" !in params ==> l.provider == "")
      && ("def_code" !in params ==> l.defCode == "")
      && ("operator_id" !in params ==> l.operatorId == "")
      && ("id_request" !in params ==> l.idRequest == "")
  {
  }

  /** The parameter keys `Lead.__init__` reads. */
  const LeadKeys: set<string> := {"lead_id", "phone_specialist", "phone_client", "phone_prefix", "callerid",
                                  "callerid_ext", "team", "mobile", "provider", "def_code", "operator_id", "id_request"}

  /** The field of `l` read from parameter `key`. */
  function FieldOf(l: Lead, key: string): string {
    if key == "lead_id" then l.leadId
    else if key == "phone_specialist" then l.phoneSpecialist
    else if key == "phone_client" then l.phoneClient
    else if key == "phone_prefix" then l.phonePrefix
    else if key == "callerid" then l.callerid
    else if key == "callerid_ext" then l.calleridExt
    else if key == "team" then l.team
    else if key == "mobile" then l.mobile
    else if key == "provider" then l.provider
    else if key == "def_code" then l.defCode
    else if key == "operator_id" then l.operatorId
    else if key == "id_request" then l.idRequest
    else ""
  }

  /** The parameters a lead would be sent with: every field under its own key. */
  function ParamsOf(l: Lead): (params: Params)
    ensures params.Keys == LeadKeys
  {
    map key | key in LeadKeys :: FieldOf(l, key)
  }

  /** Rebuilding a lead from its own parameters gives it back, whenever its id is not empty. */
  lemma NewLeadRoundTrip(l: Lead, generated: string)
    requires l.leadId != ""
    ensures NewLead(ParamsOf(l), generated) == l
  {
  }

  /**
   * The other direction: a lead's parameters give back every key it read
   * (a non-empty lead id included), and '' for each other field key.
   */
  lemma ParamsOfNewLead(params: Params, generated: string)
    ensures var p := ParamsOf(NewLead(params, generated));
      && (forall key :: key in params && key in LeadKeys && (key == "lead_id" ==> params[key] != "") ==> p[key] == params[key])
      && (forall key :: key !in params && key in LeadKeys && key != "lead_id" ==> p[key] == "")
  {
    forall key | key in LeadKeys
      ensures FieldOf(NewLead(params, generated), key) == if key == "lead_id" then LeadIdOf(params, generated) else Field(params, key)
    {
      FieldOfNewLead(params, generated, key);
    }
  }

  lemma FieldOfNewLead(params: Params, generated: string, key: string)
    requires key in LeadKeys
    ensures FieldOf(NewLead(params, generated), key) == if key == "lead_id" then LeadIdOf(params, generated) else Field(params, key)
  {
  }

  /** An optional field is acceptable when empty or when it has a digit. */
  predicate OptionalOk(s: string) {
    |s| == 0 || HasDigit(s)
  }

  /**
   * `check_params`: `None` when the lead passes, otherwise the message of the
   * first failing check, in the order phone, prefix, caller id, external caller id.
   */
  function CheckParams(l: Lead): (err: Option<string>)
    ensures err.None? <==>
              HasDigit(l.phoneClient) && OptionalOk(l.phonePrefix) && OptionalOk(l.callerid) && OptionalOk(l.calleridExt)
    ensures !HasDigit(l.phoneClient) ==> err == Some("incorrect format phone=" + l.phoneClient)
    ensures HasDigit(l.phoneClient) && !OptionalOk(l.phonePrefix) ==>
              err == Some("incorrect format phone_prefix=" + l.phonePrefix)
    ensures HasDigit(l.phoneClient) && OptionalOk(l.phonePrefix) && !OptionalOk(l.callerid) ==>
              err == Some("incorrect format callerid=" + l.callerid)
    ensures HasDigit(l.phoneClient) && OptionalOk(l.phonePrefix) && OptionalOk(l.callerid) && !OptionalOk(l.calleridExt) ==>
              err == Some("incorrect format callerid_ext=" + l.calleridExt)
  {
    if MatchesNonDigits(l.phoneClient) || |l.phoneClient| == 0 then
      Some("incorrect format phone=" + l.phoneClient)
    else if |l.phonePrefix| > 0 && MatchesNonDigits(l.phonePrefix) then
      Some("incorrect format phone_prefix=" + l.phonePrefix)
    else if |l.callerid| > 0 && MatchesNonDigits(l.callerid) then
      Some("incorrect format callerid=" + l.callerid)
    else if |l.calleridExt| > 0 && MatchesNonDigits(l.calleridExt) then
      Some("incorrect format callerid_ext=" + l.calleridExt)
    else None
  }
}

=== FILE: ledger.dfy ===
/**
 * The status ledger of a room (`Room.tags_statuses` in src/room.py):
 * tag -> status -> record. The first occurrence of a (tag, status) pair
 * creates a record; every later one appends a rewrite row to it.
 */
module Ledger {
  import opened Wrappers

  /** One later occurrence of an already recorded (tag, status) pair. */
  datatype Rewrite = Rewrite(externalTime: string, triggerTime: string, value: string)

  /** The first occurrence of a (tag, status) pair and the rewrites after it. */
  datatype Record = Record(externalTime: string, triggerTime: string, value: string, rewrite: seq<Rewrite>)

  type Ledger = map<string, map<string, Record>>

  /** `check_tag_status`: presence of the status under the tag, not its latest value. */
  predicate Has(l: Ledger, tag: string, status: string) {
    tag in l && status in l[tag]
  }

  function Lookup(l: Ledger, tag: string, status: string): (r: Option<Record>)
    ensures r.Some? <==> Has(l, tag, status)
  {
    if Has(l, tag, status) then Some(l[tag][status]) else None
  }

  /** How many times the pair has been recorded: the record plus its rewrites. */
  function Occurrences(l: Ledger, tag: string, status: string): nat {
    if Has(l, tag, status) then 1 + |l[tag][status].rewrite| else 0
  }

  /** The ledger part of `add_tag_status` (the time of the write is left out). */
  function Add(l: Ledger, tag: string, status: string, externalTime: string, triggerTime: string, value: string)
    : (l': Ledger)
    ensures Has(l', tag, status)
    ensures !Has(l, tag, status) ==> l'[tag][status] == Record(externalTime, triggerTime, value, [])
    ensures Has(l, tag, status) ==>
              l'[tag][status] == l[tag][status].(rewrite := l[tag][status].rewrite + [Rewrite(externalTime, triggerTime, value)])
    ensures forall t, s :: (t, s) != (tag, status) ==> Lookup(l', t, s) == Lookup(l, t, s)
    ensures l'.Keys == l.Keys + {tag}
  {
    var row := if tag in l then l[tag] else map[];
    var rec :=
      if status in row then row[status].(rewrite := row[status].rewrite + [Rewrite(externalTime, triggerTime, value)])
      else Record(externalTime, triggerTime, value, []);
    l[tag := row[status := rec]]
  }

  /**
   * Every write is counted exactly once: the written pair gains one
   * occurrence (a new record or one rewrite, never both, never neither) and
   * no other pair changes.
   */
  lemma AddCountsOnce(l: Ledger, tag: string, status: string, externalTime: string, triggerTime: string, value: string)
    ensures var l' := Add(l, tag, status, externalTime, triggerTime, value);
      && Occurrences(l', tag, status) == Occurrences(l, tag, status) + 1
      && (forall t, s :: (t, s) != (tag, status) ==> Occurrences(l', t, s) == Occurrences(l, t, s))
  {
    var l' := Add(l, tag, status, externalTime, triggerTime, value);
    forall t, s | (t, s) != (tag, status)
      ensures Occurrences(l', t, s) == Occurrences(l, t, s)
    {
      assert Lookup(l', t, s) == Lookup(l, t, s);
    }
  }

  /**
   * The ledger is append-only from `l` to `l'`: every recorded pair stays,
   * its first record is untouched and its rewrites only grow at the end.
   */
  ghost predicate Extends(l: Ledger, l': Ledger) {
    forall t, s {:trigger Has(l, t, s)} :: Has(l, t, s) ==>
      && Has(l', t, s)
      && l'[t][s].externalTime == l[t][s].externalTime
      && l'[t][s].triggerTime == l[t][s].triggerTime
      && l'[t][s].value == l[t][s].value
      && l[t][s].rewrite <= l'[t][s].rewrite
  }

  lemma AddExtends(l: Ledger, tag: string, status: string, externalTime: string, triggerTime: string, value: string)
    ensures Extends(l, Add(l, tag, status, externalTime, triggerTime, value))
  {
    var l' := Add(l, tag, status, externalTime, triggerTime, value);
    forall t, s | Has(l, t, s)
      ensures Has(l', t, s) && l'[t][s].value == l[t][s].value && l[t][s].rewrite <= l'[t][s].rewrite
    {
      if (t, s) != (tag, status) {
        assert Lookup(l', t, s) == Lookup(l, t, s);
      }
    }
  }

  lemma ExtendsReflexive(l: Ledger)
    ensures Extends(l, l)
  {
  }

  lemma ExtendsTransitive(l0: Ledger, l1: Ledger, l2: Ledger)
    requires Extends(l0, l1) && Extends(l1, l2)
    ensures Extends(l0, l2)
  {
    forall t, s | Has(l0, t, s)
      ensures Has(l2, t, s) && l0[t][s].rewrite <= l2[t][s].rewrite
    {
      assert Has(l1, t, s);
    }
  }

  /**
   * Whatever happens to the ledger after a write, as long as it only grows,
   * a write to a recorded pair stays its rewrite right after the ones before.
   */
  lemma AddThenExtends(l: Ledger, tag: string, status: string, externalTime: string, triggerTime: string,
                       value: string, l': Ledger)
    requires Extends(Add(l, tag, status, externalTime, triggerTime, value), l')
    ensures Has(l, tag, status) ==>
              var n := |l[tag][status].rewrite|;
              n < |l'[tag][status].rewrite| && l'[tag][status].rewrite[n] == Rewrite(externalTime, triggerTime, value)
  {
    var l1 := Add(l, tag, status, externalTime, triggerTime, value);
    assert Has(l1, tag, status);
    if Has(l, tag, status) {
      var n := |l[tag][status].rewrite|;
      assert l1[tag][status].rewrite[n] == Rewrite(externalTime, triggerTime, value);
    }
  }
}

=== FILE: live.dfy ===
/**
 * The live state of one call (src/room.py, src/bridge.py, src/chan.py,
 * src/clip.py): the room with its status ledger and its tree of bridges,
 * chans and clips, each registered in its parent's map under its plan tag.
 *
 * The parsed plan is never changed. Setting `trigger.active = False` is
 * modelled by adding the trigger's position in the plan to `fired`; a trigger
 * is live when it was parsed active and has not fired. Remote calls are
 * collected as `Effect`s, and `asyncio.create_task` appends a `Task`.
 */
module Live {
  import opened Wrappers
  import opened Text
  import opened Dialplan
  import Ledger
  import Calls
  import TriggerEvents

  /** The position of a trigger in the plan: bridge, chan and clip plan indices, then trigger index. */
  datatype Ref =
    | RoomRef(t: nat)
    | BridgeRef(b: nat, t: nat)
    | ChanRef(b: nat, c: nat, t: nat)
    | ClipRef(b: nat, c: nat, k: nat, t: nat)

  /** The chan classes of src/chan_*.py. */
  datatype ChanKind = Outbound | Inbound | Snoop | Emedia

  datatype Clip = Clip(tag: string, clipId: string, chanId: string, planIndex: nat)

  datatype Chan = Chan(
    kind: ChanKind,
    tag: string,
    chanId: string,
    bridgeId: string,
    planIndex: nat,
    clips: map<string, Clip>)

  datatype Bridge = Bridge(tag: string, bridgeId: string, planIndex: nat, chans: map<string, Chan>)

  /**
   * A room. The source disagrees on which identifier a room carries (the room
   * has `lead_id`, chans read `room.call_id`, clips read `room.druid`), so all
   * three are uninterpreted fields here.
   */
  datatype Room = Room(
    leadId: string,
    callId: string,
    druid: string,
    plan: PlanNode,
    fired: set<Ref>,
    ledger: Ledger.Ledger,
    bridges: map<string, Bridge>,
    dialOptions: map<string, Calls.DialOption>)

  /** A remote call to the PBX. */
  datatype Effect =
    | CreateBridge(bridgeId: string)
    | DestroyBridge(bridgeId: string)
    | CreateChan(chanId: string, endpoint: string, callerid: string)
    | CreateSnoopChan(targetChanId: string, snoopId: string)
    | CreateEmediaChan(chanId: string, externalHost: string)
    | Subscribe(eventSource: string)
    | AddChannelToBridge(bridgeId: string, chanId: string)
    | DialChan(chanId: string)
    | StartPlayback(chanId: string, clipId: string, media: string)
    | StopPlayback(clipId: string)

  /** src/dataclasses/ari_response.py without the JSON body. */
  datatype Response = Response(httpCode: int, success: bool, message: string)

  /** The PBX's answer to each remote call, given from outside. */
  type Pbx = Effect -> Response

  /** The arguments of one `add_tag_status` call. */
  datatype Write = Write(tag: string, status: string, externalTime: string, triggerTime: string, value: string)

  /** A coroutine handed to `asyncio.create_task`. */
  datatype Task =
    | Record(w: Write)
    | Schedule(w: Write)
    | StartBridge(tag: string, bridgeId: string)
    | StartChan(kind: ChanKind, tag: string, chanId: string, bridgeId: string, params: map<string, string>)
    | StartClip(tag: string, clipId: string, chanId: string, params: map<string, string>)

  /** A room with the tasks it has scheduled and the remote calls it has made. */
  datatype Step = Step(room: Room, tasks: seq<Task>, effects: seq<Effect>)

  /** A plain write with no times, as the objects issue them. */
  function Status(tag: string, status: string, value: string): Write {
    Write(tag, status, "", "", value)
  }

  function RoomId(tag: string, leadId: string): string { tag + "-lead_id-" + leadId }
  function BridgeId(tag: string, leadId: string): string { tag + "-id-" + leadId }
  function ChanId(tag: string, callId: string): string { tag + TriggerEvents.Delimiter + callId }
  function ClipId(tag: string, druid: string): string { tag + "-druid-" + druid }

  /**
   * A chan id is split back into its tag and the room's call id by the
   * correlator, so events on the chan reach the chan's tag in the ledger.
   */
  lemma ChanIdRoundTrip(tag: string, callId: string)
    requires TriggerEvents.Separable(tag) && !Contains(callId, TriggerEvents.Delimiter)
    ensures Contains(ChanId(tag, callId), TriggerEvents.Delimiter)
    ensures SplitFirst(ChanId(tag, callId), TriggerEvents.Delimiter) == tag
    ensures SplitSecond(ChanId(tag, callId), TriggerEvents.Delimiter) == callId
  {
    TriggerEvents.SplitComposite(tag, callId);
  }

  /** The chan class `check_trigger_chans` instantiates for a plan type; unknown types fall back to outbound. */
  function KindOf(planType: string): (k: ChanKind)
    ensures planType == "chan_snoop" <==> k == Snoop
    ensures planType == "chan_emedia" <==> k == Emedia
    ensures planType == "chan_inbound" <==> k == Inbound
    ensures k == Outbound <==> planType !in {"chan_snoop", "chan_emedia", "chan_inbound"}
  {
    if planType == "chan_snoop" then Snoop
    else if planType == "chan_emedia" then Emedia
    else if planType == "chan_inbound" then Inbound
    else Outbound
  }

  /** `trigger.trigger_status in tags_statuses.get(trigger.trigger_tag, [])`. */
  predicate Matched(l: Ledger.Ledger, trig: Trigger) {
    Ledger.Has(l, trig.tag, trig.status)
  }

  /**
   * After a write to the ledger a trigger matches exactly when it matched
   * before or watches the pair just written; a write never unmatches.
   */
  lemma MatchedAfterAdd(l: Ledger.Ledger, tag: string, status: string, externalTime: string, triggerTime: string,
                        value: string, trig: Trigger)
    ensures Matched(Ledger.Add(l, tag, status, externalTime, triggerTime, value), trig)
            <==> Matched(l, trig) || (trig.tag == tag && trig.status == status)
  {
    var l' := Ledger.Add(l, tag, status, externalTime, triggerTime, value);
    if (trig.tag, trig.status) != (tag, status) {
      assert Ledger.Lookup(l', trig.tag, trig.status) == Ledger.Lookup(l, trig.tag, trig.status);
    }
  }

  // Plan navigation

  predicate ValidBridge(p: PlanNode, b: int) {
    0 <= b < |p.content|
  }

  predicate ValidChan(p: PlanNode, b: int, c: int) {
    ValidBridge(p, b) && 0 <= c < |p.content[b].content|
  }

  predicate ValidClip(p: PlanNode, b: int, c: int, k: int) {
    ValidChan(p, b, c) && 0 <= k < |p.content[b].content[c].content|
  }

  predicate ValidRef(p: PlanNode, r: Ref) {
    match r
    case RoomRef(t) => t < |p.triggers|
    case BridgeRef(b, t) => ValidBridge(p, b) && t < |p.content[b].triggers|
    case ChanRef(b, c, t) => ValidChan(p, b, c) && t < |p.content[b].content[c].triggers|
    case ClipRef(b, c, k, t) => ValidClip(p, b, c, k) && t < |p.content[b].content[c].content[k].triggers|
  }

  function TriggerAt(p: PlanNode, r: Ref): Trigger
    requires ValidRef(p, r)
  {
    match r
    case RoomRef(t) => p.triggers[t]
    case BridgeRef(b, t) => p.content[b].triggers[t]
    case ChanRef(b, c, t) => p.content[b].content[c].triggers[t]
    case ClipRef(b, c, k, t) => p.content[b].content[c].content[k].triggers[t]
  }

  /** The trigger at `r` is still active: parsed active and not yet fired. */
  predicate IsActive(room: Room, r: Ref)
    requires ValidRef(room.plan, r)
  {
    TriggerAt(room.plan, r).active && r !in room.fired
  }

  /** Every trigger position of the plan. */
  ghost function Universe(p: PlanNode): set<Ref> {
    (set t | 0 <= t < |p.triggers| :: RoomRef(t))
    + (set b, t | 0 <= b < |p.content| && 0 <= t < |p.content[b].triggers| :: BridgeRef(b, t))
    + (set b, c, t | 0 <= b < |p.content| && 0 <= c < |p.content[b].content|
                      && 0 <= t < |p.content[b].content[c].triggers| :: ChanRef(b, c, t))
    + (set b, c, k, t | 0 <= b < |p.content| && 0 <= c < |p.content[b].content|
                         && 0 <= k < |p.content[b].content[c].content|
                         && 0 <= t < |p.content[b].content[c].content[k].triggers| :: ClipRef(b, c, k, t))
  }

  lemma ValidRefInUniverse(p: PlanNode, r: Ref)
    requires ValidRef(p, r)
    ensures r in Universe(p)
  {
    match r
    case RoomRef(t) =>
    case BridgeRef(b, t) =>
    case ChanRef(b, c, t) =>
    case ClipRef(b, c, k, t) =>
  }

  /** The number of trigger positions that have not fired: the cascade's termination measure. */
  ghost function Measure(s: Step): nat {
    |Universe(s.room.plan) - s.room.fired|
  }

  lemma {:induction false} SubsetCard<T>(a: set<T>, b: set<T>)
    requires a <= b
    ensures |a| <= |b|
    decreases |a|
  {
    if a != {} {
      var x :| x in a;
      SubsetCard(a - {x}, b - {x});
    }
  }

  lemma RemoveShrinks<T>(u: set<T>, f: set<T>, x: T)
    requires x in u && x !in f
    ensures |u - (f + {x})| < |u - f|
  {
    assert u - (f + {x}) == (u - f) - {x};
  }

  lemma GrowShrinks<T>(u: set<T>, f: set<T>, g: set<T>)
    requires f <= g
    ensures |u - g| <= |u - f|
  {
    SubsetCard(u - g, u - f);
  }

  /** `trigger.active = False` for the trigger at `r`. */
  function Fire(s: Step, r: Ref): (s': Step)
    requires ValidRef(s.room.plan, r) && r !in s.room.fired
    ensures s' == s.(room := s.room.(fired := s.room.fired + {r}))
    ensures !IsActive(s'.room, r)
    ensures Frame(s, s')
  {
    s.(room := s.room.(fired := s.room.fired + {r}))
  }

  /** Firing a trigger that had not fired takes one position out of the measure. */
  lemma FireShrinks(s: Step, r: Ref)
    requires ValidRef(s.room.plan, r) && r !in s.room.fired
    ensures Measure(Fire(s, r)) < Measure(s)
  {
    ValidRefInUniverse(s.room.plan, r);
    RemoveShrinks(Universe(s.room.plan), s.room.fired, r);
  }

  /**
   * What every part of the cascade keeps apart from the ledger: the plan and
   * identifiers are fixed, triggers only ever stop being active, no bridge is
   * dropped, and tasks and remote calls are only appended.
   */
  ghost predicate Frame(s: Step, s': Step) {
    && s'.room.plan == s.room.plan
    && s'.room.leadId == s.room.leadId
    && s'.room.callId == s.room.callId
    && s'.room.druid == s.room.druid
    && s'.room.dialOptions == s.room.dialOptions
    && s.room.fired <= s'.room.fired
    && s.room.bridges.Keys <= s'.room.bridges.Keys
    && s.tasks <= s'.tasks
    && s.effects <= s'.effects
  }

  /** The frame, and the ledger is append-only. */
  ghost predicate Grows(s: Step, s': Step) {
    Frame(s, s') && Ledger.Extends(s.room.ledger, s'.room.ledger)
  }

  lemma GrowsReflexive(s: Step)
    ensures Grows(s, s)
  {
    Ledger.ExtendsReflexive(s.room.ledger);
  }

  lemma FrameTransitive(s0: Step, s1: Step, s2: Step)
    requires Frame(s0, s1) && Frame(s1, s2)
    ensures Frame(s0, s2)
  {
  }

  /** A change within the frame that leaves the ledger alone grows the state. */
  lemma SameLedgerGrows(s: Step, s': Step)
    requires Frame(s, s') && s'.room.ledger == s.room.ledger
    ensures Grows(s, s')
  {
    Ledger.ExtendsReflexive(s.room.ledger);
  }

  lemma GrowsTransitive(s0: Step, s1: Step, s2: Step)
    requires Grows(s0, s1) && Grows(s1, s2)
    ensures Grows(s0, s2)
  {
    Ledger.ExtendsTransitive(s0.room.ledger, s1.room.ledger, s2.room.ledger);
  }

  /** Growing never makes a fired trigger active again, so the measure never increases. */
  lemma FrameMeasure(s: Step, s': Step)
    requires Frame(s, s')
    ensures Measure(s') <= Measure(s)
    ensures forall r :: ValidRef(s.room.plan, r) && IsActive(s'.room, r) ==> IsActive(s.room, r)
  {
    GrowShrinks(Universe(s.room.plan), s.room.fired, s'.room.fired);
  }

  /** The room terminate trigger at index `j` is active and its watched status is recorded. */
  predicate RoomPending(room: Room, j: int) {
    && 0 <= j < |room.plan.triggers|
    && room.plan.triggers[j].action == "terminate"
    && IsActive(room, RoomRef(j))
    && Matched(room.ledger, room.plan.triggers[j])
  }

  /** No room terminate trigger is waiting to fire. */
  predicate RoomSettled(room: Room) {
    forall j :: 0 <= j < |room.plan.triggers| ==> !RoomPending(room, j)
  }

  /** A change that keeps the ledger and only fires triggers keeps the room settled. */
  lemma SettledKept(s: Step, s': Step)
    requires Frame(s, s') && s'.room.ledger == s.room.ledger
    ensures RoomSettled(s.room) ==> RoomSettled(s'.room)
  {
    if RoomSettled(s.room) {
      forall j | 0 <= j < |s'.room.plan.triggers|
        ensures !RoomPending(s'.room, j)
      {
        assert !RoomPending(s.room, j);
      }
    }
  }
}

=== FILE: room.dfy ===
/**
 * The room as a whole (src/room.py together with the coroutines its nodes
 * hand to `asyncio.create_task`): building a room from its plan, running one
 * scheduled task, delivering a trigger event, and the termination handlers
 * of src/room.py, src/bridge.py and src/chan.py.
 */
module Rooms {
  import opened Wrappers
  import opened Text
  import opened Dialplan
  import Ledger
  import Calls
  import TriggerEvents
  import ChanStart
  import Clips
  import opened Live
  import opened Cascade

  /**
   * `Room.__init__`: the plan is parsed for the room alone, the ledger and the
   * bridges are empty, and the only thing scheduled is the write of the plan's
   * status on the room tag, with the room id as value.
   */
  function NewRoom(leadId: string, callId: string, druid: string, raw: RawPlan, app: string,
                   dialOptions: map<string, Calls.DialOption>): (s: Step)
    ensures s.room.plan == ParsePlan(raw, app)
    ensures s.room.leadId == leadId && s.room.callId == callId && s.room.druid == druid
    ensures s.room.dialOptions == dialOptions
    ensures s.room.fired == {} && s.room.ledger == map[] && s.room.bridges == map[]
    ensures s.tasks == [Record(Status(s.room.plan.tag, s.room.plan.status, RoomId(s.room.plan.tag, leadId)))]
    ensures s.effects == []
  {
    var plan := ParsePlan(raw, app);
    Step(Room(leadId, callId, druid, plan, {}, map[], map[], dialOptions),
         [Record(Status(plan.tag, plan.status, RoomId(plan.tag, leadId)))], [])
  }

  /** `start_room`: the status 'ready' on the room tag, with no value. */
  function ReadyWrite(room: Room): (w: Write)
    ensures w.tag == room.plan.tag && w.status == "ready" && w.value == ""
    ensures w.externalTime == "" && w.triggerTime == ""
  {
    Status(room.plan.tag, "ready", "")
  }

  /** `add_status_bridge`: a bridge's status reaches the ledger upper-cased. */
  function BridgeWrite(tag: string, status: string, value: string): (w: Write)
    ensures w.tag == tag && w.value == value
    ensures Upper(w.status) == w.status && |w.status| == |status|
    ensures forall i :: 0 <= i < |status| && !('a' <= status[i] <= 'z') ==> w.status[i] == status[i]
  {
    UpperIdempotent(status);
    Status(tag, Upper(status), value)
  }

  /** The writes of `start_chan`, each of which `add_status_chan` hands to `create_task`. */
  function RecordAll(ws: seq<Write>): (ts: seq<Task>)
    ensures |ts| == |ws|
    ensures forall i :: 0 <= i < |ws| ==> ts[i] == Record(ws[i])
  {
    seq(|ws|, i requires 0 <= i < |ws| => Record(ws[i]))
  }

  lemma ApiStartUpper()
    ensures Upper("API_start") == "API_START"
  {
    var u := Upper("API_start");
    assert forall i :: 0 <= i < |u| ==> u[i] == "API_START"[i];
  }

  /** `start_bridge`: the bridge is created, then 'API_START' is written whatever the answer. */
  function RunStartBridge(s: Step, tag: string, bridgeId: string, pbx: Pbx): (s': Step)
    ensures Grows(s, s')
    ensures |s'.effects| > |s.effects| && s'.effects[|s.effects|] == CreateBridge(bridgeId)
    ensures Ledger.Has(s'.room.ledger, tag, "API_START")
    ensures RoomSettled(s'.room) && BridgesSettled(s'.room)
  {
    var e := s.(effects := s.effects + [CreateBridge(bridgeId)]);
    PendingKept(s, e);
    var w := BridgeWrite(tag, "API_start", "");
    ApiStartUpper();
    var s' := AddTagStatus(e, w, pbx);
    GrowsTransitive(s, e, s');
    s'
  }

  /** `start_chan` of the chan's class: its remote calls are made and each of its writes is scheduled. */
  function RunStartChan(s: Step, kind: ChanKind, tag: string, chanId: string, bridgeId: string,
                        params: map<string, string>, pbx: Pbx): (s': Step)
    ensures var o := ChanStart.Start(kind, tag, chanId, bridgeId, params, s.room.callId, s.room.ledger, s.room.dialOptions, pbx);
      s' == s.(tasks := s.tasks + RecordAll(o.writes), effects := s.effects + o.effects)
    ensures Grows(s, s')
    ensures RoomSettled(s.room) ==> RoomSettled(s'.room)
    ensures BridgesSettled(s.room) ==> BridgesSettled(s'.room)
  {
    var o := ChanStart.Start(kind, tag, chanId, bridgeId, params, s.room.callId, s.room.ledger, s.room.dialOptions, pbx);
    var s' := s.(tasks := s.tasks + RecordAll(o.writes), effects := s.effects + o.effects);
    PendingKept(s, s');
    s'
  }

  /** `start_clip`: the playback call (if any), then its status written at once. */
  function RunStartClip(s: Step, tag: string, clipId: string, chanId: string, params: map<string, string>, pbx: Pbx)
    : (s': Step)
    ensures var o := Clips.StartClip(tag, clipId, chanId, params, pbx);
      && |s'.effects| >= |s.effects| + |o.effects|
      && s'.effects[|s.effects|..|s.effects| + |o.effects|] == o.effects
      && Ledger.Has(s'.room.ledger, tag, o.write.status)
    ensures Grows(s, s')
    ensures RoomSettled(s'.room) && BridgesSettled(s'.room)
  {
    var o := Clips.StartClip(tag, clipId, chanId, params, pbx);
    var e := s.(effects := s.effects + o.effects);
    PendingKept(s, e);
    var s' := AddTagStatus(e, o.write, pbx);
    GrowsTransitive(s, e, s');
    s'
  }

  /**
   * Running one scheduled coroutine: a write runs the whole cascade, and a
   * chan's deferred write only schedules the write.
   */
  function RunTask(s: Step, task: Task, pbx: Pbx): (s': Step)
    ensures Grows(s, s')
    ensures task.Record? ==> Ledger.Has(s'.room.ledger, task.w.tag, task.w.status)
    ensures task.Schedule? ==> s' == s.(tasks := s.tasks + [Record(task.w)])
    ensures !task.Schedule? && !task.StartChan? ==> RoomSettled(s'.room) && BridgesSettled(s'.room)
    ensures RoomSettled(s.room) ==> RoomSettled(s'.room)
    ensures BridgesSettled(s.room) ==> BridgesSettled(s'.room)
  {
    match task
    case Record(w) => AddTagStatus(s, w, pbx)
    case Schedule(w) =>
      var s' := s.(tasks := s.tasks + [Record(w)]);
      PendingKept(s, s');
      s'
    case StartBridge(tag, id) => RunStartBridge(s, tag, id, pbx)
    case StartChan(kind, tag, chanId, bridgeId, params) => RunStartChan(s, kind, tag, chanId, bridgeId, params, pbx)
    case StartClip(tag, clipId, chanId, params) => RunStartClip(s, tag, clipId, chanId, params, pbx)
  }

  /** `trigger_event_handler`: the event's status, times and value are written on its tag. */
  function TriggerEventHandler(s: Step, e: TriggerEvents.TriggerEvent, pbx: Pbx): (s': Step)
    ensures Grows(s, s')
    ensures Ledger.Has(s'.room.ledger, e.tag, e.status)
    ensures !Ledger.Has(s.room.ledger, e.tag, e.status) ==>
              s'.room.ledger[e.tag][e.status] == Ledger.Record(e.externalTime, e.triggerTime, e.value, [])
                                                  .(rewrite := s'.room.ledger[e.tag][e.status].rewrite)
    ensures Ledger.Has(s.room.ledger, e.tag, e.status) ==>
              var n := |s.room.ledger[e.tag][e.status].rewrite|;
              n < |s'.room.ledger[e.tag][e.status].rewrite|
              && s'.room.ledger[e.tag][e.status].rewrite[n] == Ledger.Rewrite(e.externalTime, e.triggerTime, e.value)
    ensures RoomSettled(s'.room) && BridgesSettled(s'.room)
  {
    var w := Write(e.tag, e.status, e.externalTime, e.triggerTime, e.value);
    var s' := AddTagStatus(s, w, pbx);
    s'
  }

  // Termination handlers

  /** `clip_termination_handler`: when the application is alive, every clip is dropped. */
  function ClipTermination(chan: Chan, alive: bool): (chan': Chan)
    ensures alive ==> chan'.clips == map[]
    ensures !alive ==> chan' == chan
    ensures chan'.(clips := chan.clips) == chan
  {
    if alive then chan.(clips := map[]) else chan
  }

  /** `chan_termination_handler`: when alive, every chan is dropped (each after dropping its clips). */
  function ChanTermination(bridge: Bridge, alive: bool): (bridge': Bridge)
    ensures alive ==> bridge'.chans == map[]
    ensures !alive ==> bridge' == bridge
    ensures bridge'.(chans := bridge.chans) == bridge
  {
    if alive then bridge.(chans := map[]) else bridge
  }

  /** `bridge_termination_handler`: when alive, every bridge is dropped (each after dropping its chans). */
  function BridgeTermination(room: Room, alive: bool): (room': Room)
    ensures alive ==> room'.bridges == map[]
    ensures !alive ==> room' == room
    ensures room'.(bridges := room.bridges) == room
  {
    if alive then room.(bridges := map[]) else room
  }

  /**
   * Terminating twice is terminating once; only the live tree is touched (the
   * ledger, the plan and the fired triggers stay); and once terminated while
   * alive, no node of any plan position is reachable.
   */
  lemma TerminationIdempotent(room: Room, alive: bool)
    ensures BridgeTermination(BridgeTermination(room, alive), alive) == BridgeTermination(room, alive)
    ensures var r := BridgeTermination(room, alive);
      r.ledger == room.ledger && r.fired == room.fired && r.plan == room.plan
    ensures alive ==> forall b :: ValidBridge(room.plan, b) ==> BridgeOf(BridgeTermination(room, alive), b).None?
    ensures forall c :: ChanTermination(ChanTermination(c, alive), alive) == ChanTermination(c, alive)
    ensures forall c :: ClipTermination(ClipTermination(c, alive), alive) == ClipTermination(c, alive)
  {
  }
}

=== FILE: routes.dfy ===
/**
 * The admission and dispatch logic of the HTTP routes in src/api/routes.py:
 * `originate`, `hangup`, `restart` and the token-checked `extapi` front door.
 * The server state holds what these routes read and write.
 */
module Routes {
  import opened Wrappers
  import opened Text
  import Calls
  import TriggerEvents
  import Ledger
  import opened Live
  import Rooms

  const Token := "612tkABC"
  const OriginateDialplan := "oper_client"

  /** What the routes read of a running room: its tag, the lead id of its call and its call id. */
  datatype RoomView = RoomView(tag: string, leadId: int, callId: string)

  datatype Server = Server(
    app: string,
    alive: bool,
    waitShutdown: bool,
    rooms: seq<RoomView>,
    callQueue: seq<Calls.Call>,
    events: seq<TriggerEvents.TriggerEvent>)

  /** The validated body of `originate` (`OriginateParams`). */
  datatype OriginateParams = OriginateParams(
    token: string,
    intphone: int,
    extphone: int,
    idclient: int,
    dir: string,
    calleridrule: string,
    leadId: int)

  /** The JSON answers, without the fields they only echo back. */
  datatype Reply =
    | Unavailable
    | Error(msg: string)
    | Originated(callId: string)
    | HungUp(callId: string)
    | Restarted(waitShutdown: bool, alive: bool)
    | Echo

  /**
   * The call `originate` queues: call id from the lead, 'extphone' dialled
   * with the internal phone as caller id, and 'intphone' dialled with none.
   */
  function OriginateCall(p: OriginateParams): (c: Calls.Call)
    ensures c.leadId == p.leadId && c.callId == Calls.CallIdOf(p.leadId) && c.dialplanName == OriginateDialplan
    ensures c.dialOptions.Keys == {"extphone", "intphone"}
    ensures c.dialOptions["extphone"].phoneString == IntToString(p.extphone)
    ensures c.dialOptions["extphone"].callerid ==
              if |IntToString(p.extphone)| == 7 then IntToString(p.intphone) else Calls.FallbackCallerId
    ensures c.dialOptions["intphone"].phoneString == IntToString(p.intphone)
    ensures c.dialOptions["intphone"].callerid == if |IntToString(p.intphone)| == 7 then "" else Calls.FallbackCallerId
  {
    var c := Calls.NewCall(p.leadId, OriginateDialplan);
    var c := Calls.AddDialOption(c, "extphone", IntToString(p.extphone), IntToString(p.intphone));
    Calls.AddDialOption(c, "intphone", IntToString(p.intphone), "")
  }

  /** Some running room already belongs to the lead. */
  predicate Launched(rooms: seq<RoomView>, leadId: int) {
    exists i :: 0 <= i < |rooms| && rooms[i].leadId == leadId
  }

  /**
   * `originate`: refused with 503 while the application is not alive, refused
   * when a running room already has the lead, and otherwise exactly one call
   * is queued and its call id returned.
   */
  function Originate(sv: Server, p: OriginateParams): (r: (Reply, Server))
    ensures !sv.alive ==> r == (Unavailable, sv)
    ensures sv.alive && Launched(sv.rooms, p.leadId) ==> r == (Error("such lead_id has already been launched"), sv)
    ensures sv.alive && !Launched(sv.rooms, p.leadId) ==>
              && r.0 == Originated(Calls.CallIdOf(p.leadId))
              && r.1 == sv.(callQueue := sv.callQueue + [OriginateCall(p)])
  {
    if !sv.alive then (Unavailable, sv)
    else
      var call := OriginateCall(p);
      if Launched(sv.rooms, p.leadId) then (Error("such lead_id has already been launched"), sv)
      else (Originated(call.callId), sv.(callQueue := sv.callQueue + [call]))
  }

  /**
   * The duplicate check looks at running rooms only, not at the call queue:
   * two originates for the same new lead both succeed and queue two calls
   * with the same call id.
   */
  lemma OriginateTwiceQueuesTwice(sv: Server, p: OriginateParams)
    requires sv.alive && !Launched(sv.rooms, p.leadId)
    ensures var (r1, sv1) := Originate(sv, p);
      var (r2, sv2) := Originate(sv1, p);
      && r1 == r2 == Originated(Calls.CallIdOf(p.leadId))
      && sv2.callQueue == sv.callQueue + [OriginateCall(p), OriginateCall(p)]
  {
    var (r1, sv1) := Originate(sv, p);
    assert sv1.rooms == sv.rooms;
  }

  /** The call id `originate` answers with names the requested lead and no other. */
  lemma OriginatedIdentifiesLead(sv: Server, p: OriginateParams, other: int)
    requires Originate(sv, p).0 == Originated(Calls.CallIdOf(other))
    ensures other == p.leadId
  {
    Calls.CallIdDeterminesLead(other, p.leadId);
  }

  /** The first running room with the call id. */
  function FindCall(rooms: seq<RoomView>, callId: string): (i: Option<nat>)
    ensures i.Some? ==> i.value < |rooms| && rooms[i.value].callId == callId
    ensures i.Some? ==> forall j :: 0 <= j < i.value ==> rooms[j].callId != callId
    ensures i.None? ==> forall j :: 0 <= j < |rooms| ==> rooms[j].callId != callId
  {
    if |rooms| == 0 then None
    else if rooms[0].callId == callId then Some(0)
    else match FindCall(rooms[1..], callId)
      case None => None
      case Some(k) => Some(k + 1)
  }

  /** The event `hangup` queues for a room: 'stop' on the room's tag, marked as coming from the API. */
  function HangupEvent(app: string, room: RoomView, now: string): (te: TriggerEvents.TriggerEvent)
    ensures te.eventType == "API_EVENT" && te.app == app && te.asteriskId == ""
    ensures te.tag == room.tag && te.callId == room.callId && te.status == "stop" && te.value == "api_hangup"
    ensures te.externalTime == now && te.triggerTime == now
  {
    TriggerEvents.TriggerEvent(app, "", "API_EVENT", now, now, room.tag, room.callId, "stop", "api_hangup")
  }

  /**
   * `hangup`: for the first room with the call id, exactly one event is
   * queued; for an unknown call id nothing is queued. Aliveness is not checked.
   */
  function Hangup(sv: Server, callId: string, now: string): (r: (Reply, Server))
    ensures FindCall(sv.rooms, callId).None? ==> r == (Error("Not found call_id"), sv)
    ensures FindCall(sv.rooms, callId).Some? ==>
              var room := sv.rooms[FindCall(sv.rooms, callId).value];
              && r.0 == HungUp(callId)
              && r.1 == sv.(events := sv.events + [HangupEvent(sv.app, room, now)])
              && r.1.events[|sv.events|].status == "stop" && r.1.events[|sv.events|].value == "api_hangup"
              && r.1.events[|sv.events|].tag == room.tag && r.1.events[|sv.events|].callId == callId
  {
    match FindCall(sv.rooms, callId)
    case None => (Error("Not found call_id"), sv)
    case Some(i) => (HungUp(callId), sv.(events := sv.events + [HangupEvent(sv.app, sv.rooms[i], now)]))
  }

  /**
   * Handled by the room it names, the hangup event records 'stop' on the
   * room's tag, which is what the plan's terminate triggers watch.
   */
  lemma HangupStopsRoom(sv: Server, callId: string, now: string, s: Step, pbx: Pbx)
    requires FindCall(sv.rooms, callId).Some?
    requires s.room.plan.tag == sv.rooms[FindCall(sv.rooms, callId).value].tag
    ensures var e := Hangup(sv, callId, now).1.events[|sv.events|];
      Ledger.Has(Rooms.TriggerEventHandler(s, e, pbx).room.ledger, s.room.plan.tag, "stop")
  {
  }

  /** `restart`: the application is asked to shut down; nothing else changes. */
  function Restart(sv: Server): (r: (Reply, Server))
    ensures r.1 == sv.(waitShutdown := true)
    ensures r.0 == Restarted(true, sv.alive)
  {
    (Restarted(true, sv.alive), sv.(waitShutdown := true))
  }

  /**
   * `extapi`: the token is checked first; then 'restart', 'originate' and
   * 'hangup' are dispatched, and any other command echoes the request. The
   * phone numbers are absent (`None`) when the query did not carry them,
   * which fails the validation of `OriginateParams`.
   */
  function ExtApi(sv: Server, token: string, cmd: string, intphone: Option<int>, extphone: Option<int>,
                  idclient: int, dir: string, calleridrule: string, leadId: int, callId: string, now: string)
    : (r: (Reply, Server))
    ensures token != Token ==> r == (Error("No valid token"), sv)
    ensures token == Token && cmd == "restart" ==> r == Restart(sv)
    ensures token == Token && cmd == "originate" && (intphone.None? || extphone.None?) ==>
              r == (Error("Incorrect fields in request"), sv)
    ensures token == Token && cmd == "originate" && intphone.Some? && extphone.Some? ==>
              r == Originate(sv, OriginateParams(token, intphone.value, extphone.value, idclient, dir, calleridrule, leadId))
    ensures token == Token && cmd == "hangup" ==> r == Hangup(sv, callId, now)
    ensures token == Token && cmd !in {"restart", "originate", "hangup"} ==> r == (Echo, sv)
  {
    if token != Token then (Error("No valid token"), sv)
    else if cmd == "restart" then Restart(sv)
    else if cmd == "originate" then
      if intphone.None? || extphone.None? then (Error("Incorrect fields in request"), sv)
      else Originate(sv, OriginateParams(token, intphone.value, extphone.value, idclient, dir, calleridrule, leadId))
    else if cmd == "hangup" then Hangup(sv, callId, now)
    else (Echo, sv)
  }

  /**
   * Whatever `extapi` is asked, the rooms and aliveness are untouched, at
   * most one call or one event is queued (never both), and the queues only grow.
   */
  lemma ExtApiFrame(sv: Server, token: string, cmd: string, intphone: Option<int>, extphone: Option<int>,
                    idclient: int, dir: string, calleridrule: string, leadId: int, callId: string, now: string)
    ensures var (_, sv') := ExtApi(sv, token, cmd, intphone, extphone, idclient, dir, calleridrule, leadId, callId, now);
      && sv'.rooms == sv.rooms && sv'.alive == sv.alive && sv'.app == sv.app
      && sv.callQueue <= sv'.callQueue && sv.events <= sv'.events
      && |sv'.callQueue| + |sv'.events| <= |sv.callQueue| + |sv.events| + 1
      && (sv'.waitShutdown != sv.waitShutdown ==> token == Token && cmd == "restart")
  {
  }
}

=== FILE: text.dfy ===
/**
 * String helpers standing in for the Python built-ins the orchestrator uses:
 * `in` on strings, `str.split`, `str.replace`, `str.upper`, slicing, `str(int)`
 * and the `^[^0-9]+$` regular expression.
 */
module Text {
  import opened Wrappers

  predicate IsDigit(c: char) {
    '0' <= c <= '9'
  }

  /** Some character of `s` is a decimal digit. */
  predicate HasDigit(s: string) {
    exists i :: 0 <= i < |s| && IsDigit(s[i])
  }

  /**
   * `re.match(r"^[^0-9]+$", s)` succeeds: written as the scan the regular
   * expression performs, and proved equal to "non-empty and digit-free".
   */
  function MatchesNonDigits(s: string): (r: bool)
    ensures r <==> |s| > 0 && !HasDigit(s)
  {
    if |s| == 0 then false
    else if IsDigit(s[0]) then false
    else if |s| == 1 then true
    else
      var rest := MatchesNonDigits(s[1..]);
      assert forall i :: 1 <= i < |s| ==> s[i] == s[1..][i - 1];
      rest
  }

  /** Python's `s[:n]`: the first `n` characters, or all of `s` when shorter. */
  function Take(s: string, n: nat): (r: string)
    ensures |r| == if |s| < n then |s| else n
    ensures r <= s
  {
    if |s| < n then s else s[..n]
  }

  /** Python's `s.replace(a, b)` for single characters. */
  function ReplaceChar(s: string, a: char, b: char): (r: string)
    ensures |r| == |s|
    ensures forall i :: 0 <= i < |s| ==> r[i] == if s[i] == a then b else s[i]
  {
    if |s| == 0 then ""
    else [if s[0] == a then b else s[0]] + ReplaceChar(s[1..], a, b)
  }

  function UpperChar(c: char): char {
    if 'a' <= c <= 'z' then (c as int - 32) as char else c
  }

  /** Python's `s.upper()` restricted to ASCII letters. */
  function Upper(s: string): (r: string)
    ensures |r| == |s|
    ensures forall i :: 0 <= i < |s| ==> r[i] == UpperChar(s[i])
  {
    if |s| == 0 then "" else [UpperChar(s[0])] + Upper(s[1..])
  }

  /** Upper-casing twice is upper-casing once. */
  lemma UpperIdempotent(s: string)
    ensures Upper(Upper(s)) == Upper(s)
  {
    assert forall i :: 0 <= i < |s| ==> UpperChar(UpperChar(s[i])) == UpperChar(s[i]);
  }

  /** `d` occurs in `s` starting at index `i`. */
  predicate OccursAt(s: string, d: string, i: int) {
    0 <= i && i + |d| <= |s| && s[i..i + |d|] == d
  }

  /** Python's `d in s`. */
  predicate Contains(s: string, d: string) {
    exists i :: 0 <= i <= |s| && OccursAt(s, d, i)
  }

  /** The first occurrence of `d` in `s` at or after index `from`. */
  function IndexFrom(s: string, d: string, from: nat): (r: Option<nat>)
    requires |d| > 0 && from <= |s|
    ensures r.Some? ==> from <= r.value && OccursAt(s, d, r.value)
    ensures r.Some? ==> forall j :: from <= j < r.value ==> !OccursAt(s, d, j)
    ensures r.None? ==> forall j :: from <= j ==> !OccursAt(s, d, j)
    decreases |s| - from
  {
    if from + |d| > |s| then None
    else if s[from..from + |d|] == d then Some(from)
    else IndexFrom(s, d, from + 1)
  }

  /** The first occurrence of `d` in `s` (Python's `s.find(d)`, with `None` for -1). */
  function IndexOf(s: string, d: string): (r: Option<nat>)
    requires |d| > 0
    ensures r.Some? <==> Contains(s, d)
    ensures r.Some? ==> OccursAt(s, d, r.value) && forall j :: 0 <= j < r.value ==> !OccursAt(s, d, j)
  {
    IndexFrom(s, d, 0)
  }

  /** `s.split(d)[0]`: everything before the first `d` (all of `s` when there is none). */
  function SplitFirst(s: string, d: string): (r: string)
    requires |d| > 0
    ensures r <= s
    ensures !Contains(s, d) ==> r == s
  {
    match IndexOf(s, d)
    case None => s
    case Some(k) => s[..k]
  }

  /**
   * `s.split(d)[1]`: the text between the first and the second `d`, or up to the
   * end when `d` occurs once; Python raises IndexError when `d` is absent.
   */
  function SplitSecond(s: string, d: string): (r: string)
    requires |d| > 0 && Contains(s, d)
  {
    var k := IndexOf(s, d).value;
    SplitFirst(s[k + |d|..], d)
  }

  function DigitChar(n: nat): char
    requires n < 10
  {
    "0123456789"[n]
  }

  /** Python's `str(n)` for a natural number. */
  function NatToString(n: nat): (r: string)
    ensures |r| > 0
    ensures forall i :: 0 <= i < |r| ==> IsDigit(r[i])
    decreases n
  {
    if n < 10 then [DigitChar(n)] else NatToString(n / 10) + [DigitChar(n % 10)]
  }

  /** Python's `str(i)` for an integer. */
  function IntToString(i: int): (r: string)
    ensures |r| > 0
    ensures i >= 0 ==> !Contains(r, "-")
  {
    if i >= 0 then
      var r := NatToString(i);
      assert forall j :: 0 <= j < |r| ==> r[j] != '-';
      assert forall j :: 0 <= j <= |r| && OccursAt(r, "-", j) ==> r[j] == '-';
      r
    else "-" + NatToString(-i)
  }
}

=== FILE: trigger_event_manager.dfy ===
/**
 * The event correlator of src/trigger_event_manager.py: raw PBX events
 * (Asterisk REST Interface notifications) are normalised into
 * `TriggerEvent`s (tag, call id, status, value) and kept in a FIFO queue.
 */
module TriggerEvents {
  import opened Wrappers
  import opened Text
  import GoodFunc

  const Unknown := "UNKNOWN"

  /** The separator between the owner tag and the call id in a resource id. */
  const Delimiter := "-call_id-"

  /**
   * The fields of a raw event that the correlator reads. The nested objects
   * `channel`, `peer`, `bridge` and `playback` are flattened; each is taken to be
   * present for the event types that read it (the source raises otherwise).
   */
  datatype RawEvent = RawEvent(
    eventType: Option<string>,
    application: Option<string>,
    asteriskId: Option<string>,
    timestamp: Option<string>,
    channelId: string,
    channelName: string,
    channelState: string,
    peerId: string,
    bridgeId: string,
    playbackId: string,
    playbackMediaUri: Option<string>,
    playbackState: Option<string>,
    dialstatus: string,
    dialstring: string,
    variable: string,
    value: string,
    digit: string,
    cause: string,
    causeTxt: string,
    tag: string,
    callId: string,
    status: string)

  /** src/dataclasses/trigger_event.py without `delay`, which is clock arithmetic. */
  datatype TriggerEvent = TriggerEvent(
    app: string,
    asteriskId: string,
    eventType: string,
    externalTime: string,
    triggerTime: string,
    tag: string,
    callId: string,
    status: string,
    value: string)

  /** Python's `x or 'UNKNOWN'`: absent and empty both fall back. */
  function OrUnknown(x: Option<string>): string {
    if x.None? || x.value == "" then Unknown else x.value
  }

  /** Python's `x or ''`. */
  function OrEmpty(x: Option<string>): string {
    if x.None? then "" else x.value
  }

  predicate ChannelScoped(t: string) {
    t in ["ChannelDialplan", "ChannelCreated", "ChannelVarset", "ChannelDtmfReceived",
          "ChannelStateChange", "ChannelDestroyed", "ChannelHangupRequest", "StasisStart", "StasisEnd"]
  }

  predicate BridgeScoped(t: string) {
    t in ["BridgeCreated", "ChannelEnteredBridge", "ChannelLeftBridge", "BridgeDestroyed"]
  }

  predicate PlaybackScoped(t: string) {
    t in ["PlaybackStarted", "PlaybackFinished"]
  }

  /** The resource id an event of type `t` is split on, if `t` is one of the listed types. */
  function ScopedId(e: RawEvent, t: string): (id: Option<string>)
    ensures id.Some? <==> ChannelScoped(t) || BridgeScoped(t) || PlaybackScoped(t) || t == "Dial"
  {
    if ChannelScoped(t) then Some(e.channelId)
    else if t == "Dial" then Some(e.peerId)
    else if BridgeScoped(t) then Some(e.bridgeId)
    else if PlaybackScoped(t) then Some(e.playbackId)
    else None
  }

  /** `get_tag_from_event`. */
  function TagOf(e: RawEvent, t: string): string {
    if t == "ExternalEvent" then e.tag
    else match ScopedId(e, t)
      case Some(id) => if Contains(id, Delimiter) then SplitFirst(id, Delimiter) else Unknown
      case None => Unknown
  }

  /** `get_call_id_from_event`. */
  function CallIdOf(e: RawEvent, t: string): string {
    if t == "ExternalEvent" then e.callId
    else match ScopedId(e, t)
      case Some(id) => if Contains(id, Delimiter) then SplitSecond(id, Delimiter) else Unknown
      case None => Unknown
  }

  /** `get_status_from_event`: composite statuses carry the detail after a '#'. */
  function StatusOf(e: RawEvent, t: string): string {
    if t == "ExternalEvent" then e.status
    else if t == "ChannelStateChange" then t + "#" + e.channelState
    else if t == "Dial" then (if |e.dialstatus| > 0 then t + "#" + e.dialstatus else t)
    else if t == "ChannelEnteredBridge" || t == "ChannelLeftBridge" then t + "#" + e.channelId
    else if t == "ChannelVarset" then t + "#" + e.variable
    else if t == "ChannelDtmfReceived" then t + "#" + e.digit
    else t
  }

  /** `get_value_from_event`, with the substring tests of the source read as equality. */
  function ValueOf(e: RawEvent, t: string): string {
    if t == "ExternalEvent" then e.value
    else if t == "ChannelDtmfReceived" then e.digit
    else if t == "ChannelStateChange" then e.channelName
    else if t == "ChannelHangupRequest" then e.cause
    else if t == "ChannelDestroyed" then e.causeTxt + "#" + e.cause
    else if t == "ChannelVarset" then e.value
    else if t == "Dial" then e.dialstring
    else if t == "PlaybackStarted" then OrEmpty(e.playbackMediaUri)
    else if t == "PlaybackFinished" then OrEmpty(e.playbackState)
    else ""
  }

  /** The value of an ASCII digit; any other character counts as 0. */
  function DigitValue(c: char): (d: nat)
    ensures d < 10
  {
    if IsDigit(c) then c as int - '0' as int else 0
  }

  /** The number written by the `n` characters of `s` from position `i`. */
  function NumAt(s: string, i: nat, n: nat): nat
    requires i + n <= |s|
    decreases n
  {
    if n == 0 then 0 else NumAt(s, i, n - 1) * 10 + DigitValue(s[i + n - 1])
  }

  predicate DigitsAt(s: string, i: nat, n: nat) {
    i + n <= |s| && forall k :: i <= k < i + n ==> IsDigit(s[k])
  }

  predicate LeapYear(y: nat) {
    y % 4 == 0 && (y % 100 != 0 || y % 400 == 0)
  }

  /** Days in month `m` (1 to 12) of the proleptic Gregorian year `y`. */
  function DaysIn(y: nat, m: nat): (d: nat)
    ensures 28 <= d <= 31
  {
    if m == 2 then (if LeapYear(y) then 29 else 28)
    else if m == 4 || m == 6 || m == 9 || m == 11 then 30
    else 31
  }

  /**
   * `datetime.strptime(s, "%Y-%m-%dT%H:%M:%S.%f")` returns rather than
   * raising ValueError. Each field of the format has a maximum width and
   * together they add up to 26, so a string of any other length that the
   * normaliser can produce is refused, and one of length 26 must give every
   * field its full width. The day may also be written as a space and a digit,
   * the 'T' matches either case, and the date and time must exist (year from
   * 1, seconds up to 59).
   */
  predicate ParsesAsIsoTime(s: string) {
    && |s| == GoodFunc.IsoLength
    && DigitsAt(s, 0, 4) && s[4] == '-' && DigitsAt(s, 5, 2) && s[7] == '-'
    && (IsDigit(s[8]) || s[8] == ' ') && IsDigit(s[9])
    && (s[10] == 'T' || s[10] == 't')
    && DigitsAt(s, 11, 2) && s[13] == ':' && DigitsAt(s, 14, 2) && s[16] == ':' && DigitsAt(s, 17, 2)
    && s[19] == '.' && DigitsAt(s, 20, 6)
    && var year := NumAt(s, 0, 4);
       var month := NumAt(s, 5, 2);
       var day := if s[8] == ' ' then DigitValue(s[9]) else NumAt(s, 8, 2);
       && 1 <= year && 1 <= month <= 12 && 1 <= day <= DaysIn(year, month)
       && NumAt(s, 11, 2) <= 23 && NumAt(s, 14, 2) <= 59 && NumAt(s, 17, 2) <= 59
  }

  /** A `datetime` value: the fields `strptime` reads. */
  datatype DateTime = DateTime(year: nat, month: nat, day: nat, hour: nat, minute: nat, second: nat, micro: nat)

  /** The values the `datetime` constructor accepts. */
  predicate ValidDateTime(d: DateTime) {
    && 1 <= d.year <= 9999 && 1 <= d.month <= 12 && 1 <= d.day <= DaysIn(d.year, d.month)
    && d.hour <= 23 && d.minute <= 59 && d.second <= 59 && d.micro <= 999999
  }

  function Pow10(n: nat): (p: nat)
    ensures p >= 1
  {
    if n == 0 then 1 else 10 * Pow10(n - 1)
  }

  function DigitChar(d: nat): (c: char)
    requires d < 10
    ensures IsDigit(c) && DigitValue(c) == d
  {
    ('0' as int + d) as char
  }

  /** The last `w` decimal digits of `v`, zero-padded to width `w`. */
  function Digits(v: nat, w: nat): (r: string)
    ensures |r| == w && DigitsAt(r, 0, w)
  {
    if w == 0 then "" else Digits(v / 10, w - 1) + [DigitChar(v % 10)]
  }

  /**
   * `datetime.isoformat()`, as `asterisk_event_to_trigger_event` takes the
   * clock reading: the fraction is written only when the microseconds are
   * not 0.
   */
  function Isoformat(d: DateTime): string {
    var date := Digits(d.year, 4) + "-" + Digits(d.month, 2) + "-" + Digits(d.day, 2);
    var time := Digits(d.hour, 2) + ":" + Digits(d.minute, 2) + ":" + Digits(d.second, 2);
    if d.micro == 0 then date + "T" + time else date + "T" + time + "." + Digits(d.micro, 6)
  }

  /**
   * `datetime.strptime(s, "%Y-%m-%dT%H:%M:%S.%f")`: the date and time read,
   * or None where ValueError is raised.
   */
  function Strptime(s: string): (r: Option<DateTime>)
    ensures r.Some? <==> ParsesAsIsoTime(s)
    ensures r.Some? ==> ValidDateTime(r.value)
  {
    if ParsesAsIsoTime(s) then
      NumAtBound(s, 0, 4);
      NumAtBound(s, 20, 6);
      var day := if s[8] == ' ' then DigitValue(s[9]) else NumAt(s, 8, 2);
      Some(DateTime(NumAt(s, 0, 4), NumAt(s, 5, 2), day, NumAt(s, 11, 2), NumAt(s, 14, 2), NumAt(s, 17, 2),
                    NumAt(s, 20, 6)))
    else None
  }

  lemma NumAtBound(s: string, i: nat, n: nat)
    requires i + n <= |s|
    ensures NumAt(s, i, n) < Pow10(n)
    decreases n
  {
    if n > 0 {
      NumAtBound(s, i, n - 1);
    }
  }

  /** `NumAt` reads only the characters it covers. */
  lemma NumAtSame(s: string, i: nat, t: string, j: nat, n: nat)
    requires i + n <= |s| && j + n <= |t| && s[i..i + n] == t[j..j + n]
    ensures NumAt(s, i, n) == NumAt(t, j, n)
    decreases n
  {
    if n > 0 {
      assert s[i..i + n - 1] == s[i..i + n][..n - 1];
      assert t[j..j + n - 1] == t[j..j + n][..n - 1];
      assert s[i + n - 1] == s[i..i + n][n - 1];
      assert t[j + n - 1] == t[j..j + n][n - 1];
      NumAtSame(s, i, t, j, n - 1);
    }
  }

  /** Reading back the digits written for a number that fits gives the number. */
  lemma {:induction false} NumAtDigits(v: nat, w: nat)
    requires v < Pow10(w)
    ensures NumAt(Digits(v, w), 0, w) == v
    decreases w
  {
    if w > 0 {
      var r := Digits(v, w);
      assert r[0..w - 1] == Digits(v / 10, w - 1)[0..w - 1];
      NumAtSame(r, 0, Digits(v / 10, w - 1), 0, w - 1);
      NumAtDigits(v / 10, w - 1);
    }
  }

  /** Writing back a number read from digits gives the same digits. */
  lemma {:induction false} DigitsOfNumAt(s: string, i: nat, n: nat)
    requires DigitsAt(s, i, n)
    ensures Digits(NumAt(s, i, n), n) == s[i..i + n]
    decreases n
  {
    if n > 0 {
      var a := NumAt(s, i, n - 1);
      var c := s[i + n - 1];
      assert (a * 10 + DigitValue(c)) / 10 == a;
      assert (a * 10 + DigitValue(c)) % 10 == DigitValue(c);
      assert DigitChar(DigitValue(c)) == c;
      DigitsOfNumAt(s, i, n - 1);
      assert s[i..i + n] == s[i..i + n - 1] + [c];
    }
  }

  /** A field of width `w` written with `Digits(v, w)` reads back as `v`. */
  lemma FieldAt(s: string, i: nat, w: nat, v: nat)
    requires i + w <= |s| && s[i..i + w] == Digits(v, w) && v < Pow10(w)
    ensures DigitsAt(s, i, w) && NumAt(s, i, w) == v
  {
    forall k | i <= k < i + w
      ensures IsDigit(s[k])
    {
      assert s[k] == s[i..i + w][k - i];
    }
    NumAtSame(s, i, Digits(v, w), 0, w);
    NumAtDigits(v, w);
  }

  // Each field of a clock reading with a fraction reads back as written.

  lemma IsoformatYear(d: DateTime)
    requires ValidDateTime(d) && d.micro != 0
    ensures DigitsAt(Isoformat(d), 0, 4) && NumAt(Isoformat(d), 0, 4) == d.year
  {
    assert Isoformat(d)[0..4] == Digits(d.year, 4);
    FieldAt(Isoformat(d), 0, 4, d.year);
  }

  lemma IsoformatMonth(d: DateTime)
    requires ValidDateTime(d) && d.micro != 0
    ensures DigitsAt(Isoformat(d), 5, 2) && NumAt(Isoformat(d), 5, 2) == d.month
  {
    assert Isoformat(d)[5..7] == Digits(d.month, 2);
    FieldAt(Isoformat(d), 5, 2, d.month);
  }

  lemma IsoformatDay(d: DateTime)
    requires ValidDateTime(d) && d.micro != 0
    ensures DigitsAt(Isoformat(d), 8, 2) && NumAt(Isoformat(d), 8, 2) == d.day
  {
    assert Isoformat(d)[8..10] == Digits(d.day, 2);
    FieldAt(Isoformat(d), 8, 2, d.day);
  }

  lemma IsoformatHour(d: DateTime)
    requires ValidDateTime(d) && d.micro != 0
    ensures DigitsAt(Isoformat(d), 11, 2) && NumAt(Isoformat(d), 11, 2) == d.hour
  {
    assert Isoformat(d)[11..13] == Digits(d.hour, 2);
    FieldAt(Isoformat(d), 11, 2, d.hour);
  }

  lemma IsoformatMinute(d: DateTime)
    requires ValidDateTime(d) && d.micro != 0
    ensures DigitsAt(Isoformat(d), 14, 2) && NumAt(Isoformat(d), 14, 2) == d.minute
  {
    assert Isoformat(d)[14..16] == Digits(d.minute, 2);
    FieldAt(Isoformat(d), 14, 2, d.minute);
  }

  lemma IsoformatSecond(d: DateTime)
    requires ValidDateTime(d) && d.micro != 0
    ensures DigitsAt(Isoformat(d), 17, 2) && NumAt(Isoformat(d), 17, 2) == d.second
  {
    assert Isoformat(d)[17..19] == Digits(d.second, 2);
    FieldAt(Isoformat(d), 17, 2, d.second);
  }

  lemma IsoformatMicro(d: DateTime)
    requires ValidDateTime(d) && d.micro != 0
    ensures DigitsAt(Isoformat(d), 20, 6) && NumAt(Isoformat(d), 20, 6) == d.micro
  {
    assert Isoformat(d)[20..26] == Digits(d.micro, 6);
    FieldAt(Isoformat(d), 20, 6, d.micro);
  }

  /**
   * The clock reading `isoformat()` writes parses exactly when its
   * microseconds are not 0, and then `strptime` reads back the same date and
   * time.
   */
  lemma IsoformatParses(d: DateTime)
    requires ValidDateTime(d)
    ensures ParsesAsIsoTime(Isoformat(d)) <==> d.micro != 0
    ensures d.micro != 0 ==> Strptime(Isoformat(d)) == Some(d)
  {
    var s := Isoformat(d);
    if d.micro != 0 {
      assert |s| == 26 && s[4] == '-' && s[7] == '-' && s[10] == 'T' && s[13] == ':' && s[16] == ':' && s[19] == '.';
      IsoformatYear(d);
      IsoformatMonth(d);
      IsoformatDay(d);
      IsoformatHour(d);
      IsoformatMinute(d);
      IsoformatSecond(d);
      IsoformatMicro(d);
    } else {
      assert |s| == 19;
    }
  }

  /** A string in the layout `isoformat()` writes is the concatenation of its fields. */
  lemma IsoSplit(s: string)
    requires |s| == 26 && s[4] == '-' && s[7] == '-' && s[10] == 'T' && s[13] == ':' && s[16] == ':' && s[19] == '.'
    ensures s == s[0..4] + "-" + s[5..7] + "-" + s[8..10] + "T" + s[11..13] + ":" + s[14..16] + ":" + s[17..19]
                 + "." + s[20..26]
  {
  }

  lemma IsoformatOfFields(d: DateTime, s: string)
    requires |s| == 26 && s[4] == '-' && s[7] == '-' && s[10] == 'T' && s[13] == ':' && s[16] == ':' && s[19] == '.'
    requires d.micro != 0
    requires Digits(d.year, 4) == s[0..4] && Digits(d.month, 2) == s[5..7] && Digits(d.day, 2) == s[8..10]
    requires Digits(d.hour, 2) == s[11..13] && Digits(d.minute, 2) == s[14..16] && Digits(d.second, 2) == s[17..19]
    requires Digits(d.micro, 6) == s[20..26]
    ensures Isoformat(d) == s
  {
    IsoSplit(s);
  }

  /**
   * The other direction: a string in the exact form `isoformat()` writes
   * ('T', a two-digit day, microseconds not 0) is what `isoformat()` writes
   * for the date and time `strptime` reads from it.
   */
  lemma StrptimeIsoformat(s: string)
    requires ParsesAsIsoTime(s) && s[8] != ' ' && s[10] == 'T' && NumAt(s, 20, 6) != 0
    ensures Isoformat(Strptime(s).value) == s
  {
    var d := Strptime(s).value;
    assert d == DateTime(NumAt(s, 0, 4), NumAt(s, 5, 2), NumAt(s, 8, 2), NumAt(s, 11, 2), NumAt(s, 14, 2),
                         NumAt(s, 17, 2), NumAt(s, 20, 6));
    DigitsOfNumAt(s, 0, 4);
    DigitsOfNumAt(s, 5, 2);
    DigitsOfNumAt(s, 8, 2);
    DigitsOfNumAt(s, 11, 2);
    DigitsOfNumAt(s, 14, 2);
    DigitsOfNumAt(s, 17, 2);
    DigitsOfNumAt(s, 20, 6);
    IsoformatOfFields(d, s);
  }

  /** The record built at the end of `asterisk_event_to_trigger_event`. */
  function EventOf(e: RawEvent, externalTime: string, now: string): TriggerEvent {
    var t := OrUnknown(e.eventType);
    TriggerEvent(OrUnknown(e.application), OrUnknown(e.asteriskId), t, externalTime, now,
                 TagOf(e, t), CallIdOf(e, t), StatusOf(e, t), ValueOf(e, t))
  }

  /**
   * `asterisk_event_to_trigger_event`; `now` is the local clock reading in
   * `isoformat()` form. `calc_delay` parses both times before the record is
   * built, so when either does not parse the ValueError is raised instead
   * (and it ends the listening session that asked for the event).
   */
  function Correlate(e: RawEvent, now: string): (r: Result<TriggerEvent>)
    ensures r.Ok? <==> ParsesAsIsoTime(GoodFunc.FixIsoTimestamp(e.timestamp)) && ParsesAsIsoTime(now)
    ensures e.timestamp.None? ==> r.Err?
    ensures r.Ok? ==>
              && r.value.eventType != "" && r.value.app != "" && r.value.asteriskId != ""
              && r.value.externalTime == GoodFunc.FixIsoTimestamp(e.timestamp) && r.value.triggerTime == now
    ensures r.Ok? && r.value.eventType == "ExternalEvent" ==>
              r.value.tag == e.tag && r.value.callId == e.callId && r.value.status == e.status && r.value.value == e.value
  {
    var externalTime := GoodFunc.FixIsoTimestamp(e.timestamp);
    if ParsesAsIsoTime(externalTime) && ParsesAsIsoTime(now) then Ok(EventOf(e, externalTime, now))
    else Err("ValueError: time data does not match format '%Y-%m-%dT%H:%M:%S.%f'")
  }

  /**
   * The correlator with the corrected normaliser: it agrees with `Correlate`
   * on every timestamp without an offset, and where both give an event they
   * differ at most in the external time.
   */
  function CorrelateCorrected(e: RawEvent, now: string): (r: Result<TriggerEvent>)
    ensures r.Ok? <==> ParsesAsIsoTime(GoodFunc.FixIsoTimestampCorrected(e.timestamp)) && ParsesAsIsoTime(now)
    ensures e.timestamp.None? || '+' !in e.timestamp.value ==> r == Correlate(e, now)
    ensures r.Ok? && Correlate(e, now).Ok? ==>
              r.value.(externalTime := "") == Correlate(e, now).value.(externalTime := "")
  {
    var externalTime := GoodFunc.FixIsoTimestampCorrected(e.timestamp);
    if ParsesAsIsoTime(externalTime) && ParsesAsIsoTime(now) then Ok(EventOf(e, externalTime, now))
    else Err("ValueError: time data does not match format '%Y-%m-%dT%H:%M:%S.%f'")
  }

  /** The event types whose value the correlator reads from the event. */
  /** The types whose status is not the bare type: external ones and those that may append a detail. */
  predicate StatusComposite(t: string) {
    t in ["ExternalEvent", "ChannelStateChange", "Dial", "ChannelEnteredBridge", "ChannelLeftBridge", "ChannelVarset",
          "ChannelDtmfReceived"]
  }

  predicate ValueCarrying(t: string) {
    t in ["ExternalEvent", "ChannelDtmfReceived", "ChannelStateChange", "ChannelHangupRequest", "ChannelDestroyed",
          "ChannelVarset", "Dial", "PlaybackStarted", "PlaybackFinished"]
  }

  /**
   * Every status but an external one starts with the event type; the
   * composite ones append '#' and the detail a trigger can watch, and every
   * other type's status is the type itself. Each value-carrying type reads
   * its value from its own field, and the other types carry ''.
   */
  lemma CorrelateStatusAndValue(e: RawEvent, now: string)
    ensures Correlate(e, now).Ok? ==>
      var te := Correlate(e, now).value;
      var t := te.eventType;
      && (t != "ExternalEvent" ==> |t| <= |te.status| && te.status[..|t|] == t)
      && (t == "ChannelStateChange" ==> te.status == t + "#" + e.channelState && te.value == e.channelName)
      && (t == "ChannelVarset" ==> te.status == t + "#" + e.variable && te.value == e.value)
      && (t == "ChannelDtmfReceived" ==> te.status == t + "#" + e.digit && te.value == e.digit)
      && (t == "ChannelEnteredBridge" || t == "ChannelLeftBridge" ==> te.status == t + "#" + e.channelId && te.value == "")
      && (t == "Dial" ==> te.status == (if e.dialstatus == "" then t else t + "#" + e.dialstatus) && te.value == e.dialstring)
      && (t == "ChannelDestroyed" ==> te.status == t && te.value == e.causeTxt + "#" + e.cause)
      && (t == "ChannelHangupRequest" ==> te.status == t && te.value == e.cause)
      && (t == "PlaybackFinished" ==> te.status == t && te.value == OrEmpty(e.playbackState))
      && (t == "PlaybackStarted" ==> te.status == t && te.value == OrEmpty(e.playbackMediaUri))
      && (!StatusComposite(t) ==> te.status == t)
      && (!ValueCarrying(t) ==> te.value == "")
  {
    var externalTime := GoodFunc.FixIsoTimestamp(e.timestamp);
    if Correlate(e, now).Ok? {
      assert Correlate(e, now).value == EventOf(e, externalTime, now);
      EventStatusAndValue(e, externalTime, now);
    }
  }

  /** The status and value part of `CorrelateStatusAndValue`, for the record built from any times. */
  lemma EventStatusAndValue(e: RawEvent, externalTime: string, now: string)
    ensures var te := EventOf(e, externalTime, now);
      var t := te.eventType;
      && (t != "ExternalEvent" ==> |t| <= |te.status| && te.status[..|t|] == t)
      && (t == "ChannelStateChange" ==> te.status == t + "#" + e.channelState && te.value == e.channelName)
      && (t == "ChannelVarset" ==> te.status == t + "#" + e.variable && te.value == e.value)
      && (t == "ChannelDtmfReceived" ==> te.status == t + "#" + e.digit && te.value == e.digit)
      && (t == "ChannelEnteredBridge" || t == "ChannelLeftBridge" ==> te.status == t + "#" + e.channelId && te.value == "")
      && (t == "Dial" ==> te.status == (if e.dialstatus == "" then t else t + "#" + e.dialstatus) && te.value == e.dialstring)
      && (t == "ChannelDestroyed" ==> te.status == t && te.value == e.causeTxt + "#" + e.cause)
      && (t == "ChannelHangupRequest" ==> te.status == t && te.value == e.cause)
      && (t == "PlaybackFinished" ==> te.status == t && te.value == OrEmpty(e.playbackState))
      && (t == "PlaybackStarted" ==> te.status == t && te.value == OrEmpty(e.playbackMediaUri))
      && (!StatusComposite(t) ==> te.status == t)
      && (!ValueCarrying(t) ==> te.value == "")
  {
    var te := EventOf(e, externalTime, now);
    StatusPrefix(e, te.eventType);
  }

  /** A status other than an external one begins with the type it was built from. */
  lemma StatusPrefix(e: RawEvent, t: string)
    ensures t != "ExternalEvent" ==> |t| <= |StatusOf(e, t)| && StatusOf(e, t)[..|t|] == t
  {
    var st := StatusOf(e, t);
    if t != "ExternalEvent" && st != t {
      assert exists x :: st == t + "#" + x;
      var x :| st == t + "#" + x;
      assert (t + "#" + x)[..|t|] == t;
    }
  }

  /**
   * No occurrence of the delimiter starts inside `tag`, not even one that
   * would run on into a delimiter written right after it.
   */
  ghost predicate Separable(tag: string) {
    forall j :: 0 <= j < |tag| ==> !OccursAt(tag + Delimiter, Delimiter, j)
  }

  /** A tag without '-' is separable: every occurrence of the delimiter starts with '-'. */
  lemma DashFreeSeparable(tag: string)
    requires '-' !in tag
    ensures Separable(tag)
  {
    forall j | 0 <= j < |tag|
      ensures !OccursAt(tag + Delimiter, Delimiter, j)
    {
      assert tag[j] != Delimiter[0];
      if j + |Delimiter| <= |tag + Delimiter| {
        assert (tag + Delimiter)[j..j + |Delimiter|][0] == tag[j];
      }
    }
  }

  /**
   * Splitting `tag + "-call_id-" + rest` gives back `tag`, and the call id is
   * `rest` cut at any second delimiter.
   */
  lemma SplitComposite(tag: string, rest: string)
    requires Separable(tag)
    ensures Contains(tag + Delimiter + rest, Delimiter)
    ensures SplitFirst(tag + Delimiter + rest, Delimiter) == tag
    ensures SplitSecond(tag + Delimiter + rest, Delimiter) == SplitFirst(rest, Delimiter)
  {
    var s := tag + Delimiter + rest;
    assert s[|tag|..|tag| + |Delimiter|] == Delimiter;
    assert OccursAt(s, Delimiter, |tag|);
    forall j | 0 <= j < |tag|
      ensures !OccursAt(s, Delimiter, j)
    {
      assert !OccursAt(tag + Delimiter, Delimiter, j);
      assert s == (tag + Delimiter) + rest;
      assert s[j..j + |Delimiter|] == (tag + Delimiter)[j..j + |Delimiter|];
    }
    var k := IndexOf(s, Delimiter).value;
    assert k == |tag|;
    assert s[..k] == tag;
    assert s[k + |Delimiter|..] == rest;
  }

  /**
   * For every listed event type whose resource id is `tag-call_id-rest`, the
   * event's tag is `tag` and its call id is `rest` up to any second delimiter.
   */
  lemma CorrelateSplitsScopedId(e: RawEvent, now: string, tag: string, rest: string)
    requires e.eventType.Some? && ScopedId(e, e.eventType.value) == Some(tag + Delimiter + rest)
    requires Separable(tag)
    ensures Correlate(e, now).Ok? ==>
              Correlate(e, now).value.tag == tag && Correlate(e, now).value.callId == SplitFirst(rest, Delimiter)
  {
    var t := e.eventType.value;
    assert t != "" && t != "ExternalEvent";
    assert OrUnknown(e.eventType) == t;
    SplitComposite(tag, rest);
    assert TagOf(e, t) == tag;
    assert CallIdOf(e, t) == SplitFirst(rest, Delimiter);
  }

  /** An unlisted type, or a resource id without the delimiter, gives 'UNKNOWN' twice. */
  lemma CorrelateUnknownOwner(e: RawEvent, now: string)
    requires OrUnknown(e.eventType) != "ExternalEvent"
    requires ScopedId(e, OrUnknown(e.eventType)).Some? ==> !Contains(ScopedId(e, OrUnknown(e.eventType)).value, Delimiter)
    ensures Correlate(e, now).Ok? ==> Correlate(e, now).value.tag == Unknown && Correlate(e, now).value.callId == Unknown
  {
  }

  /**
   * The deny-list of src/ws_clients/asterisk_web_socket.py: events of type
   * ChannelDialplan and the status ChannelVarset#SIPCALLID are never queued.
   */
  predicate Forwarded(te: TriggerEvent) {
    te.eventType != "ChannelDialplan" && te.status != "ChannelVarset#SIPCALLID"
  }

  /**
   * What the deny-list drops among correlated PBX events: every
   * ChannelDialplan event, and a ChannelVarset event exactly when the
   * variable it sets is SIPCALLID.
   */
  lemma ForwardedPbxEvents(e: RawEvent, now: string)
    ensures Correlate(e, now).Ok? && e.eventType == Some("ChannelDialplan") ==> !Forwarded(Correlate(e, now).value)
    ensures Correlate(e, now).Ok? && e.eventType == Some("ChannelVarset") ==>
              (Forwarded(Correlate(e, now).value) <==> e.variable != "SIPCALLID")
  {
    var externalTime := GoodFunc.FixIsoTimestamp(e.timestamp);
    if Correlate(e, now).Ok? {
      assert Correlate(e, now).value == EventOf(e, externalTime, now);
      EventForwarded(e, externalTime, now);
    }
  }

  /** The deny-list part of `ForwardedPbxEvents`, for the record built from any times. */
  lemma EventForwarded(e: RawEvent, externalTime: string, now: string)
    ensures e.eventType == Some("ChannelDialplan") ==> !Forwarded(EventOf(e, externalTime, now))
    ensures e.eventType == Some("ChannelVarset") ==> (Forwarded(EventOf(e, externalTime, now)) <==> e.variable != "SIPCALLID")
  {
    var te := EventOf(e, externalTime, now);
    if e.eventType == Some("ChannelVarset") {
      assert te.status == "ChannelVarset#" + e.variable;
      if te.status == "ChannelVarset#SIPCALLID" {
        assert e.variable == te.status[14..];
      }
    }
  }

  /** `append_queue_trigger_events`. */
  function Append(q: seq<TriggerEvent>, te: TriggerEvent): (q': seq<TriggerEvent>)
    ensures |q'| == |q| + 1 && q'[|q|] == te && q'[..|q|] == q
  {
    q + [te]
  }

  /** `pop_first_queue_trigger_events`: `None` where Python raises IndexError. */
  function PopFirst(q: seq<TriggerEvent>): (r: Option<(TriggerEvent, seq<TriggerEvent>)>)
    ensures r.None? <==> q == []
    ensures r.Some? ==> [r.value.0] + r.value.1 == q
  {
    if q == [] then None else Some((q[0], q[1..]))
  }

  /** The events obtained by popping `q` until it is empty. */
  function PopAll(q: seq<TriggerEvent>): (out: seq<TriggerEvent>)
    ensures out == q
    decreases |q|
  {
    match PopFirst(q)
    case None => []
    case Some((te, rest)) => [te] + PopAll(rest)
  }

  /** FIFO: appending then draining yields the old contents first and the new event last. */
  lemma {:induction false} QueueIsFifo(q: seq<TriggerEvent>, te: TriggerEvent)
    ensures PopAll(Append(q, te)) == PopAll(q) + [te]
  {
  }
}

=== FILE: wrappers.dfy ===
/** Failure-compatible helper datatypes shared by the whole model. */
module Wrappers {

  /** A value that may be absent: Python's `None` or a missing dictionary key. */
  datatype Option<+T> = None | Some(value: T) {

    /** The value, or `default` when absent (Python's `d.get(k, default)`). */
    function GetOr(default: T): T {
      match this
      case Some(v) => v
      case None => default
    }
  }

  /** Either a value or an error message (a raised exception in the source). */
  datatype Result<+R> = Ok(value: R) | Err(error: string)
}
